=== FILE: README.md ===
# Ashlar text editor: a verified model of its core

This project models the core of the Ashlar text editor in Dafny: the per-line syntax
highlighter with its dirty-line scheduler, bracket matching and code folding across lines,
the editing commands (indent counting, tab stops, comment toggling, auto-indent, cursor
de-duplication), the UTF-8 encoder and icon-font escape decoder with the icon lookup, the
extension and language configuration loader, the path sanitiser of the script bridge, and
the small state machines of the script layer: key dispatch, the command and extension
registries, the UI reducer and the stylesheet key normaliser.

The repository holds two generations of the C++ sources: the older files at the top level
and the newer files under `src/`. Where they differ, both are modelled. The older variants
carry `Legacy` in their names or live in module `LegacyEditor`. Where the two generations
agree, one member models both, and its row below cites the newer file. The older copies
are the warm-up tick (editor.cpp:375-403), the UTF-8 encoder (icons.cpp:21-62), the escape
decoder (icons.cpp:64-88) and the language configuration loader (extension.cpp:81-142).

Modules, one per source component:

| module | file | models |
|---|---|---|
| `Base` | base.dfy | string helpers shared by the rest (search, removal, trimming, splitting) |
| `JsonValue` | json.dfy | the JSON values the configuration files parse to |
| `LineData` | linedata.dfy | the document: lines (text blocks), the highlighter's per-line record, scope maps |
| `Highlighter` | highlighter.dfy | `Highlighter::highlightBlock` and `setFormatFromStyle` |
| `BracketScan` | bracketscan.dfy | what the brackets reported by the scan of `highlightBlock` stand on, over the tokens themselves |
| `Scheduler` | scheduler.dfy | `Highlighter::onUpdate`, `Editor::highlightBlocks`, the `openFile` thresholds |
| `Folding` | folding.dfy | the newer editor's bracket lookup, bracket matching, folding and scope lookup |
| `LegacyEditor` | legacyeditor.dfy | the older editor's `isFoldable`, `findBracketMatch` and `toggleFold` |
| `Cursors` | cursors.dfy | `addExtraCursor` and `build_cursors` |
| `Commands` | commands.dfy | the editing commands of `src/commands.cpp` |
| `Utf8` | utf8.dfy | `to_utf8` and `wstring_convert` |
| `Extension` | extension.dfy | `load_settings`, `load_extensions`, `load_language_configuration`, `language_from_file` |
| `Icons` | icons.dfy | `icon_for_file` and `icon_for_folder`, with their caches |
| `JsFs` | jsfs.dfy | `sanitizePath`, `readFile` and `readFileSync` |
| `CommandRegistry` | commandregistry.dfy | `registerCommand` and `executeCommand` |
| `KeyBinding` | keybinding.dfy | `processKeys` and `loadMap` |
| `ExtensionRegistry` | extensionregistry.dfy | `registerExtension` and `activate` |
| `UiContext` | uicontext.dfy | `setState`, `reducer` and the initial state |
| `StyleSheet` | stylesheet.dfy | `camelToDash`, `distillStyle` and `StyleSheet.create` |

Modelling choices:
- The document is a sequence of lines. Each line holds its text, the block state, an
  optional highlighter record, its character formats, and its visibility.
- The grammar engine and the theme are function-valued parameters. These are
  `parse::parse`, `grammar->seed` and `styles_for_scope`.
- Files on disk are a function from paths to JSON values or to optional text.
- The clock is an input: each key press carries its time.
- Timers are explicit ticks: one call of `OnUpdate` or `HighlightBlocks` is one timer shot.
- Undefined behaviour in the C++ becomes an explicit `Undefined` outcome. This covers a
  null record dereferenced and `back()` on an empty vector.
- A zero tab size used as a divisor is a division by zero, and `TabText` returns
  `Undefined` for it. The loops that would never end are `Undefined` too: the tab loop of
  `autoIndent` at tab size 0 (`IndentText`) and the older `findBracketMatch` on a line
  without a record. Two cases are excluded by preconditions instead:
  - an empty bracket token, on which the bracket scan would never advance;
  - a previous line whose record carries no parser state. `highlightBlock` dereferences
    that state (highlighter.cpp:120-122). `Highlighter.PassLine`, `HighlightBlock` and the
    older `LegacyEditor` passes require `Ready(h) ==> PrevStateKnown(doc, i)`, and the
    scheduler requires `StatesKnown`/`StatesKnownExcept`. The case does arise in the
    program: the warm-up tick attaches empty records (src/editor.cpp:419-421) while the
    highlighter has no theme or grammar (highlighter.cpp:94), which returns before
    setting a state.
- Integers are unbounded; `to_utf8` takes a code point up to the `uint32_t` maximum.

Where the code and its design notes disagree, the model follows the code:
- The newer `language_from_file` does cache the suffix `"."` when a grammar is found. Only
  its fallback path skips the cache (`Extension.DotSuffixCaching`).
- The older highlighter never stores the scope map it computes in the line record. So the
  older `scopesAtCursor` only ever sees an empty map (`LegacyEditor.ScopesAlwaysEmptyAfterPass`).
- The bracket pair counter of the highlighter is never advanced. Every bracket carries
  pair id 0, and the model keeps that.

## Model

| member | source | states |
|---|---|---|
| Highlighter.KindOfScope | highlighter.cpp:52-58 | a scope containing "comment" is tagged comment, else one containing "string" is tagged string, else other; never unset |
| Highlighter.MinimapSpans | highlighter.cpp:67-89 | every minimap span of a run is at least two characters, starts on a non-blank character, has no space inside, ends at a space or at the run's end, and the spans are in order |
| Highlighter.PaintRun | highlighter.cpp:38-90 | exactly the characters of the run take the scope's style (unchanged when the style is empty); the spans it adds lie inside the run and keep the span list ordered |
| Highlighter.ScopeWalkFormats | highlighter.cpp:153-176 | after the scope walk every character carries the style of the scope in force at its column, the one with the greatest offset not beyond it |
| Highlighter.ScopeWalkSpans | highlighter.cpp:153-176 | every minimap span the scope walk produces is a valid span of the line |
| Highlighter.NameAtAfterFirstEntry | highlighter.cpp:153-176 | once past the first scope's offset, the scope in force no longer depends on what preceded the map |
| Highlighter.CommentOpening | highlighter.cpp:186-196 | the first occurrence of the block-comment opener when the scope walk tagged it as comment; -1 exactly when the opener does not occur or its first occurrence is not tagged |
| Highlighter.BlockComment | highlighter.cpp:185-209 | the new state is "comment" iff there is no end delimiter and there is a comment-tagged opener or the previous line ended in a comment; then the rest of the line from the opener is comment-styled; otherwise the state is 0 and nothing is styled unless the previous line was in a comment |
| Highlighter.FirstAt | highlighter.cpp:227-257 | a configured token that occurs at the column, and none exactly when no token occurs there |
| Highlighter.FirstAtIsFirst | highlighter.cpp:227-257 | the token found is the first in configuration order that occurs at the column |
| Highlighter.ExtractBrackets | highlighter.cpp:214-264 | brackets in increasing column order, each token ending before the next bracket, all at or after the start column; each at a bracket start outside comments and strings, open exactly when an opening token occurs there, with pair id 0; every bracket start not covered by a reported token is reported |
| Highlighter.PairBrackets | highlighter.cpp:267-278 | the residue keeps any close only at its bottom and holds only brackets of the line |
| Highlighter.PairingMatchesDepth | highlighter.cpp:267-278 | with one pair id the residue holds as many opens as a depth counter that ignores unmatched closes ends with, and a close iff some close arrived with nothing open |
| Highlighter.DropCloseOpen | highlighter.cpp:281-285 | a residue of exactly a close and an open of the same pair (either order) is cleared; any other residue is kept |
| Highlighter.LineBrackets | highlighter.cpp:212-285 | the brackets a line keeps lie in the line, outside comments and strings, with closes only at the bottom; none when the language has no bracket configuration |
| BracketScan.ExtractBracketsScanned | highlighter.cpp:214-264 | a reported open bracket stands where an opening token occurs; a close one where a closing token and no opening token occurs |
| BracketScan.LineBracketsFromScan | highlighter.cpp:212-285 | every bracket a line keeps is one the scan reported |
| Highlighter.ParseLine | highlighter.cpp:145-149 | a line over 500 characters is not parsed: no scopes and the end state equals the seed state |
| Highlighter.WalkLine | highlighter.cpp:136-176 | every character of the line is formatted by the scope the parser put in force at its column, and every span is valid |
| Highlighter.PassLine | highlighter.cpp:92-296 | while deferred a line without a record is left alone; otherwise the record is created if needed, stores the new end state, is clean, keeps its fold flag, records the predecessor's top rule, and its brackets avoid comments and strings |
| Highlighter.HighlightBlock | highlighter.cpp:294-311 | only the line and its successor change; the successor is marked dirty iff it has a record whose last seen predecessor rule differs from the new top rule |
| Highlighter.LongLineSkipsGrammar | highlighter.cpp:145-149 | for a line over 500 characters the pass is the same whatever the grammar's parser does, and the stored end state is the seed state |
| Highlighter.HighlightBlockIdempotent | highlighter.cpp:92-311 | highlighting a line again right after highlighting it changes nothing |
| LineData.ScopeAtPicksLastEntryNotAfter | src/editor.cpp:643-674 | the scope in force at a column is the entry with the greatest offset not beyond the column |
| Scheduler.Rehighlight | highlighter.cpp:327-334 | re-highlighting a line leaves it clean, leaves every earlier line alone, and keeps every text and every record |
| Scheduler.RehighlightFirstLine | highlighter.cpp:327-334 | the line re-highlighting starts from ends as one pass over it leaves it |
| Scheduler.UpdateScan | highlighter.cpp:327-334 | the tick's loop re-highlights at most 200 lines, each line it passes is clean afterwards, lines before its start are untouched, and it stops early only after 200 passes |
| Scheduler.OnUpdate | highlighter.cpp:314-339 | nothing happens when no line is dirty; otherwise at most 200 passes, and the dirty flag is cleared iff the tick re-highlighted nothing |
| Scheduler.QuietTickMeansAllClean | highlighter.cpp:314-339 | a tick from the first line that finds nothing to do proves every line clean and clears the flag |
| Scheduler.WarmUpScan | src/editor.cpp:415-424 | the warm-up creates at most 200 records, every line it passes ends with a record, and lines before its start are untouched |
| Scheduler.HighlightBlocks | src/editor.cpp:407-437 | a warm-up tick creates at most 200 records, reschedules iff it created one, and ends deferral otherwise; a tick from the top that creates none means every line has a record |
| Scheduler.HighlightAll | highlighter.cpp:92-311 | a full in-order pass keeps every text and leaves earlier lines alone; on lines without records and without deferral it gives every line a clean record and marks nothing dirty |
| Scheduler.OpenFile | editor.cpp:65-78 | a file over 16 KiB is loaded with rendering deferred and the warm-up started; a smaller one disables deferral and every line gets a clean record |
| Folding.FirstAtColumn | src/editor.cpp:455-462 | the first bracket at the column from an index, or -1 exactly when there is none |
| Folding.BracketAtCursor | src/editor.cpp:439-463 | the residual bracket of the line at the column, or none (the sentinel) when the line has no record or no bracket is there |
| Folding.LastOpen | src/editor.cpp:496-504 | the index of the last opening bracket, or -1 exactly when no bracket opens |
| Folding.FindLastOpenBracket | src/editor.cpp:485-507 | the column of the last opening folding bracket; none when the line has no record or no bracket opens |
| Folding.ForwardTokensHaveRecords | src/editor.cpp:516-549 | the forward scan only reaches a line after every line before it had a record |
| Folding.Scan | src/editor.cpp:516-589 | a match it reports is an unskipped bracket of the opposite direction among the scanned ones; a non-empty stack never hits the empty-stack case |
| Folding.ScanMatchesDepth | src/editor.cpp:516-589 | with one pair id the stack scan agrees with a plain depth counter and never reports a mismatch |
| Folding.FindBracketMatch | src/editor.cpp:509-592 | a forward match lies on or below the line and inside the document, a backward match on or above it |
| Folding.FoldLine | src/editor.cpp:621-637 | a folded line is hidden with no height, an unfolded one visible with height 1, and its record carries the flag |
| Folding.FoldRange | src/editor.cpp:621-637 | the loop is defined iff every line in the range has a record; then exactly those lines are folded to the flag and all others are unchanged |
| Folding.FoldEnd | src/editor.cpp:621-637 | the last line the loop reaches lies between the anchor and the document end, and is the match line when that lies below the anchor |
| Folding.FoldTarget | src/editor.cpp:594-619 | a fold acts on the anchor line-1, which has a record, up to a line inside the document |
| Folding.ToggleAt | src/editor.cpp:616-637 | the anchor's flag is inverted, every line after it up to the end line takes the new flag, and no other line changes |
| Folding.ToggleFold | src/editor.cpp:594-641 | no foldable bracket, no bracket at that column, or no match leaves the document as it is; otherwise it toggles the range |
| Folding.SameBracketsSameTarget | src/editor.cpp:594-619 | the fold range depends only on the brackets of the records |
| Folding.ToggleAtKeepsBrackets | src/editor.cpp:616-637 | toggling changes no bracket data |
| Folding.ToggleAtTwice | src/editor.cpp:616-637 | toggling a range twice gives the document back when the range agreed with the anchor's flag |
| Folding.ToggleTwiceRestores | src/editor.cpp:621-637 | toggleFold applied twice restores the document when the range was consistent with the anchor's flag |
| Folding.ScopesAtCursor | src/editor.cpp:643-674 | the scope path in force at the column, split on spaces, joins back to that path; empty for a line without a record |
| Folding.Unsaved | src/editor.cpp:68-129 | the unsaved flag is the last undo-availability signal; opening a file clears it, so when the last event is an open nothing is unsaved |
| LegacyEditor.FoldableIffOpenLeft | editor.cpp:317-327 | a line is foldable iff its residue, as pairing leaves it, still holds an open bracket |
| LegacyEditor.PassFoldableIffOpenLeft | editor.cpp:317-327 | after a highlight pass, the line is foldable iff the pass left an open bracket |
| LegacyEditor.FindBracketMatch | editor.cpp:405-446 | the stack seeded with the line's residue empties at the reported line or not at all; a missing record on the start line or a gap below is undefined |
| LegacyEditor.LegacyMatchIsDepthMatch | editor.cpp:405-446 | with one pair id and a residue of opens, the older match agrees with a depth counter |
| LegacyEditor.DepthScanDefinedFromOpenStack | editor.cpp:405-446 | a depth scan starting with something open never meets a close with nothing open |
| LegacyEditor.ToggleFold | editor.cpp:448-481 | line 0 or past the end is a no-op; no match or no record on the next line is a no-op; otherwise the range is toggled; undefined exactly when the match is |
| LegacyEditor.ToggleDefinedWhenMatchIs | editor.cpp:463-481 | when a match exists the fold loop never meets a missing record |
| LegacyEditor.ToggleTwiceRestores | editor.cpp:448-481 | folding twice with the same brackets restores the document when the range agreed with the flag |
| LegacyEditor.ScopesAlwaysEmptyAfterPass | editor.cpp:499-516 | on a line the older highlighter has passed over, the scope lookup yields the single empty scope |
| Cursors.SelectedText | editor.cpp:984-1001 | the selected text has the selection's length and is empty without a selection |
| Cursors.AnyDuplicate | editor.cpp:984-1001 | true iff some cursor of the list shares the position, or has the same selection start and selected text |
| Cursors.AddExtraCursor | editor.cpp:984-1001 | the cursor is appended iff no existing extra cursor duplicates it; the list is otherwise unchanged |
| Cursors.BuildCursors | src/commands.cpp:11-35 | the main cursor follows the extra cursors exactly when none of them duplicates it |
| Cursors.AddKeepsPositionsDistinct | editor.cpp:984-1001 | adding a cursor never puts two cursors at one position |
| Cursors.AddTwiceIsAddOnce | editor.cpp:984-1001 | adding the same cursor twice is adding it once |
| Commands.CountIndentSize | src/commands.cpp:37-45 | the number of leading spaces when a non-space follows, 0 for an empty or all-space line; a tab ends the indent |
| Commands.IndentWithSentinel | src/commands.cpp:37-45 | the count equals the whole length exactly for an all-space string |
| Commands.MoveToNonWhitespace | src/commands.cpp:47-60 | lands on the first character that is neither space nor tab, or the end of the line |
| Commands.MoveAgreesWithIndentCount | src/commands.cpp:37-60 | on a space-indented line both indent measures agree |
| Commands.TabStopStep | src/commands.cpp:73-77 | the step from an indent to the next tab stop is between 1 and the tab size and lands on a multiple of it |
| Commands.TabText | src/commands.cpp:62-82 | a tab character without tab-to-spaces; otherwise 1 to tab-size spaces, reaching the next tab stop after an all-space prefix; undefined only for a zero tab size there |
| Commands.InsertTab | src/commands.cpp:62-82 | the tab text is inserted at the cursor and the cursor moves past it |
| Commands.TabTextAt | src/commands.cpp:62-82 | the text a tab inserts when the line up to the anchor is measured against the cursor column: a tab character without tab-to-spaces; a full tab width unless the measured indent is non-zero and equal to the column; otherwise 1 to tab-size blanks reaching the next tab stop, Undefined exactly at tab size 0 |
| Commands.TabTextAtCursor | src/commands.cpp:62-82 | with no selection the measured text is the line before the cursor, so the text is the one of `TabText` |
| Commands.InsertTabSelected | src/commands.cpp:62-90 | a non-empty tab text replaces the selection: the text before the selection start and after its end is kept, the tab text sits between them, and the cursor ends after it; an empty tab text (tab size 0, nothing to align) types nothing, so the line and the cursor stay; Undefined exactly when the tab text is |
| Commands.ZeroTabKeepsSelection | src/commands.cpp:79-81 | at tab size 0 the space loop runs no time, so a selected `ab` is neither replaced nor deleted |
| Commands.InsertTabWithoutSelection | src/commands.cpp:62-90 | without a selection, inserting over the selection is inserting at the cursor |
| Commands.SelectionAfterTextGetsFullWidth | src/commands.cpp:70-81 | with tab-to-spaces, a selection anchored after the start of a line that does not begin with a space is replaced by a full tab width of blanks, wherever the cursor is; at tab size 0 the line is kept |
| Commands.WhitespaceDeletion | src/commands.cpp:116-127 | the whitespace loop deletes at most tab size characters and stops at the first tab stop or non-blank character |
| Commands.RemoveTab | src/commands.cpp:92-127 | nothing at column 0; a selection is deleted; one character without tab-to-spaces or after a non-blank; otherwise whitespace only is cut back to the nearest tab stop before the cursor, by at most a tab width, and the text is the line without that stretch |
| Commands.DeletedAreSpaces | src/commands.cpp:116-127 | every character the whitespace loop deletes is whitespace |
| Commands.RemoveTabAtStop | src/commands.cpp:116-127 | on a tab stop after a full tab width of spaces, removeTab deletes exactly that width |
| Commands.TabAtStopIsFullWidth | src/commands.cpp:62-82 | a tab typed on a tab stop is a full tab width of spaces |
| Commands.InsertThenRemoveRestores | src/commands.cpp:62-127 | a tab typed on a tab stop is taken back by one removeTab |
| Commands.Indent | src/commands.cpp:224-230 | indenting without a selection puts a tab width of spaces, or a tab, before the line |
| Commands.Unindent | src/commands.cpp:264-271 | a line without indent is kept; without tab-to-spaces the last indent character goes; otherwise the indent is cut back to the nearest tab stop before its end, by at most a tab width, and the rest of the line is kept |
| Commands.UnindentCutsToStop | src/commands.cpp:116-127 | removeTab at the end of a non-empty space indent stops at the nearest tab stop or after a full width |
| Commands.StopInIndent | src/commands.cpp:116-127 | inside the indent the whitespace loop of removeTab stops exactly at tab stops |
| Commands.IndentThenUnindentRestores | src/commands.cpp:224-271 | indent then unindent restores a line whose space indent is on a tab stop |
| Commands.Marker | src/commands.cpp:136-137 | the marker starts with the line comment, is one character longer, and ends in a space |
| Commands.ToggleLineComment | src/commands.cpp:130-157 | no line comment changes nothing; an existing marker is removed at its first occurrence; otherwise the marker is inserted after the leading spaces |
| Commands.ToggleLineCommentTwice | src/commands.cpp:130-157 | toggling twice restores a line that held no marker |
| Commands.UncommentSelected | src/commands.cpp:173-185 | corrected: a selected line loses the first occurrence of the marker in the line itself, as in the single-line toggle |
| Commands.UncommentSelectedAsWritten | src/commands.cpp:173-185 | the marker is looked up in the trimmed line and removed at that offset of the untrimmed line; unchanged when the trimmed line lacks it |
| Commands.UncommentSelectedAsWrittenMisses | src/commands.cpp:173-185 | a line indented by at least the marker's length and starting with the marker loses indent spaces and keeps its marker |
| Commands.UncommentAsWrittenAfterComment | src/commands.cpp:171-185 | a marker put at column 0 of a non-blank line is exactly what the as-written uncomment takes away |
| Commands.TrimKeepsHead | src/commands.cpp:174 | trimming text that starts with a non-blank keeps its head up to its last non-blank |
| Commands.UncommentSelectedUndoesLineComment | src/commands.cpp:130-185 | uncommenting a selected line takes back what commenting it added |
| Commands.ToggleSelectedLine | src/commands.cpp:171-186 | a blank line is skipped; otherwise the marker goes at the front, or is removed |
| Commands.ToggleCommentLines | src/commands.cpp:158-191 | whether to comment is decided by the first line; blank lines never change; no line comment changes nothing |
| Commands.ToggleCommentLinesTwice | src/commands.cpp:158-191 | toggling a selection twice restores it when no line held a marker, the first is not blank and the line comment does not start with whitespace |
| Commands.ToggleCommentLinesCorrected | src/commands.cpp:158-191 | corrected: the same selection toggle, uncommenting each line at the marker's first occurrence in the line itself |
| Commands.ToggleCommentLinesCorrectedTwice | src/commands.cpp:158-191 | corrected: toggling a selection twice restores it under the same conditions |
| Commands.IndentSource | src/commands.cpp:319-344 | the nearest line at or above with a non-zero indent, or none when every such line has indent 0 |
| Commands.TabsFrom | src/commands.cpp:370-377 | the tab loop emits tabs only, enough to cover the amount at tab size each and no more |
| Commands.IndentText | src/commands.cpp:368-378 | spaces equal to a positive amount with tab-to-spaces; tabs covering it otherwise; undefined only for a zero tab size |
| Commands.AutoIndent | src/commands.cpp:301-379 | undefined on a line without a record; nothing without an indented line above; otherwise that line's indent, plus one step after an open bracket and minus one step before a leading close, where a step is the tab size with tab-to-spaces and 1 otherwise |
| Commands.AutoIndentFollowsBrackets | src/commands.cpp:301-379 | a fresh line below an indented line ending in an open bracket is indented one tab size further, or kept level before a close |
| Utf8.EncodedLength | src/icons.cpp:75-85 | 1, 2, 3 or 4 bytes by code point range, and 0 exactly above U+10FFFF |
| Utf8.Continuations | src/icons.cpp:89-99 | each continuation byte has the form 10xxxxxx |
| Utf8.ToUtf8 | src/icons.cpp:69-102 | the length follows the ranges; lead bytes carry prefix 0, 110, 1110 or 11110 and continuation bytes 10 |
| Utf8.ContinuationsValue | src/icons.cpp:89-99 | the continuation bytes carry the low six-bit groups of the code point, most significant first |
| Utf8.DecodeEncode | src/icons.cpp:69-102 | decoding per section 3 of RFC 3629 gives back every code point up to U+10FFFF |
| Utf8.SurrogateIsEncoded | src/icons.cpp:69-102 | a surrogate is encoded, not rejected |
| Utf8.LeadingHex | src/icons.cpp:115-119 | the length of the leading run of hexadecimal digits |
| Utf8.ParseHex | src/icons.cpp:115-119 | a hexadecimal read succeeds iff digits lead and their value fits 32 bits, and then gives the value of exactly those leading digits |
| Utf8.HexValueOfDigits | src/icons.cpp:115-119 | the value of a number's hexadecimal numeral is the number |
| Utf8.ParseHexDigits | src/icons.cpp:115-119 | any 32-bit value written in hexadecimal and followed by a non-digit reads back as itself |
| Utf8.ConvertFrom | src/icons.cpp:104-128 | without a convertible escape the text is unchanged; otherwise the first convertible escape and everything after it become the UTF-8 of its value |
| Utf8.WStringConvert | src/icons.cpp:104-128 | text without an escape is returned unchanged |
| Utf8.ConvertEscapedGlyph | src/icons.cpp:104-128 | an escape with a hexadecimal value after escape-free text becomes that text plus the value's UTF-8 |
| Utf8.ConvertExample | src/icons.cpp:104-128 | the escape of U+F101 becomes the bytes EF 84 81 |
| Extension.MergeSettings | src/extension.cpp:15-28 | every top-level member is copied and later ones overwrite; other settings are kept; a non-object changes nothing |
| Extension.LoadSettings | src/extension.cpp:15-28 | the file's members land in the settings; a non-object leaves them untouched |
| Extension.LoadSettingsLegacy | extension.cpp:15-28 | the same for the file settings.json inside the path |
| Extension.ExtensionEntry | src/extension.cpp:46-94 | an entry is made iff the package contributes themes, icon themes or languages, or has an ashlar key, or is the editor itself |
| Extension.LoadExtensions | src/extension.cpp:30-98 | exactly the eligible directories become extensions, in order |
| Extension.LoadExtensionsLegacy | extension.cpp:30-79 | exactly the directories contributing themes, icon themes or languages become extensions, each with its own path and package |
| Extension.LoadExtensionsAppend | src/extension.cpp:30-98 | the listing is processed entry by entry: loading a + b is loading a, then b |
| Extension.LoadExtensionsSingle | src/extension.cpp:30-98 | one directory gives its entry when it has one, and nothing otherwise |
| Extension.LoadExtensionsLegacyAppend | extension.cpp:30-79 | the older loader likewise processes the listing entry by entry |
| Extension.LoadExtensionsLegacySingle | extension.cpp:30-79 | one directory gives an extension with its path and package, no entry path, exactly when it contributes themes, icon themes or languages |
| Extension.BracketPairs | src/extension.cpp:128-142 | every pair comes from a two-string array entry, and every such entry gives its pair; all qualifying means one pair per entry |
| Extension.AutoClosingPairs | src/extension.cpp:144-158 | every pair comes from an entry with open and close, and every such entry gives its pair; all qualifying means one pair per entry |
| Extension.BracketPairsAppend | src/extension.cpp:128-142 | bracket entries are taken one by one, in order |
| Extension.BracketPairsSingle | src/extension.cpp:128-142 | one entry gives its pair exactly when it is a two-string array |
| Extension.AutoClosingPairsAppend | src/extension.cpp:144-158 | auto-closing entries are taken one by one, in order |
| Extension.AutoClosingPairsSingle | src/extension.cpp:144-158 | one entry gives its pair exactly when it has open and close |
| Extension.ApplyComments | src/extension.cpp:108-126 | the line comment is copied when present; block delimiters change only from a two-element array of non-empty strings; nothing else changes |
| Extension.ApplyBrackets | src/extension.cpp:128-142 | the pairs are appended with open and close lists kept the same length; the brackets flag is true iff the list is non-empty |
| Extension.ApplyPairs | src/extension.cpp:144-158 | likewise for auto-closing pairs and the pairs flag |
| Extension.LoadLanguageConfiguration | src/extension.cpp:100-158 | an empty configuration loads nothing and changes nothing; otherwise it loads, keeping id, grammar and list lengths balanced |
| Extension.FileName | src/extension.cpp:171-175 | the file name is the suffix of the path after its last slash: it holds no slash, ends the path, and is preceded by a slash unless it is the whole path |
| Extension.FileNameWithoutSlash | src/extension.cpp:171-175 | a path without a slash is its own file name |
| Extension.AfterLastDot | src/extension.cpp:171-175 | for a name with a dot, the suffix is the part after its last dot (it holds no dot, ends the name and follows a dot); for a name without a dot it is empty |
| Extension.JoinPath | src/extension.cpp:267-278 | an absolute name is kept; a relative one ends the joined path |
| Extension.ResolveInLanguages | src/extension.cpp:194-240 | an earlier find is kept; otherwise the first entry with a non-empty id matching the file name or suffix gives the language, the grammars of the extension and the entry's configuration, with the extension path unless the file name matched; no such entry keeps the configuration |
| Extension.FirstHit | src/extension.cpp:194-240 | the first language entry with a non-empty id that names the file or lists its suffix |
| Extension.Resolve | src/extension.cpp:189-244 | an earlier find is kept; otherwise the language comes from the first searched extension holding a hit, at its first hit |
| Extension.FirstResolving | src/extension.cpp:189-244 | the first extension contributing languages and grammars in which a language entry hits |
| Extension.FirstResolvingStep | src/extension.cpp:189-244 | the search ends in the first extension when it can, otherwise one later than among the rest |
| Extension.FirstMatching | src/extension.cpp:252-266 | the first grammar whose scope name, or language, matches; none exactly when none does |
| Extension.PickGrammar | src/extension.cpp:252-266 | a grammar scoped source.id wins over one matching by language field |
| Extension.LanguageFromFile | src/extension.cpp:163-300 | a cached suffix returns the cache entry; on a miss the resolved extension's picked grammar decides: none gives the fallback, cached unless the suffix is "."; one gives that grammar's path joined to the extension path, the resolved id, and the extension's language configuration loaded over them, cached under the suffix |
| Extension.LanguageFromFileWithoutHit | src/extension.cpp:163-300 | when no extension resolves the name or suffix, a cache miss gives the fallback language |
| Extension.LanguageFromFileTakesFirstHit | src/extension.cpp:163-300 | a grammar found on a miss belongs to the first resolving extension and carries the id of its first matching language |
| Extension.LanguageFromFileStable | src/extension.cpp:177-181 | asking again with the cache the lookup left gives the same language and cache |
| Extension.ResolveInLanguagesLegacy | extension.cpp:171-198 | an earlier find is kept; otherwise the first entry with extensions and a non-empty id listing the suffix gives the language, grammars, configuration and extension path; no such entry keeps the configuration |
| Extension.FirstHitLegacy | extension.cpp:171-190 | the first entry with extensions and a non-empty id that lists the suffix |
| Extension.ResolveLegacy | extension.cpp:164-202 | an earlier find is kept; otherwise the language comes from the first searched extension holding a hit, with that extension's path |
| Extension.FirstResolvingLegacy | extension.cpp:164-202 | the first extension contributing languages and grammars in which an entry hits |
| Extension.FirstResolvingLegacyStep | extension.cpp:164-202 | the older search ends in the first extension when it can, otherwise one later than among the rest |
| Extension.LoadMatchingGrammars | extension.cpp:204-232 | the grammar of the last entry whose language matches is the one kept, with the resolved id, and the language configuration is loaded once more over what the earlier entries left, appending brackets and pairs again; none matching changes nothing |
| Extension.LastMatching | extension.cpp:204-232 | the index of the last grammar entry whose language matches, or the length when none does |
| Extension.LoadMatchingGrammarsAppend | extension.cpp:204-232 | loading a concatenation loads the first part and then the second over its result |
| Extension.LanguageFromFileLegacy | extension.cpp:144-243 | the result is always cached under the suffix, including "."; on a miss it is the fallback exactly when nothing resolves or no grammar of the resolved extension matches, and otherwise the grammars loaded from the resolved extension, the last matching one kept |
| Extension.LanguageFromFileLegacyWithoutHit | extension.cpp:144-243 | when no extension resolves the suffix, a cache miss gives the fallback language, cached under the suffix |
| Extension.LanguageFromFileLegacyTakesFirstHit | extension.cpp:144-243 | a grammar found on a miss is the last matching grammar of the first resolving extension, with the id of its first matching language |
| Extension.LanguageFromFileLegacyStable | extension.cpp:153-157 | asking again with the cache the lookup left gives the same language and cache |
| Extension.DotSuffixCaching | extension.cpp:234-242 | for a name without a suffix the older resolver caches "." and the newer does not |
| Extension.TrailingDotSuffix | src/extension.cpp:171-175 | a name ending in a dot has the empty suffix, so its cache key is "." |
| Icons.MemberOr | src/icons.cpp:158-188 | a member's string when present, otherwise the fallback |
| Icons.DefinitionOf | src/icons.cpp:200-222 | a font character is decoded from its escape; otherwise the icon path joined under the theme's icon directory; otherwise no icon |
| Icons.FileIconName | src/icons.cpp:158-192 | the first non-empty of: the extension key (or else the file-name key), the resolved language id, the suffix among language ids, and "file"; the language cache changes only when the first is empty |
| Icons.FirstNonEmpty | src/icons.cpp:158-188 | the first non-empty name of the fallback chain, "" exactly when all are empty |
| Icons.FileIconNameStable | src/icons.cpp:158-188 | asking again with the language cache the first lookup left gives the same name |
| Icons.Paint | src/icons.cpp:224-243 | corrected: nothing drawn (a null pixmap) exactly for no definition or an empty glyph; a path icon is drawn as tinted SVG |
| Icons.PaintAsWritten | src/icons.cpp:224-243 | as written, painting never gives a null pixmap, and a missing definition gives a blank one |
| Icons.PaintDiffersOnlyWhenNothingDrawn | src/icons.cpp:230-240 | the corrected and as-written painting differ exactly where nothing is drawn |
| Icons.IconForFile | src/icons.cpp:130-244 | corrected: no theme gives a null pixmap; a cached suffix and colour return the cached pixmap; otherwise the resolved name painted by the corrected painting, cached only when not null; the folder cache is kept |
| Icons.IconForFileAsWritten | src/icons.cpp:130-244 | no theme gives a null pixmap; a cached suffix and colour return the cached pixmap; an empty name gives a null pixmap, not cached; otherwise the name painted as written and cached; the folder cache is kept |
| Icons.UndefinedIconIsBlankAsWritten | src/icons.cpp:236 | a resolved name without a definition gives a cached blank pixmap as written, and a null uncached one corrected |
| Icons.IconForFileAsWrittenRepeat | src/icons.cpp:136-144 | as written, asking twice returns the same pixmap and the second call changes nothing |
| Icons.IconForFileRepeat | src/icons.cpp:136-144 | asking twice returns the same pixmap and the second call changes nothing |
| Icons.FolderIconName | src/icons.cpp:262-276 | an open folder uses folderExpanded when set, else folder; a closed one uses folder |
| Icons.IconForFolder | src/icons.cpp:246-335 | no theme or an empty name gives a null pixmap; a cached name and colour return the folder cache entry; otherwise the name painted as written and cached in the folder cache alone |
| Icons.FolderWithoutExpandedIcon | src/icons.cpp:262-276 | without folderExpanded, open and closed folders share their icon |
| Icons.PaintLegacy | icons.cpp:143-187 | the older painting always returns a pixmap; a path icon is drawn as an image |
| Icons.FileIconNameLegacy | icons.cpp:116-141 | the first non-empty of: the extension key, the resolved language id, the suffix among language ids, and "file"; the language cache changes only when the first is empty |
| Icons.IconForFileLegacy | icons.cpp:90-190 | no theme gives a null pixmap; a cached suffix returns its pixmap; otherwise the resolved name painted by the older painting and cached by suffix alone |
| Icons.LegacyFileIconCached | icons.cpp:96-102 | once a suffix is cached, later calls return that pixmap |
| Icons.IconForFolderLegacy | icons.cpp:192-292 | the folder icon, open or not: the cached pixmap under its name, or the older painting of it, then cached in the folder cache |
| Icons.LegacyFolderIgnoresOpen | icons.cpp:232-234 | open and closed folders get the same icon |
| JsFs.RemoveAllChar | src/js.cpp:17 | removing every "~" leaves none |
| JsFs.RemoveDotsLeavesNone | src/js.cpp:18 | removing every ".." leaves no ".." |
| JsFs.RemoveAllAbsent | src/js.cpp:17-18 | removal without an occurrence changes nothing |
| JsFs.RemoveAllKeepsChars | src/js.cpp:17-18 | removal never introduces a character |
| JsFs.Clean | src/js.cpp:17-18 | the cleaned component is the component without "~" and with each run of dots shrunk to one dot if odd and none if even; it holds no "~" and no "..", and a clean component is unchanged |
| JsFs.Without | src/js.cpp:17 | the text without the character, which no longer occurs and is no longer than before |
| JsFs.RemoveAllCharIsWithout | src/js.cpp:17 | replacing a one-character pattern by nothing drops exactly that character |
| JsFs.RemoveDotsIsParity | src/js.cpp:18 | replacing ".." by nothing left to right leaves one dot of each odd run of dots and none of each even run |
| JsFs.CleanPathUnchanged | js.cpp:15-16 | a component free of "~" and ".." is unchanged by cleaning |
| JsFs.CleanIdempotent | js.cpp:15-16 | cleaning twice is cleaning once |
| JsFs.SanitizePath | src/js.cpp:14-25 | a path that already contains the project is returned cleaned; otherwise the cleaned path is joined under the project |
| JsFs.SanitizedComponentIsClean | src/js.cpp:17-24 | the part of the result that comes from the path holds no "~" and no ".." |
| JsFs.SanitizeIgnoresRemovedParts | src/js.cpp:17-24 | paths equal after cleaning sanitise to the same result |
| JsFs.SanitizePathLegacy | js.cpp:13-18 | the cleaned path is always joined under the project |
| JsFs.LegacySanitizeStable | js.cpp:13-18 | sanitising a clean component gives the project join of the component itself |
| JsFs.ReadFile | src/js.cpp:30-38 | the contents of the sanitised path, or empty text when there is no such file |
| JsFs.ReadFileSyncIsReadFile | src/js.cpp:39-42 | readFileSync ignores its options and equals readFile |
| CommandRegistry.RegisterCommand | js/commands.js:4-7 | the name holds the new function and every other entry is kept |
| CommandRegistry.ExecuteCommand | js/commands.js:9-13 | the registered function is called once with the arguments; an unknown name calls nothing |
| CommandRegistry.RegisterThenExecute | js/commands.js:4-12 | after registering a name, executing it calls the new function |
| CommandRegistry.RegisterOverwrites | js/commands.js:5 | registering a name twice keeps only the later function |
| CommandRegistry.RegisterLeavesOthers | js/commands.js:5 | registering one name does not change what executing another does |
| KeyBinding.ProcessKeys | js/keybinding.js:11-30 | an unmapped combination or a repeat within 150 ms is refused with no change; otherwise the press is recorded and its command executed |
| KeyBinding.DoubleDeliveryRunsOnce | js/keybinding.js:18-21 | a press delivered twice within 150 ms runs its command once |
| KeyBinding.OtherKeysNotSuppressed | js/keybinding.js:18-21 | a different combination is never suppressed |
| KeyBinding.LastFor | js/keybinding.js:35-37 | the last entry that binds a combination, none exactly when none binds it |
| KeyBinding.LoadMap | js/keybinding.js:32-43 | each combination maps to the last entry binding it; unmentioned combinations keep their mapping |
| KeyBinding.LoadMapTwice | js/keybinding.js:32-43 | loading the same map twice is loading it once |
| KeyBinding.LoadMapKeepsEarlier | js/keybinding.js:32-43 | a later map keeps what an earlier one bound unless it rebinds it |
| ExtensionRegistry.RegisterExtension | js/extensions.js:4-10 | the object is stored under its name, and a previous holder is deactivated first |
| ExtensionRegistry.ActivateExtension | js/extensions.js:12-18 | an unknown name or an already activated object changes nothing; otherwise activate is called once and the flag set |
| ExtensionRegistry.StepConsistent | js/extensions.js:4-18 | each operation keeps the activation count of every object at one if flagged, zero otherwise |
| ExtensionRegistry.RunConsistent | js/extensions.js:4-18 | any sequence of operations keeps that agreement |
| ExtensionRegistry.ActivatedAtMostOnce | js/extensions.js:12-18 | activate is called at most once per object, however scripts register and activate |
| ExtensionRegistry.FreshObjectActivatesAgain | js/extensions.js:8-15 | registering a fresh object lets activate run again for the name |
| ExtensionRegistry.ReRegisteredObjectStaysActive | js/extensions.js:8-15 | re-registering an activated object does not activate it again |
| UiContext.SetState | js/uiContext.js:12-17 | the action carries every parameter and type SET_STATE unless a parameter overrides it |
| UiContext.Reducer | js/uiContext.js:19-29 | a SET_STATE action merges its fields into the state with the action winning and no type key; any other action returns the state |
| UiContext.DispatchSetState | js/uiContext.js:12-29 | dispatching setState merges the parameters into the state |
| UiContext.ParamTypeOverridesAction | js/uiContext.js:12-29 | a type among the parameters makes the reducer ignore the action |
| UiContext.ReducerIdempotent | js/uiContext.js:19-29 | dispatching the same action twice is dispatching it once |
| UiContext.InitialState | js/uiContext.js:6-10 | the stored object when it has a truthy ui field, otherwise the empty object |
| UiContext.StoredStateNeedsUi | js/uiContext.js:6-10 | a stored object without a truthy ui field is discarded |
| StyleSheet.DashCapitals | js/lib/stylesheet.js:3-5 | no capital letters remain, and a name without capitals is unchanged |
| StyleSheet.CamelToDash | js/lib/stylesheet.js:3-5 | no capital letters remain; a leading capital is lowered without a dash, and a dashed lower-case key is unchanged |
| StyleSheet.CamelToDashRoundTrip | js/lib/stylesheet.js:3-5 | a camel-case name starting lower case comes back from its dashed form |
| StyleSheet.CamelToDashIdempotent | js/lib/stylesheet.js:3-5 | dashing a dashed key changes nothing |
| StyleSheet.DashCapitalsRoundTrip | js/lib/stylesheet.js:3-5 | every inner capital becomes a dash and its lower case, and undashing restores the name |
| StyleSheet.Lookup | js/lib/stylesheet.js:37 | the value under a key, undefined exactly when the key is absent |
| StyleSheet.WritesByKey | js/lib/stylesheet.js:17-37 | margin-horizontal writes both horizontal margins and margin-vertical both vertical ones with the entry's value, background-color writes background, and any other key writes exactly its dashed name, with the entry's value when corrected and the style's value under the dashed name as written; a lower-case key is its own dashed name |
| StyleSheet.WritesNeverSpecial | js/lib/stylesheet.js:20-32 | no written key is margin-horizontal, margin-vertical or background-color |
| StyleSheet.Apply | js/lib/stylesheet.js:14-40 | each key of the result holds what the last entry writing it wrote |
| StyleSheet.DistillStyle | js/lib/stylesheet.js:14-40 | corrected: each output key holds the value of the last entry that writes it, and no special key is emitted |
| StyleSheet.DistillStyleAsWritten | js/lib/stylesheet.js:14-40 | the same, with plain keys reading the style under their dashed name |
| StyleSheet.LastWriteWins | js/lib/stylesheet.js:14-40 | corrected: in the corrected version a key holds what the last entry writing it wrote |
| StyleSheet.PlainEntryKeepsValue | js/lib/stylesheet.js:37 | corrected: a plain entry's value lands under its dashed name unless a later entry overwrites it |
| StyleSheet.MarginHorizontalSetsBothSides | js/lib/stylesheet.js:20-23 | margin-horizontal sets margin-left and margin-right to its value |
| StyleSheet.DashedStyleSameBothWays | js/lib/stylesheet.js:37 | on a style whose keys are already dashed, both readings give the same result |
| StyleSheet.CamelCaseValueLostAsWritten | js/lib/stylesheet.js:37 | as written, a one-entry style whose key has a capital, such as {fontSize: 12}, leaves its dashed key undefined; corrected, the key keeps the value |
| StyleSheet.Create | js/lib/stylesheet.js:42-51 | corrected: the same top-level keys, each mapped to its style distilled by the corrected distillStyle |
| StyleSheet.CreateAsWritten | js/lib/stylesheet.js:42-51 | the same top-level keys, each mapped to its style distilled as written |
| StyleSheet.CreateSameOnDashedStyles | js/lib/stylesheet.js:14-51 | on styles whose keys are already dashed and distinct, both versions create the same sheet |

## Left out

- Painting and widgets: formats, colours and pixmaps are recorded as values, never drawn.
  The same goes for the minimap buffer, the gutter and the overlay.
- The grammar engine, theme parsing and JSON parsing are outside the model. They appear as
  function parameters or as already-parsed JSON values.
- Qt's text cursor machinery is reduced to columns within one line. The line-walking
  `movePosition(Down)` of the selection comment toggle is replaced by the list of selected
  lines, and a bracket position is a column in its own line.
- QString's line separator U+2029 in `selectedText` is not modelled; text is plain characters.
- The mismatch between QString length and UTF-8 byte length is not modelled; line text is ASCII.
- Utf8.ParseHex: reads only the leading hexadecimal digits; istream's skipping of leading
  whitespace, signs and a `0x` prefix is not modelled.
- Negative tab sizes are not modelled: the tab size is a natural number.
- Timers: each `QTimer` shot or `singleShot` is one explicit call.
- File I/O is left out: reading, writing, `appendFile`, `writeFile`, the file watcher, and
  the directory iteration of `load_extensions`, which is given as a list.
- Qt's path normalisation (`absolutePath`, `absoluteFilePath`) is a parameter of `JsFs`.
- The icon font colour is carried as text; QColor parsing is not modelled.
- SVG recolouring in `SVGIcon` is recorded as a tinted SVG value; rendering is not modelled.
- Floating-point code is outside the model: colour darkness, easing and scroll velocity.
- JavaScript prototype keys (`constructor`, `toString`, `__proto__`) in `styleMap` and
  `key_mapping` lookups are not modelled: `styleMap` holds only `background-color`, and a key
  combination is looked up as a plain map key. The same holds for the `registry` objects
  of js/commands.js and js/extensions.js, whose lookups the model makes on a map holding only
  registered names. The next three lines name what the script does on such a name.
- CommandRegistry.ExecuteCommand: on an unregistered prototype name such as `toString` the
  script calls the inherited method; the model does nothing.
- ExtensionRegistry.RegisterExtension: on an unregistered prototype name such as
  `constructor` the script calls `deactivate` on the inherited value and throws; the model
  registers the extension.
- ExtensionRegistry.ActivateExtension: on an unregistered prototype name such as `toString`
  the script calls `activate` on the inherited value and throws; the model does nothing.
- The order of `Object.keys` is taken as the entry order; integer-like keys coming first is
  not modelled.
- KeyBinding.LoadMap: a non-array argument, `null` entries and entries without `keys` throw
  or coerce `undefined` in the script; the model takes a list of well-formed entries.
- CommandRegistry.ExecuteCommand: a registered value that is falsy or throws is not
  modelled; handlers are functions, which are always truthy.
- The reducer's write to `localStorage` and the React `StoreProvider` are left out.
- `Editor::highlightBlocks`' repainting of the buffer and the minimap is left out.
- JsonValue.IsMember: returns false on a value that is not an object, where jsoncpp's
  `isMember` throws on any value that is neither null nor an object.
- JsonValue.Get: returns null for a value that is not an object, where jsoncpp's
  `operator[](key)` throws on any value that is neither null nor an object.
- JsonValue.Elements: returns no elements for a value that is not an array, where jsoncpp's
  `operator[](index)` throws on an object.
- JsonValue.AsString: returns "" for an array or an object, where jsoncpp's `asString`
  throws.
- ExtensionRegistry.RegisterExtension: a `deactivate` that throws is not modelled; the call
  always returns.
- ExtensionRegistry.ActivateExtension: an `activate` that throws is not modelled; the flag
  is always set after the call.
- Extension.ExtensionEntry: the entry path is the extension path, a slash and the `main`
  member, without the `absoluteFilePath` normalisation of the newer loader.
- The hello-world, search and fuzzy extensions, the React views and the native bridge's
  other methods are left out.

## Findings

| source | as written | input that shows it | evidently intended | confidence | as-written member | corrected member |
|---|---|---|---|---|---|---|
| src/commands.cpp:173-185 | uncommenting a selection looks the marker up in the trimmed line and uses that offset as a column of the untrimmed line | a selected line indented by at least as many spaces as the marker is long and starting with the marker, such as `"    # foo"` with line comment `#`, loses indent spaces and keeps its marker (`"  # foo"`) | the marker is removed where it occurs in the line, as the single-line toggle does | medium, not executed | Commands.UncommentSelectedAsWrittenMisses | Commands.UncommentSelectedUndoesLineComment |
| src/icons.cpp:236 | `if (icon_type = icon_svg)` assigns instead of comparing, so the empty-pixmap branch after it is never taken | a file whose resolved icon name has no definition in the theme (a theme whose `file` icon is not defined, say) yields a blank 16x16 pixmap, cached, instead of a null one | an undefined icon gives a null pixmap and is not cached | high, not executed | Icons.UndefinedIconIsBlankAsWritten | Icons.PaintDiffersOnlyWhenNothingDrawn |
| js/lib/stylesheet.js:37 | `res[k] = style[k]` reads the style under the dashed key instead of using the value read before dashing | `{fontSize: 12}` distils to `{"font-size": undefined}` | `{"font-size": 12}` | medium, not executed | StyleSheet.CamelCaseValueLostAsWritten | StyleSheet.PlainEntryKeepsValue |

=== FILE: base.dfy ===
/** Shared vocabulary: optional values, the outcome of code whose behaviour C++ leaves
    undefined, and the handful of string operations (QString/std::string) the editor uses.
    Text is modelled as a sequence of ASCII characters. */
module Base {

  /** A value that may be absent (a null pointer, a missing map entry). */
  datatype Option<+T> = None | Some(value: T) {
    function GetOr(default: T): T {
      match this
      case Some(v) => v
      case None => default
    }
  }

  /** The result of a C++ routine that either returns normally or reaches undefined
      behaviour (a null dereference, `back()` on an empty vector, a loop that never ends). */
  datatype Checked<+T> = Ok(value: T) | Undefined

  /** `p` occurs in `s` starting at index `i`. */
  predicate OccursAt(s: string, p: string, i: int) {
    0 <= i && i + |p| <= |s| && s[i..i + |p|] == p
  }

  predicate StartsWith(s: string, p: string) {
    |p| <= |s| && s[..|p|] == p
  }

  predicate Contains(s: string, p: string) {
    exists i | 0 <= i <= |s| :: OccursAt(s, p, i)
  }

  /** First index at or after `from` where `p` occurs in `s`, or -1
      (QString::indexOf / std::string::find with a start index). */
  function IndexOfFrom(s: string, p: string, from: nat): (r: int)
    ensures r == -1 || (from <= r && OccursAt(s, p, r))
    ensures r == -1 ==> forall i :: from <= i ==> !OccursAt(s, p, i)
    ensures r >= 0 ==> forall i :: from <= i < r ==> !OccursAt(s, p, i)
    decreases |s| - from
  {
    if from + |p| > |s| then -1
    else if s[from..from + |p|] == p then from
    else IndexOfFrom(s, p, from + 1)
  }

  function IndexOf(s: string, p: string): (r: int)
    ensures r == -1 <==> !Contains(s, p)
    ensures r >= 0 ==> OccursAt(s, p, r) && forall i :: 0 <= i < r ==> !OccursAt(s, p, i)
  {
    IndexOfFrom(s, p, 0)
  }

  /** QString::replace(p, "") for a non-empty `p`: every non-overlapping occurrence,
      scanned left to right, is deleted in a single pass. */
  function RemoveAll(s: string, p: string): (r: string)
    requires |p| > 0
    ensures |r| <= |s|
    decreases |s|
  {
    if |s| < |p| then s
    else if s[..|p|] == p then RemoveAll(s[|p|..], p)
    else [s[0]] + RemoveAll(s[1..], p)
  }

  /** The characters QChar::isSpace accepts in the ASCII range. */
  predicate IsSpace(c: char) {
    c == ' ' || c == '\t' || c == '\n' || c == '\r' || c as int == 11 || c as int == 12
  }

  predicate AllSpace(s: string) {
    forall i :: 0 <= i < |s| ==> IsSpace(s[i])
  }

  /** QString::trimmed: whitespace removed from both ends. */
  function Trim(s: string): (r: string)
    ensures |r| <= |s|
    ensures |r| > 0 ==> !IsSpace(r[0]) && !IsSpace(r[|r| - 1])
    ensures |r| == 0 <==> AllSpace(s)
    decreases |s|
  {
    if |s| == 0 then s
    else if IsSpace(s[0]) then Trim(s[1..])
    else if IsSpace(s[|s| - 1]) then Trim(s[..|s| - 1])
    else s
  }

  predicate IsUpper(c: char) {
    'A' <= c <= 'Z'
  }

  function ToLower(c: char): char {
    if IsUpper(c) then (c as int + 32) as char else c
  }

  /** QString::split(sep): the pieces between separators, empty pieces kept. */
  function Split(s: string, sep: char): (r: seq<string>)
    ensures |r| >= 1
    ensures forall k :: 0 <= k < |r| ==> sep !in r[k]
    decreases |s|
  {
    if |s| == 0 then [""]
    else
      var rest := Split(s[1..], sep);
      if s[0] == sep then [""] + rest
      else [[s[0]] + rest[0]] + rest[1..]
  }

  /** QStringList::join(sep): the pieces with `sep` between neighbours. */
  function Join(parts: seq<string>, sep: char): string {
    if |parts| == 0 then ""
    else if |parts| == 1 then parts[0]
    else parts[0] + [sep] + Join(parts[1..], sep)
  }

  /** Splitting on a separator loses nothing: joining the pieces gives the text back. */
  lemma {:induction false} JoinSplit(s: string, sep: char)
    ensures Join(Split(s, sep), sep) == s
    decreases |s|
  {
    if |s| > 0 {
      var rest := Split(s[1..], sep);
      JoinSplit(s[1..], sep);
      if s[0] == sep {
        assert Split(s, sep) == [""] + rest;
        assert ([""] + rest)[1..] == rest;
        assert s == [sep] + s[1..];
      } else {
        var parts := [[s[0]] + rest[0]] + rest[1..];
        assert Split(s, sep) == parts;
        if |rest| == 1 {
          assert Join(rest, sep) == rest[0];
        } else {
          assert parts[1..] == rest[1..];
          assert Join(rest, sep) == rest[0] + [sep] + Join(rest[1..], sep);
        }
        assert s == [s[0]] + s[1..];
      }
    }
  }

  /** Decimal rendering of an integer (jsoncpp's asString on an integer value). */
  function NatToString(n: nat): (r: string)
    ensures |r| >= 1
    ensures forall k :: 0 <= k < |r| ==> '0' <= r[k] <= '9'
  {
    if n < 10 then [(48 + n) as char]
    else NatToString(n / 10) + [(48 + n % 10) as char]
  }

  function IntToString(i: int): string {
    if i < 0 then "-" + NatToString(-i) else NatToString(i)
  }

  lemma MulFarFromZero(e: int, d: int)
    requires d > 0 && e != 0
    ensures e * d >= d || e * d <= -d
  {
  }

  /** Quotient and remainder are determined by `x == q * d + r` with `0 <= r < d`. */
  lemma DivModUnique(x: int, q: int, r: int, d: int)
    requires d > 0 && 0 <= r < d && x == q * d + r
    ensures x / d == q && x % d == r
  {
    var q2, r2 := x / d, x % d;
    assert (q2 - q) * d == r - r2;
    if q2 != q {
      MulFarFromZero(q2 - q, d);
    }
  }
}

=== FILE: bracketscan.dfy ===
/** What a bracket reported by the scan of Highlighter::highlightBlock (highlighter.cpp,
    lines 214-264) stands on, stated over the tokens themselves. */
module BracketScan {
  import opened Base
  import opened LineData
  import opened Extension
  import opened Highlighter

  /** A bracket in terms of the tokens themselves: inside the line, outside comments and
      strings, with line 0 and pair id 0; an open one where an opening token occurs, a
      close one where a closing token and no opening token occurs. */
  ghost predicate ScannedBracket(line: string, fm: seq<CharFormat>, opens: seq<string>, closes: seq<string>, b: Bracket) {
    && b.position < |line| && b.id == 0 && b.line == 0
    && !InStringOrComment(fm, b.position)
    && (b.open ==> exists t <- opens :: OccursAt(line, t, b.position))
    && (!b.open ==> (exists t <- closes :: OccursAt(line, t, b.position)) && (forall t <- opens :: !OccursAt(line, t, b.position)))
  }

  /** Every bracket the scan reports stands on a token of the right kind. */
  lemma ExtractBracketsScanned(line: string, fm: seq<CharFormat>, opens: seq<string>, closes: seq<string>, c: nat)
    requires forall t <- opens :: |t| > 0
    requires forall t <- closes :: |t| > 0
    ensures forall b <- ExtractBrackets(line, fm, opens, closes, c) :: ScannedBracket(line, fm, opens, closes, b)
  {
    forall b <- ExtractBrackets(line, fm, opens, closes, c)
      ensures ScannedBracket(line, fm, opens, closes, b)
    {
      var p := b.position;
      if b.open {
        assert FirstAt(line, opens, p).value in opens;
      } else {
        assert FirstAt(line, closes, p).value in closes;
      }
    }
  }

  /** The brackets a line keeps are among those the scan reported: pairing and the final
      adjustment only drop brackets. */
  lemma LineBracketsFromScan(lang: LanguageInfo, line: string, fm: seq<CharFormat>)
    requires TokensNonEmpty(lang)
    ensures forall b <- LineBrackets(lang, line, fm) :: b in ExtractBrackets(line, fm, lang.bracketOpen, lang.bracketClose, 0)
  {
    if lang.brackets {
      var scanned := ExtractBrackets(line, fm, lang.bracketOpen, lang.bracketClose, 0);
      var paired := PairBrackets(scanned, []);
      assert forall b <- paired :: b in scanned;
    }
  }
}

=== FILE: commandregistry.dfy ===
/** The command registry of the script layer (js/commands.js): named functions, registered
    and executed by name. A function is known by its identity; executing a command is
    recorded as a call of that function with the arguments passed. */
module CommandRegistry {
  import opened JsonValue

  /** A script function object, by identity. */
  datatype Handler = Handler(id: nat)

  /** One invocation `fn(args)`. */
  datatype Call = Call(handler: Handler, args: Json)

  type Registry = map<string, Handler>

  /** registerCommand: the name now holds `fn`, replacing any earlier function; every other
      entry is kept. */
  function RegisterCommand(reg: Registry, name: string, fn: Handler): (r: Registry)
    ensures name in r && r[name] == fn
    ensures forall n :: n != name ==> (n in r <==> n in reg)
    ensures forall n :: n != name && n in reg ==> r[n] == reg[n]
  {
    reg[name := fn]
  }

  /** executeCommand: the registered function is called with the arguments; an unknown name
      calls nothing. */
  function ExecuteCommand(reg: Registry, name: string, args: Json): (r: seq<Call>)
    ensures name !in reg <==> r == []
    ensures name in reg ==> r == [Call(reg[name], args)]
  {
    if name in reg then [Call(reg[name], args)] else []
  }

  /** After registering `fn` under a name, executing that name calls `fn`, whatever was
      registered before. */
  lemma RegisterThenExecute(reg: Registry, name: string, fn: Handler, args: Json)
    ensures ExecuteCommand(RegisterCommand(reg, name, fn), name, args) == [Call(fn, args)]
  {
  }

  /** Registering a name twice keeps only the later function. */
  lemma RegisterOverwrites(reg: Registry, name: string, f: Handler, g: Handler)
    ensures RegisterCommand(RegisterCommand(reg, name, f), name, g) == RegisterCommand(reg, name, g)
  {
  }

  /** Registering one name does not change what executing another name does. */
  lemma RegisterLeavesOthers(reg: Registry, name: string, fn: Handler, other: string, args: Json)
    requires other != name
    ensures ExecuteCommand(RegisterCommand(reg, name, fn), other, args) == ExecuteCommand(reg, other, args)
  {
  }
}

=== FILE: commands.dfy ===
/** The editing commands of src/commands.cpp that are arithmetic on one line: indentation
    counting, tab insertion and removal at tab stops, line-comment toggling and
    auto-indentation. A line is its text; a column is an index into it. */
module Commands {
  import opened Base
  import opened LineData
  import opened Cursors
  import opened Extension

  /** The two editor settings the commands read. */
  datatype EditorSettings = EditorSettings(tabSize: nat, tabToSpaces: bool)

  /** A line after an edit, with the column the editing cursor ends on. */
  datatype Edit = Edit(text: string, column: nat)

  function Spaces(n: nat): (r: string)
    ensures |r| == n && forall k :: 0 <= k < n ==> r[k] == ' '
  {
    seq(n, _ => ' ')
  }

  predicate AllBlanks(s: string) {
    forall k :: 0 <= k < |s| ==> s[k] == ' '
  }

  // ---------------------------------------------------------------- indentation

  /** The scan of count_indent_size from index `i`, every earlier character a space. */
  function IndentFrom(s: string, i: nat): (r: nat)
    requires i <= |s| && forall k :: 0 <= k < i ==> s[k] == ' '
    ensures (exists j :: i <= j < |s| && s[j] != ' ') ==>
              i <= r < |s| && s[r] != ' ' && forall k :: 0 <= k < r ==> s[k] == ' '
    ensures (forall j :: i <= j < |s| ==> s[j] == ' ') ==> r == 0
    decreases |s| - i
  {
    if i == |s| then 0
    else if s[i] != ' ' then i
    else IndentFrom(s, i + 1)
  }

  /** count_indent_size: the number of leading spaces when a character other than a space
      follows them, and 0 for an empty or all-space string. A tab ends the indent. */
  function CountIndentSize(s: string): (r: nat)
    ensures r <= |s|
    ensures (exists j :: 0 <= j < |s| && s[j] != ' ') ==>
              r < |s| && s[r] != ' ' && forall k :: 0 <= k < r ==> s[k] == ' '
    ensures AllBlanks(s) ==> r == 0
  {
    IndentFrom(s, 0)
  }

  /** With a non-space appended, the count is the whole run of leading spaces: it equals
      the length exactly when the string is all spaces. */
  lemma IndentWithSentinel(s: string)
    ensures CountIndentSize(s + "?") == |s| <==> AllBlanks(s)
  {
    var t := s + "?";
    assert forall k :: 0 <= k < |s| ==> t[k] == s[k];
    assert t[|s|] != ' ';
  }

  /** move_to_non_whitespace: the first column holding neither a space nor a tab, or the
      end of the line. */
  function MoveToNonWhitespace(s: string): (r: nat)
    ensures r <= |s|
    ensures forall k :: 0 <= k < r ==> s[k] == ' ' || s[k] == '\t'
    ensures r < |s| ==> s[r] != ' ' && s[r] != '\t'
  {
    if |s| == 0 || (s[0] != ' ' && s[0] != '\t') then 0
    else 1 + MoveToNonWhitespace(s[1..])
  }

  /** On a line indented with spaces only, both measures of the indent agree. */
  lemma MoveAgreesWithIndentCount(s: string)
    requires exists j :: 0 <= j < |s| && s[j] != ' '
    requires forall k :: 0 <= k < |s| ==> s[k] != '\t'
    ensures MoveToNonWhitespace(s) == CountIndentSize(s)
  {
  }

  // ---------------------------------------------------------------- tabs

  /** The arithmetic of the "align to tab" step: from an indent of `ws` columns the step
      reaches the next multiple of `ts`, moving between 1 and `ts` columns. */
  lemma TabStopStep(ws: nat, ts: nat)
    requires ts > 0
    ensures var n := ((ws / ts) + 1) * ts - ws;
            1 <= n <= ts && (ws + n) % ts == 0
            && (ws % ts == 0 ==> n == ts)
  {
    var q := ws / ts;
    var n := ((ws / ts) + 1) * ts - ws;
    assert n == ts - ws % ts;
    DivModUnique(ws + n, q + 1, 0, ts);
  }

  /** What insertTabForCursor types at a cursor with `before` to its left on the line: a tab
      character, or spaces. When everything before the cursor is indentation the spaces run
      to the next tab stop; otherwise a full tab width is inserted. A zero tab width divides
      by zero in the alignment step. */
  function TabText(before: string, settings: EditorSettings): (r: Checked<string>)
    ensures !settings.tabToSpaces ==> r == Ok("\t")
    ensures r.Undefined? <==>
              settings.tabToSpaces && settings.tabSize == 0 && |before| > 0 && AllBlanks(before)
    ensures settings.tabToSpaces && r.Ok? ==> AllBlanks(r.value) && |r.value| <= settings.tabSize
    ensures settings.tabToSpaces && settings.tabSize > 0 ==> r.Ok? && |r.value| >= 1
    ensures settings.tabToSpaces && settings.tabSize > 0 && |before| > 0 && AllBlanks(before) ==>
              (|before| + |r.value|) % settings.tabSize == 0
    ensures settings.tabToSpaces && !(|before| > 0 && AllBlanks(before)) ==>
              r == Ok(Spaces(settings.tabSize))
  {
    if !settings.tabToSpaces then Ok("\t")
    else
      var ts := settings.tabSize;
      var ws := CountIndentSize(before + "?");
      IndentWithSentinel(before);
      if ws != 0 && ws == |before| then
        if ts == 0 then Undefined
        else
          TabStopStep(ws, ts);
          Ok(Spaces(((ws / ts) + 1) * ts - ws))
      else Ok(Spaces(ts))
  }

  /** insertTabForCursor for a cursor without a selection at `column`. */
  function InsertTab(line: string, column: nat, settings: EditorSettings): (r: Checked<Edit>)
    requires column <= |line|
    ensures r.Undefined? <==> TabText(line[..column], settings).Undefined?
    ensures r.Ok? ==> var t := TabText(line[..column], settings).value;
                      r.value == Edit(line[..column] + t + line[column..], column + |t|)
  {
    match TabText(line[..column], settings)
    case Undefined => Undefined
    case Ok(t) => Ok(Edit(line[..column] + t + line[column..], column + |t|))
  }

  /** What insertTabForCursor types for a cursor whose anchor has `prefix` to its left and
      whose position is at `column`. The indent is measured on the text from the start of
      the line to the anchor, but compared with the position; only when they agree are the
      spaces aligned to the next tab stop. */
  function TabTextAt(prefix: string, column: nat, settings: EditorSettings): (r: Checked<string>)
    ensures !settings.tabToSpaces ==> r == Ok("\t")
    ensures var ws := CountIndentSize(prefix + "?");
            settings.tabToSpaces && !(ws != 0 && ws == column) ==> r == Ok(Spaces(settings.tabSize))
    ensures var ws := CountIndentSize(prefix + "?");
            r.Undefined? <==> settings.tabToSpaces && ws != 0 && ws == column && settings.tabSize == 0
    ensures var ws, ts := CountIndentSize(prefix + "?"), settings.tabSize;
            settings.tabToSpaces && ws != 0 && ws == column && ts > 0 ==>
              r.Ok? && AllBlanks(r.value) && 1 <= |r.value| <= ts && (ws + |r.value|) % ts == 0
  {
    if !settings.tabToSpaces then Ok("\t")
    else
      var ts := settings.tabSize;
      var ws := CountIndentSize(prefix + "?");
      if ws != 0 && ws == column then
        if ts == 0 then Undefined
        else
          TabStopStep(ws, ts);
          Ok(Spaces(((ws / ts) + 1) * ts - ws))
      else Ok(Spaces(ts))
  }

  /** Without a selection the anchor is the position, and the text typed is TabText of what
      lies before the cursor. */
  lemma TabTextAtCursor(before: string, settings: EditorSettings)
    ensures TabTextAt(before, |before|, settings) == TabText(before, settings)
  {
    IndentWithSentinel(before);
  }

  /** insertTabForCursor for any cursor: the first insertText replaces the selection, if
      any, and the rest of the text follows it, so the line loses the selected characters
      and gains the tab text at the start of the selection. An empty tab text (tab size 0,
      nothing to align) means no insertText at all, so the line and the selection stay. */
  function InsertTabSelected(line: string, c: Cursor, settings: EditorSettings): (r: Checked<Edit>)
    requires c.anchor <= |line| && c.position <= |line|
    ensures r.Undefined? <==> TabTextAt(line[..c.anchor], c.position, settings).Undefined?
    ensures r.Ok? && TabTextAt(line[..c.anchor], c.position, settings).value == "" ==>
              r.value == Edit(line, c.position)
    ensures r.Ok? && TabTextAt(line[..c.anchor], c.position, settings).value != "" ==>
              var t, st, en := TabTextAt(line[..c.anchor], c.position, settings).value, SelectionStart(c), SelectionEnd(c);
              && r.value.column == st + |t|
              && |r.value.text| == |line| - (en - st) + |t|
              && r.value.text[..st] == line[..st]
              && r.value.text[st..st + |t|] == t
              && r.value.text[st + |t|..] == line[en..]
  {
    match TabTextAt(line[..c.anchor], c.position, settings)
    case Undefined => Undefined
    case Ok(t) =>
      if t == "" then Ok(Edit(line, c.position))
      else
        var st, en := SelectionStart(c), SelectionEnd(c);
        var text := line[..st] + t + line[en..];
        assert text[..st] == line[..st] && text[st..st + |t|] == t && text[st + |t|..] == line[en..];
        Ok(Edit(text, st + |t|))
  }

  /** For a cursor without a selection, the general insertion is InsertTab at its column. */
  lemma InsertTabWithoutSelection(line: string, c: Cursor, settings: EditorSettings)
    requires c.anchor <= |line| && c.position <= |line| && !HasSelection(c)
    ensures InsertTabSelected(line, c, settings) == InsertTab(line, c.position, settings)
  {
    TabTextAtCursor(line[..c.position], settings);
    match InsertTab(line, c.position, settings)
    case Undefined =>
    case Ok(e) =>
      var r := InsertTabSelected(line, c, settings).value;
      var t := TabText(line[..c.position], settings).value;
      if t == "" {
        assert line[..c.position] + t + line[c.position..] == line;
      } else {
        assert r.text == line[..c.position] + t + line[c.position..];
      }
  }

  /** With tabs expanded, a selection whose anchor has a non-blank character before it is
      replaced by a full tab width of spaces, wherever its position lies; at tab size 0
      nothing is typed and the line is kept. */
  lemma SelectionAfterTextGetsFullWidth(line: string, c: Cursor, settings: EditorSettings)
    requires c.anchor <= |line| && c.position <= |line|
    requires settings.tabToSpaces && c.anchor > 0 && line[0] != ' '
    ensures var e := InsertTabSelected(line, c, settings);
            && e.Ok?
            && (settings.tabSize > 0 ==> e.value.column == SelectionStart(c) + settings.tabSize)
            && (settings.tabSize == 0 ==> e.value == Edit(line, c.position))
  {
    var pre := line[..c.anchor] + "?";
    assert pre[0] != ' ';
    assert CountIndentSize(pre) == 0;
  }
  /** At tab size 0 a selection over text is neither replaced nor deleted: `"ab"` with both
      characters selected stays `"ab"`, the cursor where it was. */
  lemma ZeroTabKeepsSelection()
    ensures InsertTabSelected("ab", Cursor(0, 2), EditorSettings(0, true)) == Ok(Edit("ab", 2))
  {
    assert CountIndentSize("" + "?") == 0;
  }


  /** The character left of column `col` is whitespace. */
  predicate SpaceBefore(line: string, col: int) {
    1 <= col <= |line| && IsSpace(line[col - 1])
  }

  /** The whitespace loop of removeTab stops once the cursor reaches column `col`: it is a
      tab stop, or the character to its left is not whitespace. */
  predicate StopsAt(line: string, col: int, ts: nat)
    requires ts > 0
  {
    col % ts == 0 || !SpaceBefore(line, col)
  }

  /** The whitespace loop of removeTab after it has deleted `j` characters ending at column
      `p`: it stops at the first column where StopsAt holds, or when a whole tab width is
      gone. The result is how many characters it deletes. */
  function WhitespaceDeletion(line: string, p: nat, ts: nat, j: nat): (k: nat)
    requires 1 <= j <= ts && j <= p <= |line|
    ensures j <= k <= ts && k <= p
    ensures k == ts || StopsAt(line, p - k, ts)
    ensures forall col :: p - k < col <= p - j ==> !StopsAt(line, col, ts)
    decreases ts - j
  {
    if j == ts || StopsAt(line, p - j, ts) then j
    else WhitespaceDeletion(line, p, ts, j + 1)
  }

  /** Commands::removeTab. At the start of a line it does nothing. A selection is deleted,
      and so is the single previous character when tabs are not expanded or that character
      is not whitespace; otherwise whitespace is deleted back to the previous tab stop, at
      most a tab width of it, stopping early at a character that is not whitespace. */
  function RemoveTab(line: string, c: Cursor, settings: EditorSettings): (r: Edit)
    requires c.anchor <= |line| && c.position <= |line|
    ensures c.position == 0 ==> r == Edit(line, 0)
    ensures c.position > 0 && HasSelection(c) ==>
              r == Edit(line[..SelectionStart(c)] + line[SelectionEnd(c)..], SelectionStart(c))
    ensures c.position > 0 && !HasSelection(c) && (!settings.tabToSpaces || !IsSpace(line[c.position - 1])) ==>
              r == Edit(line[..c.position - 1] + line[c.position..], c.position - 1)
    ensures c.position > 0 && !HasSelection(c) && settings.tabToSpaces && IsSpace(line[c.position - 1]) ==>
              var p, ts := c.position, settings.tabSize;
              && r.column <= p && p - r.column <= ts
              && r.text == line[..r.column] + line[p..]
              && (forall k :: r.column <= k < p ==> IsSpace(line[k]))
              && (ts == 0 ==> r == Edit(line, p))
              && (ts > 0 ==> r.column < p && (p - r.column == ts || StopsAt(line, r.column, ts)))
              && (ts > 0 ==> forall col :: r.column < col < p ==> !StopsAt(line, col, ts))
  {
    var p := c.position;
    if p == 0 then Edit(line, 0)
    else if HasSelection(c) then
      Edit(line[..SelectionStart(c)] + line[SelectionEnd(c)..], SelectionStart(c))
    else if !settings.tabToSpaces || !IsSpace(line[p - 1]) then
      Edit(line[..p - 1] + line[p..], p - 1)
    else if settings.tabSize == 0 then Edit(line, p)
    else
      var k := WhitespaceDeletion(line, p, settings.tabSize, 1);
      DeletedAreSpaces(line, p, settings.tabSize, k);
      Edit(line[..p - k] + line[p..], p - k)
  }

  /** Every character the whitespace loop deletes is whitespace: the first was checked
      before the loop, and the loop goes on only past whitespace. */
  lemma DeletedAreSpaces(line: string, p: nat, ts: nat, k: nat)
    requires 1 <= ts && 1 <= p <= |line| && IsSpace(line[p - 1])
    requires k == WhitespaceDeletion(line, p, ts, 1)
    ensures forall i :: p - k <= i < p ==> IsSpace(line[i])
  {
    forall i | p - k <= i < p
      ensures IsSpace(line[i])
    {
      if i < p - 1 {
        assert !StopsAt(line, i + 1, ts);
      }
    }
  }

  /** Standing on a tab stop after a full tab width of spaces, removeTab deletes exactly
      that width. */
  lemma RemoveTabAtStop(line: string, p: nat, settings: EditorSettings)
    requires settings.tabToSpaces && settings.tabSize > 0
    requires settings.tabSize <= p <= |line| && p % settings.tabSize == 0
    requires forall k :: p - settings.tabSize <= k < p ==> line[k] == ' '
    ensures RemoveTab(line, Cursor(p, p), settings) == Edit(line[..p - settings.tabSize] + line[p..], p - settings.tabSize)
  {
    var ts := settings.tabSize;
    var k := WhitespaceDeletion(line, p, ts, 1);
    if k < ts {
      var q := p / ts;
      assert p == q * ts;
      DivModUnique(p - k, q - 1, ts - k, ts);
    }
  }

  /** At a tab stop the tab is always a full tab width of spaces. */
  lemma TabAtStopIsFullWidth(before: string, settings: EditorSettings)
    requires settings.tabToSpaces && settings.tabSize > 0 && |before| % settings.tabSize == 0
    ensures TabText(before, settings) == Ok(Spaces(settings.tabSize))
  {
    if |before| > 0 && AllBlanks(before) {
      TabStopStep(|before|, settings.tabSize);
    }
  }

  /** Text spliced into a line at a column: the parts on either side are where they were. */
  lemma Splice(before: string, t: string, after: string)
    ensures var text := before + t + after;
            && text[..|before|] == before
            && text[|before| + |t|..] == after
            && (forall k :: 0 <= k < |t| ==> text[|before| + k] == t[k])
  {
  }

  /** A tab typed at a tab stop is taken back by one removeTab. */
  lemma InsertThenRemoveRestores(line: string, column: nat, settings: EditorSettings)
    requires column <= |line|
    requires settings.tabToSpaces ==> settings.tabSize > 0 && column % settings.tabSize == 0
    ensures InsertTab(line, column, settings).Ok?
    ensures var e := InsertTab(line, column, settings).value;
            RemoveTab(e.text, Cursor(e.column, e.column), settings) == Edit(line, column)
  {
    assert line == line[..column] + line[column..];
    if settings.tabToSpaces {
      InsertSpacesThenRemove(line[..column], line[column..], settings);
    } else {
      InsertTabCharThenRemove(line[..column], line[column..], settings);
    }
  }

  /** With tabs expanded, the spaces typed at a tab stop are removed again. */
  lemma InsertSpacesThenRemove(before: string, after: string, settings: EditorSettings)
    requires settings.tabToSpaces && settings.tabSize > 0 && |before| % settings.tabSize == 0
    ensures var line := before + after;
            && InsertTab(line, |before|, settings) == Ok(Edit(before + Spaces(settings.tabSize) + after, |before| + settings.tabSize))
            && RemoveTab(before + Spaces(settings.tabSize) + after, Cursor(|before| + settings.tabSize, |before| + settings.tabSize), settings)
               == Edit(line, |before|)
  {
    var ts, column := settings.tabSize, |before|;
    var line := before + after;
    assert line[..column] == before && line[column..] == after;
    TabAtStopIsFullWidth(before, settings);
    var text := before + Spaces(ts) + after;
    Splice(before, Spaces(ts), after);
    DivModUnique(column + ts, column / ts + 1, 0, ts);
    RemoveTabAtStop(text, column + ts, settings);
  }

  /** Without expansion, the tab character typed is removed again. */
  lemma InsertTabCharThenRemove(before: string, after: string, settings: EditorSettings)
    requires !settings.tabToSpaces
    ensures var line := before + after;
            && InsertTab(line, |before|, settings) == Ok(Edit(before + "\t" + after, |before| + 1))
            && RemoveTab(before + "\t" + after, Cursor(|before| + 1, |before| + 1), settings) == Edit(line, |before|)
  {
    var line := before + after;
    assert line[..|before|] == before && line[|before|..] == after;
    Splice(before, "\t", after);
  }

  /** indentForCursor without a selection: a tab typed at the start of the line. */
  function Indent(line: string, settings: EditorSettings): (r: Checked<string>)
    ensures settings.tabToSpaces ==> r == Ok(Spaces(settings.tabSize) + line)
    ensures !settings.tabToSpaces ==> r == Ok("\t" + line)
  {
    var e := InsertTab(line, 0, settings);
    var t := if settings.tabToSpaces then Spaces(settings.tabSize) else "\t";
    assert TabText(line[..0], settings) == Ok(t);
    assert line[..0] + t + line[0..] == t + line;
    if e.Undefined? then Undefined else Ok(e.value.text)
  }

  /** unindentForCursor without a selection: removeTab at the first character that is not
      indentation. A line without indent is left alone; with tabs not expanded the last
      indent character goes; otherwise the indent is cut back to the nearest tab stop
      before its end, by at most a tab width. */
  function Unindent(line: string, settings: EditorSettings): (r: string)
    ensures var m := MoveToNonWhitespace(line);
            && (m == 0 ==> r == line)
            && (m > 0 && !settings.tabToSpaces ==> r == line[..m - 1] + line[m..])
            && (m > 0 && settings.tabToSpaces && settings.tabSize == 0 ==> r == line)
            && (m > 0 && settings.tabToSpaces && settings.tabSize > 0 ==>
                  var ts, cut := settings.tabSize, m - (|line| - |r|);
                  && 0 <= cut < m && m - cut <= ts
                  && r == line[..cut] + line[m..]
                  && (cut % ts == 0 || m - cut == ts)
                  && (forall col :: cut < col < m ==> col % ts != 0))
  {
    var m := MoveToNonWhitespace(line);
    var e := RemoveTab(line, Cursor(m, m), settings);
    if m > 0 && settings.tabToSpaces && settings.tabSize > 0 then
      UnindentCutsToStop(line, settings);
      e.text
    else e.text
  }

  /** What removeTab does at the end of a non-empty indent with tabs expanded: the whole
      indent is whitespace, so it stops only at a tab stop or after a full width. */
  lemma UnindentCutsToStop(line: string, settings: EditorSettings)
    requires settings.tabToSpaces && settings.tabSize > 0 && MoveToNonWhitespace(line) > 0
    ensures var m, ts := MoveToNonWhitespace(line), settings.tabSize;
            var e := RemoveTab(line, Cursor(m, m), settings);
            && 0 <= e.column < m && m - e.column <= ts
            && e.text == line[..e.column] + line[m..]
            && (e.column % ts == 0 || m - e.column == ts)
            && (forall col :: e.column < col < m ==> col % ts != 0)
  {
    var m, ts := MoveToNonWhitespace(line), settings.tabSize;
    var e := RemoveTab(line, Cursor(m, m), settings);
    assert IsSpace(line[m - 1]);
    forall col | e.column < col < m
      ensures col % ts != 0
    {
      StopInIndent(line, ts, col);
    }
    if e.column > 0 && m - e.column != ts {
      StopInIndent(line, ts, e.column);
    }
  }

  /** Inside the indent the whitespace loop stops only at tab stops. */
  lemma StopInIndent(line: string, ts: nat, col: nat)
    requires ts > 0 && 0 < col <= MoveToNonWhitespace(line)
    ensures StopsAt(line, col, ts) <==> col % ts == 0
  {
    assert IsSpace(line[col - 1]);
  }

  /** Indenting and then unindenting a line gives it back when its indent is made of
      spaces and sits on a tab stop. */
  lemma IndentThenUnindentRestores(line: string, settings: EditorSettings)
    requires settings.tabToSpaces && settings.tabSize > 0
    requires MoveToNonWhitespace(line) % settings.tabSize == 0
    requires forall k :: 0 <= k < MoveToNonWhitespace(line) ==> line[k] == ' '
    ensures Indent(line, settings).Ok?
    ensures Unindent(Indent(line, settings).value, settings) == line
  {
    assert Indent(line, settings) == Ok(Spaces(settings.tabSize) + line);
    UnindentIndented(line, settings);
  }

  /** Unindenting a line that got a tab width of spaces in front of a space indent on a
      tab stop takes exactly those spaces away. */
  lemma UnindentIndented(line: string, settings: EditorSettings)
    requires settings.tabToSpaces && settings.tabSize > 0
    requires MoveToNonWhitespace(line) % settings.tabSize == 0
    requires forall k :: 0 <= k < MoveToNonWhitespace(line) ==> line[k] == ' '
    ensures Unindent(Spaces(settings.tabSize) + line, settings) == line
  {
    var ts := settings.tabSize;
    var w := MoveToNonWhitespace(line);
    var l2 := Spaces(ts) + line;
    MoveAfterSpaces(ts, line);
    IndentedPrefix(line, ts, w);
    UnindentAtStop(l2, w, settings);
  }

  /** Unindenting a line whose indent ends on the tab stop one width past `w`, with spaces
      back to `w`, deletes that width of spaces. */
  lemma UnindentAtStop(l2: string, w: nat, settings: EditorSettings)
    requires settings.tabToSpaces && settings.tabSize > 0 && w % settings.tabSize == 0
    requires MoveToNonWhitespace(l2) == settings.tabSize + w
    requires forall k :: w <= k < settings.tabSize + w ==> l2[k] == ' '
    ensures Unindent(l2, settings) == l2[..w] + l2[settings.tabSize + w..]
  {
    var ts := settings.tabSize;
    var q := w / ts;
    assert w == q * ts;
    assert ts + w == (q + 1) * ts;
    DivModUnique(ts + w, q + 1, 0, ts);
    RemoveTabAtStop(l2, ts + w, settings);
  }

  /** The sequence facts behind IndentThenUnindentRestores: a tab width of spaces in front
      of `w` spaces, and the line minus that width is the original. */
  lemma IndentedPrefix(line: string, ts: nat, w: nat)
    requires w <= |line| && forall k :: 0 <= k < w ==> line[k] == ' '
    ensures var l2 := Spaces(ts) + line;
            (forall k :: w <= k < ts + w ==> l2[k] == ' ')
            && l2[..w] + l2[ts + w..] == line
  {
    var l2 := Spaces(ts) + line;
    forall k | w <= k < ts + w
      ensures l2[k] == ' '
    {
      if k >= ts {
        assert l2[k] == line[k - ts];
      }
    }
    forall k | 0 <= k < w
      ensures l2[k] == line[k]
    {
      if k >= ts {
        assert l2[k] == line[k - ts];
      }
    }
    assert l2[..w] == line[..w];
    assert l2[ts + w..] == line[w..];
    assert line == line[..w] + line[w..];
  }

  lemma {:induction false} MoveAfterSpaces(n: nat, line: string)
    ensures MoveToNonWhitespace(Spaces(n) + line) == n + MoveToNonWhitespace(line)
    decreases n
  {
    if n > 0 {
      assert (Spaces(n) + line)[1..] == Spaces(n - 1) + line;
      MoveAfterSpaces(n - 1, line);
    } else {
      assert Spaces(n) + line == line;
    }
  }

  // ---------------------------------------------------------------- line comments

  /** The marker toggleCommentForCursor inserts and looks for: the line comment and a space. */
  function Marker(lineComment: string): (r: string)
    ensures |r| == |lineComment| + 1 && r[|lineComment|] == ' '
    ensures r[..|lineComment|] == lineComment
  {
    lineComment + " "
  }

  /** The line comment of the language, empty when there is no language. */
  function LineCommentOf(lang: Option<LanguageInfo>): string {
    if lang.Some? then lang.value.lineComment else ""
  }

  /** toggleCommentForCursor without a selection: without a line comment nothing happens;
      a line holding the marker loses its first occurrence, and any other line gets the
      marker after its leading spaces. */
  function ToggleLineComment(line: string, lang: Option<LanguageInfo>): (r: string)
    ensures LineCommentOf(lang) == "" ==> r == line
    ensures var m := Marker(LineCommentOf(lang));
            LineCommentOf(lang) != "" && !Contains(line, m) ==>
              var k := CountIndentSize(line);
              r == line[..k] + m + line[k..]
    ensures var m := Marker(LineCommentOf(lang));
            LineCommentOf(lang) != "" && Contains(line, m) ==>
              exists p :: OccursAt(line, m, p) && (forall i :: 0 <= i < p ==> !OccursAt(line, m, i))
                          && r == line[..p] + line[p + |m|..]
  {
    var lc := LineCommentOf(lang);
    if lc == "" then line
    else
      var m := Marker(lc);
      var p := IndexOf(line, m);
      if p == -1 then
        var skip := CountIndentSize(line);
        line[..skip] + m + line[skip..]
      else line[..p] + line[p + |m|..]
  }

  /** A marker that does not start with a space cannot begin inside the leading spaces, so
      the first occurrence after insertion is the inserted one. */
  lemma InsertedMarkerIsFirst(line: string, m: string, k: nat)
    requires |m| > 0 && m[0] != ' ' && k <= |line| && !Contains(line, m)
    requires forall i :: 0 <= i < k ==> line[i] == ' '
    ensures IndexOf(line[..k] + m + line[k..], m) == k
  {
    var t := line[..k] + m + line[k..];
    assert OccursAt(t, m, k) by {
      assert t[k..k + |m|] == m;
    }
    forall i | 0 <= i < k
      ensures !OccursAt(t, m, i)
    {
      assert t[i] == ' ';
    }
  }

  /** Toggling twice restores a line that held no marker, for a line comment that does not
      start with a space. */
  lemma ToggleLineCommentTwice(line: string, lang: Option<LanguageInfo>)
    requires LineCommentOf(lang) != "" && LineCommentOf(lang)[0] != ' '
    requires !Contains(line, Marker(LineCommentOf(lang)))
    ensures ToggleLineComment(ToggleLineComment(line, lang), lang) == line
  {
    var m := Marker(LineCommentOf(lang));
    var k := CountIndentSize(line);
    var t := line[..k] + m + line[k..];
    assert forall i :: 0 <= i < k ==> line[i] == ' ' by {
      if !AllBlanks(line) {
      }
    }
    assert ToggleLineComment(line, lang) == t;
    MarkerComesOffAgain(line, m, k);
    assert ToggleLineComment(t, lang) == t[..k] + t[k + |m|..];
  }

  /** A marker spliced in after the leading spaces of a line without it is the first
      occurrence, and cutting it there gives the line back. */
  lemma MarkerComesOffAgain(line: string, m: string, k: nat)
    requires |m| > 0 && m[0] != ' ' && k <= |line| && !Contains(line, m)
    requires forall i :: 0 <= i < k ==> line[i] == ' '
    ensures var t := line[..k] + m + line[k..];
            IndexOf(t, m) == k && t[..k] + t[k + |m|..] == line
  {
    InsertedMarkerIsFirst(line, m, k);
    Splice(line[..k], m, line[k..]);
    assert line[..k] + line[k..] == line;
  }

  /** Uncommenting a selected line AS WRITTEN: the marker is looked up in the trimmed line
      and the offset found there is used as a column of the untrimmed line. */
  function UncommentSelectedAsWritten(line: string, m: string): (r: string)
    ensures !Contains(Trim(line), m) ==> r == line
    ensures Contains(Trim(line), m) ==>
              exists p :: OccursAt(Trim(line), m, p) && (forall i :: 0 <= i < p ==> !OccursAt(Trim(line), m, i))
                          && r == line[..p] + line[p + |m|..]
  {
    var p := IndexOf(Trim(line), m);
    if p == -1 then line else line[..p] + line[p + |m|..]
  }

  /** Uncommenting a selected line, corrected: the first occurrence of the marker in the
      line itself is deleted, as the single-line toggle does. */
  function UncommentSelected(line: string, m: string): (r: string)
    ensures !Contains(line, m) ==> r == line
    ensures Contains(line, m) ==>
              exists p :: OccursAt(line, m, p) && (forall i :: 0 <= i < p ==> !OccursAt(line, m, i))
                          && r == line[..p] + line[p + |m|..]
  {
    var p := IndexOf(line, m);
    if p == -1 then line else line[..p] + line[p + |m|..]
  }

  /** Trimming a line that is spaces followed by a word-bounded text leaves the text. */
  lemma {:induction false} TrimIndented(n: nat, s: string)
    requires |s| > 0 && !IsSpace(s[0]) && !IsSpace(s[|s| - 1])
    ensures Trim(Spaces(n) + s) == s
    decreases n
  {
    if n == 0 {
      assert Spaces(n) + s == s;
    } else {
      var t := Spaces(n) + s;
      assert t[0] == ' ';
      assert t[1..] == Spaces(n - 1) + s;
      TrimIndented(n - 1, s);
    }
  }

  /** The as-written selection toggle, on a line indented by at least as many spaces as the
      marker is long and starting with the marker (as the single-line toggle leaves it),
      deletes indent spaces and leaves the marker in place. */
  lemma UncommentSelectedAsWrittenMisses(n: nat, m: string, rest: string)
    requires 0 < |m| <= n
    requires !IsSpace(m[0]) && !IsSpace((m + rest)[|m + rest| - 1])
    ensures UncommentSelectedAsWritten(Spaces(n) + m + rest, m) == Spaces(n - |m|) + m + rest
  {
    var line := Spaces(n) + m + rest;
    TrimIndented(n, m + rest);
    assert Spaces(n) + m + rest == Spaces(n) + (m + rest);
    assert OccursAt(m + rest, m, 0) by {
      assert (m + rest)[0..|m|] == m;
    }
    var tail := Spaces(n - |m|) + m + rest;
    assert Spaces(n) == Spaces(|m|) + Spaces(n - |m|);
    assert line == Spaces(|m|) + tail;
    assert line[..0] + line[|m|..] == tail;
  }

  /** The corrected selection toggle takes back what the single-line toggle added. */
  lemma UncommentSelectedUndoesLineComment(line: string, lang: Option<LanguageInfo>)
    requires LineCommentOf(lang) != "" && LineCommentOf(lang)[0] != ' '
    requires !Contains(line, Marker(LineCommentOf(lang)))
    ensures UncommentSelected(ToggleLineComment(line, lang), Marker(LineCommentOf(lang))) == line
  {
    ToggleLineCommentTwice(line, lang);
  }

  /** One line of the selection loop: blank lines are skipped; otherwise the marker is
      inserted after the leading spaces of the TRIMMED line (so at column 0), or removed
      as the code is written, at the offset found in the trimmed line. */
  function ToggleSelectedLine(line: string, m: string, hasComments: bool): (r: string)
    ensures AllSpace(line) ==> r == line
    ensures !AllSpace(line) && !hasComments ==> r == m + line
    ensures !AllSpace(line) && hasComments ==> r == UncommentSelectedAsWritten(line, m)
  {
    var s := Trim(line);
    if |s| == 0 then line
    else if !hasComments then
      var skip := CountIndentSize(s);
      assert skip == 0 by {
        assert s[0] != ' ';
      }
      line[..skip] + m + line[skip..]
    else UncommentSelectedAsWritten(line, m)
  }

  /** toggleCommentForCursor with a selection, over the selected lines: whether to comment
      or uncomment is decided by the first line holding the marker anywhere. */
  function ToggleCommentLines(lines: seq<string>, lang: Option<LanguageInfo>): (r: seq<string>)
    ensures |r| == |lines|
    ensures LineCommentOf(lang) == "" ==> r == lines
    ensures forall i :: 0 <= i < |lines| && AllSpace(lines[i]) ==> r[i] == lines[i]
    ensures LineCommentOf(lang) != "" && |lines| > 0 ==>
              var m := Marker(LineCommentOf(lang));
              forall i :: 0 <= i < |lines| && !AllSpace(lines[i]) ==>
                r[i] == if Contains(lines[0], m) then UncommentSelectedAsWritten(lines[i], m) else m + lines[i]
  {
    var lc := LineCommentOf(lang);
    if lc == "" || |lines| == 0 then lines
    else
      var m := Marker(lc);
      var hasComments := Contains(lines[0], m);
      seq(|lines|, i requires 0 <= i < |lines| => ToggleSelectedLine(lines[i], m, hasComments))
  }

  /** The selection toggle with the uncommenting step corrected: the marker is removed
      where it first occurs in the line itself. */
  function ToggleCommentLinesCorrected(lines: seq<string>, lang: Option<LanguageInfo>): (r: seq<string>)
    ensures |r| == |lines|
    ensures LineCommentOf(lang) == "" ==> r == lines
    ensures forall i :: 0 <= i < |lines| && AllSpace(lines[i]) ==> r[i] == lines[i]
    ensures LineCommentOf(lang) != "" && |lines| > 0 ==>
              var m := Marker(LineCommentOf(lang));
              forall i :: 0 <= i < |lines| && !AllSpace(lines[i]) ==>
                r[i] == if Contains(lines[0], m) then UncommentSelected(lines[i], m) else m + lines[i]
  {
    var lc := LineCommentOf(lang);
    if lc == "" || |lines| == 0 then lines
    else
      var m := Marker(lc);
      var hasComments := Contains(lines[0], m);
      seq(|lines|, i requires 0 <= i < |lines| =>
        if AllSpace(lines[i]) then lines[i]
        else if hasComments then UncommentSelected(lines[i], m)
        else m + lines[i])
  }

  /** Trimming a text that starts with no whitespace and has a non-whitespace character at
      or after `n` keeps its first `n` characters. */
  lemma {:induction false} TrimKeepsHead(x: string, n: nat)
    requires 0 < n <= |x| && !IsSpace(x[0]) && !AllSpace(x[n..])
    ensures n <= |Trim(x)| && Trim(x)[..n] == x[..n]
    decreases |x|
  {
    if IsSpace(x[|x| - 1]) {
      var y := x[..|x| - 1];
      var k :| 0 <= k < |x[n..]| && !IsSpace(x[n..][k]);
      assert n + k < |x| - 1;
      assert y[n..][k] == x[n + k];
      TrimKeepsHead(y, n);
      assert y[..n] == x[..n];
    }
  }

  /** A marker placed at column 0 of a line that is not blank is found at offset 0 of the
      trimmed line, so the as-written uncomment takes exactly it away. */
  lemma UncommentAsWrittenAfterComment(m: string, line: string)
    requires |m| > 0 && !IsSpace(m[0]) && !AllSpace(line)
    ensures UncommentSelectedAsWritten(m + line, m) == line
  {
    var x := m + line;
    assert x[|m|..] == line;
    TrimKeepsHead(x, |m|);
    assert OccursAt(Trim(x), m, 0) by {
      assert Trim(x)[0..|m|] == x[..|m|] == m;
    }
    assert IndexOf(Trim(x), m) == 0;
  }

  /** Toggling a selection twice restores it when its first line is not blank, no line
      holds the marker, and the line comment does not start with whitespace. Commenting
      puts the marker at column 0, where the offset the code finds in the trimmed line is
      also right for the line itself. */
  lemma ToggleCommentLinesTwice(lines: seq<string>, lang: Option<LanguageInfo>)
    requires LineCommentOf(lang) != "" && !IsSpace(LineCommentOf(lang)[0])
    requires |lines| > 0 && !AllSpace(lines[0])
    requires forall i :: 0 <= i < |lines| ==> !Contains(lines[i], Marker(LineCommentOf(lang)))
    ensures ToggleCommentLines(ToggleCommentLines(lines, lang), lang) == lines
  {
    var m := Marker(LineCommentOf(lang));
    var once := ToggleCommentLines(lines, lang);
    assert once[0] == m + lines[0];
    assert OccursAt(once[0], m, 0) by {
      assert once[0][0..|m|] == m;
    }
    assert Contains(once[0], m);
    var twice := ToggleCommentLines(once, lang);
    forall i | 0 <= i < |lines|
      ensures twice[i] == lines[i]
    {
      if !AllSpace(lines[i]) {
        assert once[i] == m + lines[i];
        assert !IsSpace(once[i][0]);
        UncommentAsWrittenAfterComment(m, lines[i]);
      }
    }
  }

  /** The corrected selection toggle is undone the same way. */
  lemma ToggleCommentLinesCorrectedTwice(lines: seq<string>, lang: Option<LanguageInfo>)
    requires LineCommentOf(lang) != "" && !IsSpace(LineCommentOf(lang)[0])
    requires |lines| > 0 && !AllSpace(lines[0])
    requires forall i :: 0 <= i < |lines| ==> !Contains(lines[i], Marker(LineCommentOf(lang)))
    ensures ToggleCommentLinesCorrected(ToggleCommentLinesCorrected(lines, lang), lang) == lines
  {
    var m := Marker(LineCommentOf(lang));
    var once := ToggleCommentLinesCorrected(lines, lang);
    assert once[0] == m + lines[0];
    assert OccursAt(once[0], m, 0) by {
      assert once[0][0..|m|] == m;
    }
    assert Contains(once[0], m);
    var twice := ToggleCommentLinesCorrected(once, lang);
    forall i | 0 <= i < |lines|
      ensures twice[i] == lines[i]
    {
      if !AllSpace(lines[i]) {
        assert once[i] == m + lines[i];
        assert !IsSpace(once[i][0]);
        assert OccursAt(once[i], m, 0) by {
          assert once[i][0..|m|] == m;
        }
        assert IndexOf(once[i], m) == 0;
        assert once[i][|m|..] == lines[i];
      }
    }
  }

  // ---------------------------------------------------------------- auto-indent

  /** The indent autoIndentForCursor reads off a line: count_indent_size of its text with a
      non-space appended, so an all-space line counts all its spaces. */
  function LineIndent(text: string): nat {
    CountIndentSize(text + "?")
  }

  /** The line the indent is copied from: the nearest line at or above `line` whose indent
      is not zero, if any. */
  function IndentSource(doc: Document, line: nat): (r: Option<nat>)
    requires line < |doc|
    ensures r.Some? ==> r.value <= line && LineIndent(doc[r.value].text) != 0
                        && forall j :: r.value < j <= line ==> LineIndent(doc[j].text) == 0
    ensures r.None? ==> forall j :: 0 <= j <= line ==> LineIndent(doc[j].text) == 0
    decreases line
  {
    if LineIndent(doc[line].text) != 0 then Some(line)
    else if line == 0 then None
    else IndentSource(doc, line - 1)
  }

  /** The tab-mode insertion loop: a tab per iteration, the counter advancing by the tab
      width, until it reaches the amount. */
  function TabsFrom(i: int, amount: int, ts: nat): (r: string)
    requires ts > 0
    ensures forall k :: 0 <= k < |r| ==> r[k] == '\t'
    ensures i >= amount ==> |r| == 0
    ensures i < amount ==> (|r| - 1) * ts < amount - i <= |r| * ts
    decreases amount - i
  {
    if i >= amount then ""
    else "\t" + TabsFrom(i + ts, amount, ts)
  }

  /** The characters the final loop of autoIndentForCursor inserts for an indent of
      `amount` columns: that many spaces, or enough tabs of the tab width to cover it. A zero
      tab width never advances the tab loop. */
  function IndentText(amount: int, settings: EditorSettings): (r: Checked<string>)
    ensures settings.tabToSpaces ==> r == Ok(Spaces(if amount > 0 then amount else 0))
    ensures !settings.tabToSpaces && amount <= 0 ==> r == Ok("")
    ensures r.Undefined? <==> !settings.tabToSpaces && amount > 0 && settings.tabSize == 0
    ensures !settings.tabToSpaces && r.Ok? && amount > 0 ==>
              (forall k :: 0 <= k < |r.value| ==> r.value[k] == '\t')
              && (|r.value| - 1) * settings.tabSize < amount <= |r.value| * settings.tabSize
  {
    if settings.tabToSpaces then Ok(Spaces(if amount > 0 then amount else 0))
    else if amount <= 0 then Ok("")
    else if settings.tabSize == 0 then Undefined
    else Ok(TabsFrom(0, amount, settings.tabSize))
  }

  /** The first residual bracket of the line closes. */
  predicate BeginsWithClose(rec: Record) {
    |rec.brackets| > 0 && !rec.brackets[0].open
  }

  /** The last residual bracket of the line opens. */
  predicate EndsWithOpen(rec: Option<Record>) {
    rec.Some? && |rec.value.brackets| > 0 && rec.value.brackets[|rec.value.brackets| - 1].open
  }

  /** autoIndentForCursor: the indent inserted at the start of `line`. The current line's
      record is read unchecked; the source line's is checked. One indent step is added after
      a line ending in an open bracket and one removed before a line starting with a close. */
  function AutoIndent(doc: Document, line: nat, settings: EditorSettings): (r: Checked<string>)
    requires line < |doc|
    ensures doc[line].rec.None? ==> r.Undefined?
    ensures doc[line].rec.Some? && IndentSource(doc, line).None? ==> r == Ok("")
    ensures doc[line].rec.Some? && IndentSource(doc, line).Some? ==>
              var k := IndentSource(doc, line).value;
              var step := if settings.tabToSpaces then settings.tabSize else 1;
              r == IndentText(LineIndent(doc[k].text)
                              + (if EndsWithOpen(doc[k].rec) then step else 0)
                              - (if BeginsWithClose(doc[line].rec.value) then step else 0), settings)
  {
    if doc[line].rec.None? then Undefined
    else
      var closes := BeginsWithClose(doc[line].rec.value);
      match IndentSource(doc, line)
      case None => Ok("")
      case Some(k) =>
        var step := if settings.tabToSpaces then settings.tabSize else 1;
        var amount := LineIndent(doc[k].text) + (if EndsWithOpen(doc[k].rec) then step else 0)
                      - (if closes then step else 0);
        IndentText(amount, settings)
  }

  /** Typing on a fresh line below an indented line that leaves a bracket open indents one
      tab width deeper; a closing bracket on the fresh line brings it back to the opener's
      indent. */
  lemma AutoIndentFollowsBrackets(doc: Document, line: nat, settings: EditorSettings)
    requires 0 < line < |doc| && settings.tabToSpaces
    requires doc[line].rec.Some? && LineIndent(doc[line].text) == 0
    requires LineIndent(doc[line - 1].text) > 0 && EndsWithOpen(doc[line - 1].rec)
    ensures !BeginsWithClose(doc[line].rec.value) ==>
              AutoIndent(doc, line, settings) == Ok(Spaces(LineIndent(doc[line - 1].text) + settings.tabSize))
    ensures BeginsWithClose(doc[line].rec.value) ==>
              AutoIndent(doc, line, settings) == Ok(Spaces(LineIndent(doc[line - 1].text)))
  {
    assert IndentSource(doc, line) == Some(line - 1);
  }
}

=== FILE: cursors.dfy ===
/** Multiple cursors. A QTextCursor is an anchor and a position in the document's text; the
    editor keeps a list of extra cursors beside the main one, and every editing command runs
    once per cursor of the list build_cursors assembles. The text is the document's flat
    character sequence. */
module Cursors {
  import opened Base

  /** A cursor: the selection runs between `anchor` and `position`. */
  datatype Cursor = Cursor(anchor: nat, position: nat)

  /** QTextCursor::hasSelection. */
  predicate HasSelection(c: Cursor) {
    c.anchor != c.position
  }

  /** QTextCursor::selectionStart. */
  function SelectionStart(c: Cursor): nat {
    if c.anchor < c.position then c.anchor else c.position
  }

  /** QTextCursor::selectionEnd. */
  function SelectionEnd(c: Cursor): nat {
    if c.anchor < c.position then c.position else c.anchor
  }

  /** A cursor Qt keeps inside the document. */
  predicate Within(text: string, c: Cursor) {
    c.anchor <= |text| && c.position <= |text|
  }

  predicate AllWithin(text: string, cs: seq<Cursor>) {
    forall k :: 0 <= k < |cs| ==> Within(text, cs[k])
  }

  /** QTextCursor::selectedText: the characters between the two ends. */
  function SelectedText(text: string, c: Cursor): (r: string)
    requires Within(text, c)
    ensures |r| == SelectionEnd(c) - SelectionStart(c)
    ensures !HasSelection(c) ==> r == ""
  {
    text[SelectionStart(c)..SelectionEnd(c)]
  }

  /** `c` already stands for `cursor`: it is at the same position, or `cursor` has a
      selection that starts where `c`'s does and covers the same text. */
  predicate Duplicate(text: string, cursor: Cursor, c: Cursor)
    requires Within(text, cursor) && Within(text, c)
  {
    c.position == cursor.position
    || (HasSelection(cursor) && SelectionStart(cursor) == SelectionStart(c)
        && SelectedText(text, cursor) == SelectedText(text, c))
  }

  /** Some cursor of `cs` stands for `cursor`. */
  function AnyDuplicate(text: string, cursor: Cursor, cs: seq<Cursor>): (r: bool)
    requires Within(text, cursor) && AllWithin(text, cs)
    ensures r <==> exists k :: 0 <= k < |cs| && Duplicate(text, cursor, cs[k])
  {
    if |cs| == 0 then false
    else if Duplicate(text, cursor, cs[0]) then true
    else
      var rest := AnyDuplicate(text, cursor, cs[1..]);
      assert forall k :: 1 <= k < |cs| ==> cs[k] == cs[1..][k - 1];
      rest
  }

  /** TextmateEdit::addExtraCursor: a cursor outside every block (`None`) is replaced by the
      main cursor; it is appended unless an extra cursor already stands for it. */
  function AddExtraCursor(text: string, extra: seq<Cursor>, cursor: Option<Cursor>, main: Cursor): (r: seq<Cursor>)
    requires AllWithin(text, extra) && Within(text, main)
    requires cursor.Some? ==> Within(text, cursor.value)
    ensures var c := cursor.GetOr(main);
            (exists k :: 0 <= k < |extra| && Duplicate(text, c, extra[k])) ==> r == extra
    ensures var c := cursor.GetOr(main);
            (forall k :: 0 <= k < |extra| ==> !Duplicate(text, c, extra[k])) ==> r == extra + [c]
    ensures AllWithin(text, r)
  {
    var c := cursor.GetOr(main);
    if AnyDuplicate(text, c, extra) then extra else extra + [c]
  }

  /** build_cursors: the extra cursors, followed by the main cursor unless one of them
      already stands for it. */
  method BuildCursors(text: string, extra: seq<Cursor>, main: Cursor) returns (r: seq<Cursor>)
    requires AllWithin(text, extra) && Within(text, main)
    ensures (exists k :: 0 <= k < |extra| && Duplicate(text, main, extra[k])) ==> r == extra
    ensures (forall k :: 0 <= k < |extra| ==> !Duplicate(text, main, extra[k])) ==> r == extra + [main]
    ensures r == AddExtraCursor(text, extra, Some(main), main)
  {
    var addCurrent := true;
    var i := 0;
    while i < |extra| && addCurrent
      invariant 0 <= i <= |extra|
      invariant addCurrent ==> forall k :: 0 <= k < i ==> !Duplicate(text, main, extra[k])
      invariant !addCurrent ==> exists k :: 0 <= k < |extra| && Duplicate(text, main, extra[k])
    {
      var c := extra[i];
      if c.position == main.position {
        addCurrent := false;
      } else if HasSelection(main) && SelectionStart(main) == SelectionStart(c)
                && SelectedText(text, main) == SelectedText(text, c) {
        addCurrent := false;
      }
      i := i + 1;
    }
    r := extra;
    if addCurrent {
      r := r + [main];
    }
  }

  /** No two cursors of the list sit at the same position. */
  predicate DistinctPositions(cs: seq<Cursor>) {
    forall i, j :: 0 <= i < j < |cs| ==> cs[i].position != cs[j].position
  }

  /** Adding a cursor never puts two cursors at one position. */
  lemma AddKeepsPositionsDistinct(text: string, extra: seq<Cursor>, cursor: Option<Cursor>, main: Cursor)
    requires AllWithin(text, extra) && Within(text, main)
    requires cursor.Some? ==> Within(text, cursor.value)
    requires DistinctPositions(extra)
    ensures DistinctPositions(AddExtraCursor(text, extra, cursor, main))
  {
    var c := cursor.GetOr(main);
    var r := AddExtraCursor(text, extra, cursor, main);
    if r != extra {
      forall i, j | 0 <= i < j < |r|
        ensures r[i].position != r[j].position
      {
        if j == |extra| {
          assert !Duplicate(text, c, extra[i]);
        }
      }
    }
  }

  /** Adding the same cursor a second time changes nothing. */
  lemma AddTwiceIsAddOnce(text: string, extra: seq<Cursor>, cursor: Option<Cursor>, main: Cursor)
    requires AllWithin(text, extra) && Within(text, main)
    requires cursor.Some? ==> Within(text, cursor.value)
    ensures var once := AddExtraCursor(text, extra, cursor, main);
            AddExtraCursor(text, once, cursor, main) == once
  {
    var c := cursor.GetOr(main);
    var once := AddExtraCursor(text, extra, cursor, main);
    if once != extra {
      assert Duplicate(text, c, once[|extra|]);
    }
  }
}

=== FILE: extension.dfy ===
/** Extension discovery and language resolution (src/extension.cpp, and the older
    extension.cpp). Reading files is a parameter `fs` that maps a path to the JSON value
    parse::loadJson would return (null when the file is missing or malformed); loading a
    grammar is recorded as the path it would be loaded from. */
module Extension {
  import opened Base
  import opened JsonValue

  /** What language_info_t::grammar ends up holding. */
  datatype GrammarRef = NoGrammar | GrammarFile(path: string) | FallbackGrammar(scopeName: string)

  /** language_info_t. */
  datatype LanguageInfo = LanguageInfo(
    id: string,
    blockCommentStart: string,
    blockCommentEnd: string,
    lineComment: string,
    brackets: bool,
    bracketOpen: seq<string>,
    bracketClose: seq<string>,
    pairs: bool,
    pairOpen: seq<string>,
    pairClose: seq<string>,
    grammar: GrammarRef)

  /** std::make_shared<language_info_t>(): everything empty, flags false. */
  const NewLanguage: LanguageInfo := LanguageInfo("", "", "", "", false, [], [], false, [], [], NoGrammar)

  /** An Extension entry: its directory, its package.json, and (newer loader) its name,
      whether it contributes commands and its entry script. */
  datatype Extension = Extension(path: string, package: Json, name: string,
                                 hasCommands: bool, entryPath: Option<string>)

  type FileSystem = string -> Json

  // ---------------------------------------------------------------- settings

  /** Copy every top-level member of `obj` into the settings; a non-object changes nothing. */
  function MergeSettings(obj: Json, settings: map<string, Json>): (r: map<string, Json>)
    ensures !obj.Obj? ==> r == settings
    ensures r.Keys == settings.Keys + MemberNames(obj)
    ensures forall k :: IsMember(obj, k) ==> r[k] == Get(obj, k)
    ensures forall k :: k in settings && !IsMember(obj, k) ==> r[k] == settings[k]
  {
    if obj.Obj? then settings + obj.fields else settings
  }

  /** load_settings (newer): the settings file is the path itself. */
  function LoadSettings(fs: FileSystem, path: string, settings: map<string, Json>): (r: map<string, Json>)
    ensures forall k :: IsMember(fs(path), k) ==> k in r && r[k] == Get(fs(path), k)
    ensures !fs(path).Obj? ==> r == settings
  {
    MergeSettings(fs(path), settings)
  }

  /** load_settings (older): the settings file is `<path>/settings.json`. */
  function LoadSettingsLegacy(fs: FileSystem, path: string, settings: map<string, Json>): (r: map<string, Json>)
    ensures forall k :: IsMember(fs(path + "/settings.json"), k) ==> k in r && r[k] == Get(fs(path + "/settings.json"), k)
    ensures forall k :: k in settings && !IsMember(fs(path + "/settings.json"), k) ==> k in r && r[k] == settings[k]
  {
    MergeSettings(fs(path + "/settings.json"), settings)
  }

  // ---------------------------------------------------------------- extensions

  /** The package's `contributes` object names a theme, icon theme or language. */
  predicate ContributesKnownKind(package: Json) {
    var c := Get(package, "contributes");
    IsMember(c, "themes") || IsMember(c, "iconThemes") || IsMember(c, "languages")
  }

  /** The newer loader's rule: known contributions, or an `ashlar` key, or the editor's own
      package name. */
  predicate Eligible(package: Json) {
    package.Obj?
    && (ContributesKnownKind(package) || IsMember(package, "ashlar")
        || AsString(Get(package, "name")) == "ashlar-text")
  }

  predicate EligibleLegacy(package: Json) {
    package.Obj? && ContributesKnownKind(package)
  }

  /** `e` is the older loader's entry for one of the listed directories: its path and
      package, with no name, commands or entry script. */
  ghost predicate LegacyEntryOf(dir: seq<(string, Json)>, e: Extension) {
    exists k :: 0 <= k < |dir| && e == Extension(dir[k].0, dir[k].1, "", false, None)
  }

  /** The entry load_extensions appends for one directory, if any. */
  function ExtensionEntry(path: string, package: Json): (r: Option<Extension>)
    ensures r.Some? <==> Eligible(package)
    ensures r.Some? ==> r.value.path == path && r.value.package == package
  {
    if !package.Obj? then None
    else
      var name := AsString(Get(package, "name"));
      if ContributesKnownKind(package) then
        Some(Extension(path, package, name, false, None))
      else if IsMember(package, "ashlar") || name == "ashlar-text" then
        var contribs := Get(package, "contributes");
        var main := if IsMember(package, "main") then Some(path + "/" + AsString(Get(package, "main"))) else None;
        Some(Extension(path, package, name, IsMember(contribs, "commands"), main))
      else
        None
  }

  /** load_extensions (newer), over the directory listing as (path, package.json) pairs. */
  function LoadExtensions(dir: seq<(string, Json)>): (r: seq<Extension>)
    ensures |r| <= |dir|
    ensures forall e <- r :: Eligible(e.package)
    ensures forall k :: 0 <= k < |dir| && Eligible(dir[k].1) ==>
              exists e <- r :: e.path == dir[k].0 && e.package == dir[k].1
  {
    if |dir| == 0 then []
    else
      var rest := LoadExtensions(dir[1..]);
      assert forall k :: 1 <= k < |dir| ==> dir[k] == dir[1..][k - 1];
      match ExtensionEntry(dir[0].0, dir[0].1)
      case Some(e) => [e] + rest
      case None => rest
  }

  /** The listing is processed entry by entry, in order: loading two listings one after
      the other loads their extensions one after the other. */
  lemma {:induction false} LoadExtensionsAppend(a: seq<(string, Json)>, b: seq<(string, Json)>)
    ensures LoadExtensions(a + b) == LoadExtensions(a) + LoadExtensions(b)
  {
    if |a| > 0 {
      assert (a + b)[0] == a[0];
      assert (a + b)[1..] == a[1..] + b;
      LoadExtensionsAppend(a[1..], b);
    } else {
      assert a + b == b;
    }
  }

  /** A one-directory listing gives that directory's entry, if any. */
  lemma LoadExtensionsSingle(a: seq<(string, Json)>)
    requires |a| == 1
    ensures LoadExtensions(a) == match ExtensionEntry(a[0].0, a[0].1)
                                 case Some(e) => [e]
                                 case None => []
  {
    assert a[1..] == [];
  }

  /** load_extensions (older): only the three contribution kinds qualify. */
  function LoadExtensionsLegacy(dir: seq<(string, Json)>): (r: seq<Extension>)
    ensures |r| <= |dir|
    ensures forall e <- r :: EligibleLegacy(e.package) && LegacyEntryOf(dir, e)
    ensures forall k :: 0 <= k < |dir| && EligibleLegacy(dir[k].1) ==>
              exists e <- r :: e.path == dir[k].0 && e.package == dir[k].1
  {
    if |dir| == 0 then []
    else
      var rest := LoadExtensionsLegacy(dir[1..]);
      assert forall k :: 1 <= k < |dir| ==> dir[k] == dir[1..][k - 1];
      assert forall e <- rest :: LegacyEntryOf(dir, e) by {
        forall e <- rest ensures LegacyEntryOf(dir, e) {
          var k :| 0 <= k < |dir[1..]| && e == Extension(dir[1..][k].0, dir[1..][k].1, "", false, None);
          assert dir[1..][k] == dir[k + 1];
        }
      }
      if EligibleLegacy(dir[0].1) then
        [Extension(dir[0].0, dir[0].1, "", false, None)] + rest
      else
        rest
  }

  /** The older loader likewise processes the listing entry by entry, in order. */
  lemma {:induction false} LoadExtensionsLegacyAppend(a: seq<(string, Json)>, b: seq<(string, Json)>)
    ensures LoadExtensionsLegacy(a + b) == LoadExtensionsLegacy(a) + LoadExtensionsLegacy(b)
  {
    if |a| > 0 {
      assert (a + b)[0] == a[0];
      assert (a + b)[1..] == a[1..] + b;
      LoadExtensionsLegacyAppend(a[1..], b);
    } else {
      assert a + b == b;
    }
  }

  /** A one-directory listing gives its entry exactly when it qualifies. */
  lemma LoadExtensionsLegacySingle(a: seq<(string, Json)>)
    requires |a| == 1
    ensures LoadExtensionsLegacy(a) == if EligibleLegacy(a[0].1)
                                       then [Extension(a[0].0, a[0].1, "", false, None)] else []
  {
    assert a[1..] == [];
  }

  // ---------------------------------------------------------------- language configuration

  /** A `brackets` entry that becomes a pair: a two-element array of two strings. */
  predicate IsBracketPair(p: Json) {
    p.Arr? && |p.items| == 2 && p.items[0].Str? && p.items[1].Str?
  }

  /** An `autoClosingPairs` entry that becomes a pair: an object with `open` and `close`. */
  predicate IsAutoClosingPair(p: Json) {
    p.Obj? && "open" in p.fields && "close" in p.fields
  }

  /** The (open, close) strings of a bracket entry. */
  function BracketPairOf(p: Json): (string, string)
    requires IsBracketPair(p)
  {
    (p.items[0].s, p.items[1].s)
  }

  /** The (open, close) strings of an auto-closing entry. */
  function AutoClosingPairOf(p: Json): (string, string)
    requires IsAutoClosingPair(p)
  {
    (AsString(p.fields["open"]), AsString(p.fields["close"]))
  }

  /** `p` is the pair of some qualifying bracket entry of `items`. */
  ghost predicate PairOfSomeBracket(items: seq<Json>, p: (string, string)) {
    exists j :: 0 <= j < |items| && IsBracketPair(items[j]) && p == BracketPairOf(items[j])
  }

  /** The (open, close) strings of the qualifying bracket entries, in order. */
  function BracketPairs(items: seq<Json>): (r: seq<(string, string)>)
    ensures |r| <= |items|
    ensures forall k :: 0 <= k < |r| ==> PairOfSomeBracket(items, r[k])
    ensures forall j :: 0 <= j < |items| && IsBracketPair(items[j]) ==> BracketPairOf(items[j]) in r
    ensures (forall j :: 0 <= j < |items| ==> IsBracketPair(items[j])) ==> |r| == |items|
  {
    if |items| == 0 then []
    else
      var rest := BracketPairs(items[1..]);
      var head := if IsBracketPair(items[0]) then [BracketPairOf(items[0])] else [];
      BracketPairsCons(items, head, rest);
      assert forall j :: 1 <= j < |items| ==> items[j] == items[1..][j - 1];
      head + rest
  }

  /** Bracket entries are taken one by one, in order. */
  lemma {:induction false} BracketPairsAppend(a: seq<Json>, b: seq<Json>)
    ensures BracketPairs(a + b) == BracketPairs(a) + BracketPairs(b)
  {
    if |a| > 0 {
      assert (a + b)[0] == a[0];
      assert (a + b)[1..] == a[1..] + b;
      BracketPairsAppend(a[1..], b);
    } else {
      assert a + b == b;
    }
  }

  /** One entry gives its pair exactly when it qualifies. */
  lemma BracketPairsSingle(a: seq<Json>)
    requires |a| == 1
    ensures BracketPairs(a) == if IsBracketPair(a[0]) then [BracketPairOf(a[0])] else []
  {
    assert a[1..] == [];
  }

  /** The pairs taken from the first item and from the others all come from qualifying
      items. */
  lemma BracketPairsCons(items: seq<Json>, head: seq<(string, string)>, rest: seq<(string, string)>)
    requires |items| > 0
    requires head == if IsBracketPair(items[0]) then [BracketPairOf(items[0])] else []
    requires forall k :: 0 <= k < |rest| ==> PairOfSomeBracket(items[1..], rest[k])
    ensures forall k :: 0 <= k < |head + rest| ==> PairOfSomeBracket(items, (head + rest)[k])
  {
    forall k | 0 <= k < |head + rest|
      ensures PairOfSomeBracket(items, (head + rest)[k])
    {
      if k < |head| {
        assert IsBracketPair(items[0]) && (head + rest)[k] == BracketPairOf(items[0]);
      } else {
        var p := rest[k - |head|];
        assert (head + rest)[k] == p;
        assert PairOfSomeBracket(items[1..], p);
        var j :| 0 <= j < |items[1..]| && IsBracketPair(items[1..][j]) && p == BracketPairOf(items[1..][j]);
        assert items[1..][j] == items[j + 1];
      }
    }
  }

  /** `p` is the pair of some qualifying entry of `items`. */
  ghost predicate PairOfSomeEntry(items: seq<Json>, p: (string, string)) {
    exists j :: 0 <= j < |items| && IsAutoClosingPair(items[j]) && p == AutoClosingPairOf(items[j])
  }

  /** The (open, close) strings of the qualifying auto-closing entries, in order. */
  function AutoClosingPairs(items: seq<Json>): (r: seq<(string, string)>)
    ensures |r| <= |items|
    ensures forall k :: 0 <= k < |r| ==> PairOfSomeEntry(items, r[k])
    ensures forall j :: 0 <= j < |items| && IsAutoClosingPair(items[j]) ==> AutoClosingPairOf(items[j]) in r
    ensures (forall j :: 0 <= j < |items| ==> IsAutoClosingPair(items[j])) ==> |r| == |items|
  {
    if |items| == 0 then []
    else
      var rest := AutoClosingPairs(items[1..]);
      var head := if IsAutoClosingPair(items[0]) then [AutoClosingPairOf(items[0])] else [];
      AutoClosingPairsCons(items, head, rest);
      assert forall j :: 1 <= j < |items| ==> items[j] == items[1..][j - 1];
      head + rest
  }

  /** Auto-closing entries are taken one by one, in order. */
  lemma {:induction false} AutoClosingPairsAppend(a: seq<Json>, b: seq<Json>)
    ensures AutoClosingPairs(a + b) == AutoClosingPairs(a) + AutoClosingPairs(b)
  {
    if |a| > 0 {
      assert (a + b)[0] == a[0];
      assert (a + b)[1..] == a[1..] + b;
      AutoClosingPairsAppend(a[1..], b);
    } else {
      assert a + b == b;
    }
  }

  /** One entry gives its pair exactly when it qualifies. */
  lemma AutoClosingPairsSingle(a: seq<Json>)
    requires |a| == 1
    ensures AutoClosingPairs(a) == if IsAutoClosingPair(a[0]) then [AutoClosingPairOf(a[0])] else []
  {
    assert a[1..] == [];
  }

  /** The pairs taken from the first item and from the others all come from qualifying
      items. */
  lemma AutoClosingPairsCons(items: seq<Json>, head: seq<(string, string)>, rest: seq<(string, string)>)
    requires |items| > 0
    requires head == if IsAutoClosingPair(items[0]) then [AutoClosingPairOf(items[0])] else []
    requires forall k :: 0 <= k < |rest| ==> PairOfSomeEntry(items[1..], rest[k])
    ensures forall k :: 0 <= k < |head + rest| ==> PairOfSomeEntry(items, (head + rest)[k])
  {
    forall k | 0 <= k < |head + rest|
      ensures PairOfSomeEntry(items, (head + rest)[k])
    {
      if k < |head| {
        assert IsAutoClosingPair(items[0]) && (head + rest)[k] == AutoClosingPairOf(items[0]);
      } else {
        var p := rest[k - |head|];
        assert (head + rest)[k] == p;
        assert PairOfSomeEntry(items[1..], p);
        var j :| 0 <= j < |items[1..]| && IsAutoClosingPair(items[1..][j]) && p == AutoClosingPairOf(items[1..][j]);
        assert items[1..][j] == items[j + 1];
      }
    }
  }

  function Firsts(ps: seq<(string, string)>): (r: seq<string>)
    ensures |r| == |ps| && forall k :: 0 <= k < |ps| ==> r[k] == ps[k].0
  {
    if |ps| == 0 then [] else [ps[0].0] + Firsts(ps[1..])
  }

  function Seconds(ps: seq<(string, string)>): (r: seq<string>)
    ensures |r| == |ps| && forall k :: 0 <= k < |ps| ==> r[k] == ps[k].1
  {
    if |ps| == 0 then [] else [ps[0].1] + Seconds(ps[1..])
  }

  /** The comment delimiters of a `comments` object, applied to `lang`. */
  function ApplyComments(comments: Json, lang: LanguageInfo): (r: LanguageInfo)
    ensures IsMember(comments, "lineComment") ==> r.lineComment == AsString(Get(comments, "lineComment"))
    ensures !IsMember(comments, "lineComment") ==> r.lineComment == lang.lineComment
    ensures r.blockCommentStart != lang.blockCommentStart || r.blockCommentEnd != lang.blockCommentEnd
            ==> var bc := Get(comments, "blockComment");
                bc.Arr? && |bc.items| == 2 && r.blockCommentStart == AsString(bc.items[0])
                && r.blockCommentEnd == AsString(bc.items[1])
                && r.blockCommentStart != "" && r.blockCommentEnd != ""
    ensures r.(lineComment := lang.lineComment, blockCommentStart := lang.blockCommentStart,
               blockCommentEnd := lang.blockCommentEnd) == lang
  {
    var withLine := if IsMember(comments, "lineComment")
                    then lang.(lineComment := AsString(Get(comments, "lineComment"))) else lang;
    var bc := Get(comments, "blockComment");
    if bc.Arr? && |bc.items| == 2 && AsString(bc.items[0]) != "" && AsString(bc.items[1]) != "" then
      withLine.(blockCommentStart := AsString(bc.items[0]), blockCommentEnd := AsString(bc.items[1]))
    else withLine
  }

  /** The `brackets` array of a configuration: qualifying pairs are appended and the
      `brackets` flag becomes "there is at least one bracket pair". */
  function ApplyBrackets(bs: Json, lang: LanguageInfo): (r: LanguageInfo)
    ensures !bs.Arr? ==> r == lang
    ensures bs.Arr? ==> r.brackets == (|r.bracketOpen| > 0)
    ensures lang.bracketOpen <= r.bracketOpen && lang.bracketClose <= r.bracketClose
    ensures |r.bracketOpen| - |lang.bracketOpen| == |r.bracketClose| - |lang.bracketClose|
    ensures bs.Arr? ==> r.bracketOpen[|lang.bracketOpen|..] == Firsts(BracketPairs(bs.items))
                        && r.bracketClose[|lang.bracketClose|..] == Seconds(BracketPairs(bs.items))
    ensures r.(brackets := lang.brackets, bracketOpen := lang.bracketOpen, bracketClose := lang.bracketClose) == lang
  {
    if bs.Arr? then
      var ps := BracketPairs(bs.items);
      var opens := lang.bracketOpen + Firsts(ps);
      var closes := lang.bracketClose + Seconds(ps);
      assert opens[|lang.bracketOpen|..] == Firsts(ps) && closes[|lang.bracketClose|..] == Seconds(ps);
      lang.(bracketOpen := opens, bracketClose := closes, brackets := |opens| > 0)
    else lang
  }

  /** The `autoClosingPairs` array of a configuration, appended likewise. */
  function ApplyPairs(aps: Json, lang: LanguageInfo): (r: LanguageInfo)
    ensures !aps.Arr? ==> r == lang
    ensures aps.Arr? ==> r.pairs == (|r.pairOpen| > 0)
    ensures lang.pairOpen <= r.pairOpen && lang.pairClose <= r.pairClose
    ensures |r.pairOpen| - |lang.pairOpen| == |r.pairClose| - |lang.pairClose|
    ensures aps.Arr? ==> r.pairOpen[|lang.pairOpen|..] == Firsts(AutoClosingPairs(aps.items))
                         && r.pairClose[|lang.pairClose|..] == Seconds(AutoClosingPairs(aps.items))
    ensures r.(pairs := lang.pairs, pairOpen := lang.pairOpen, pairClose := lang.pairClose) == lang
  {
    if aps.Arr? then
      var ps := AutoClosingPairs(aps.items);
      var opens := lang.pairOpen + Firsts(ps);
      var closes := lang.pairClose + Seconds(ps);
      assert opens[|lang.pairOpen|..] == Firsts(ps) && closes[|lang.pairClose|..] == Seconds(ps);
      lang.(pairOpen := opens, pairClose := closes, pairs := |opens| > 0)
    else lang
  }

  datatype ConfigResult = ConfigResult(loaded: bool, lang: LanguageInfo)

  /** load_language_configuration: reads comments, bracket pairs and auto-closing pairs
      from the parsed language-configuration.json, appending to what `lang` holds. */
  function LoadLanguageConfiguration(root: Json, lang: LanguageInfo): (r: ConfigResult)
    ensures IsEmpty(root) ==> !r.loaded && r.lang == lang
    ensures !IsEmpty(root) ==> r.loaded
    ensures r.lang.id == lang.id && r.lang.grammar == lang.grammar
    ensures |lang.bracketOpen| == |lang.bracketClose| ==> |r.lang.bracketOpen| == |r.lang.bracketClose|
    ensures |lang.pairOpen| == |lang.pairClose| ==> |r.lang.pairOpen| == |r.lang.pairClose|
    ensures lang.bracketOpen <= r.lang.bracketOpen && lang.pairOpen <= r.lang.pairOpen
    ensures !IsEmpty(root) && Get(root, "brackets").Arr? ==> r.lang.brackets == (|r.lang.bracketOpen| > 0)
    ensures !Get(root, "brackets").Arr? ==> r.lang.brackets == lang.brackets && r.lang.bracketOpen == lang.bracketOpen
    ensures !IsEmpty(root) && Get(root, "autoClosingPairs").Arr? ==> r.lang.pairs == (|r.lang.pairOpen| > 0)
    ensures !IsEmpty(root) && Get(root, "brackets").Arr? ==>
              r.lang.bracketOpen[|lang.bracketOpen|..] == Firsts(BracketPairs(Get(root, "brackets").items))
  {
    if IsEmpty(root) then ConfigResult(false, lang)
    else
      var l1 := if IsMember(root, "comments") then ApplyComments(Get(root, "comments"), lang) else lang;
      assert l1.bracketOpen == lang.bracketOpen && l1.bracketClose == lang.bracketClose;
      var l2 := ApplyBrackets(Get(root, "brackets"), l1);
      var l3 := ApplyPairs(Get(root, "autoClosingPairs"), l2);
      assert l3.bracketOpen == l2.bracketOpen && l3.brackets == l2.brackets;
      ConfigResult(true, l3)
  }

  // ---------------------------------------------------------------- language resolution

  /** The file name of a path: everything after the last '/'. */
  function FileName(path: string): (r: string)
    ensures '/' !in r
    ensures |r| <= |path| && r == path[|path| - |r|..]
    ensures |r| < |path| ==> path[|path| - |r| - 1] == '/'
    decreases |path|
  {
    if |path| == 0 then ""
    else if path[|path| - 1] == '/' then ""
    else
      var pre := path[..|path| - 1];
      var f := FileName(pre);
      assert path[|path| - |f| - 1..] == pre[|pre| - |f|..] + [path[|path| - 1]];
      f + [path[|path| - 1]]
  }

  /** What follows the last '.' of a name, or "" when it has none. */
  function AfterLastDot(name: string): (r: string)
    ensures '.' !in r
    ensures r == "" || (|r| < |name| && name[|name| - |r| - 1] == '.' && name[|name| - |r|..] == r)
    ensures '.' in name ==> |r| < |name| && name[|name| - |r| - 1] == '.' && name[|name| - |r|..] == r
    ensures '.' !in name ==> r == ""
    decreases |name|
  {
    if |name| == 0 then ""
    else if name[|name| - 1] == '.' then ""
    else
      var pre := AfterLastDot(name[..|name| - 1]);
      if pre == "" && '.' !in name[..|name| - 1] then ""
      else pre + [name[|name| - 1]]
  }

  /** QFileInfo::suffix. */
  function FileSuffix(path: string): string {
    AfterLastDot(FileName(path))
  }

  /** QDir(dir).filePath(name): an absolute name as is, otherwise joined under the
      directory ("." when the directory is empty). */
  function JoinPath(dir: string, name: string): (r: string)
    ensures StartsWith(name, "/") ==> r == name
    ensures !StartsWith(name, "/") ==> |r| > |name| && r[|r| - |name|..] == name
  {
    if StartsWith(name, "/") then name
    else
      var d := if dir == "" then "." else dir;
      if d[|d| - 1] == '/' then d + name else d + "/" + name
  }

  /** The state language_from_file's search carries: the matched extension's directory,
      the language id, that extension's grammars and the language's configuration path. */
  datatype Resolution = Resolution(extPath: string, language: string, grammars: Json, configuration: Json)

  const Unresolved: Resolution := Resolution("", "", Null, Null)

  predicate NamesFile(lang: Json, fileName: string) {
    exists f <- Elements(Get(lang, "filenames")) :: AsString(f) == fileName
  }

  predicate HasExtension(lang: Json, suffix: string) {
    exists x <- Elements(Get(lang, "extensions")) :: AsString(x) == suffix
  }

  /** The index of the first element of `xs` that satisfies `p`, or |xs| when none does. */
  function FirstWhere<T>(xs: seq<T>, p: T -> bool): (k: nat)
    ensures k <= |xs|
    ensures k < |xs| ==> p(xs[k])
    ensures forall j :: 0 <= j < k ==> !p(xs[j])
  {
    if |xs| == 0 || p(xs[0]) then 0
    else
      assert forall j :: 1 <= j < |xs| ==> xs[j] == xs[1..][j - 1];
      1 + FirstWhere(xs[1..], p)
  }

  /** A language entry that ends the newer search: a non-empty `id`, and the file name
      among its `filenames` or the suffix among its `extensions`. */
  predicate Hit(l: Json, fileName: string, suffix: string) {
    IsMember(l, "id") && AsString(Get(l, "id")) != "" && (NamesFile(l, fileName) || HasExtension(l, suffix))
  }

  /** The first entry of `langs` that ends the newer search, or |langs|. */
  function FirstHit(langs: seq<Json>, fileName: string, suffix: string): (k: nat)
    ensures k <= |langs|
    ensures k < |langs| ==> Hit(langs[k], fileName, suffix)
    ensures forall j :: 0 <= j < k ==> !Hit(langs[j], fileName, suffix)
  {
    FirstWhere(langs, l => Hit(l, fileName, suffix))
  }

  /** What a search records for the entry `l` of extension `ext` that ended it: its id,
      the extension's grammars, and its configuration if it names one (else `conf`). */
  predicate ResolvedAt(ext: Extension, l: Json, conf: Json, r: Resolution) {
    && r.language == AsString(Get(l, "id"))
    && r.grammars == Get(Get(ext.package, "contributes"), "grammars")
    && r.configuration == (if IsMember(l, "configuration") then Get(l, "configuration") else conf)
  }

  /** The inner loop over one extension's `languages` (newer): a language entry with an
      `id` matches by file name first, and by suffix only when no file name matched. The
      first entry that yields a non-empty id stops the search. Quirk kept: a file-name
      match does not record the extension's directory. */
  function ResolveInLanguages(ext: Extension, contribs: Json, langs: seq<Json>,
                              fileName: string, suffix: string, res: Resolution): (r: Resolution)
    requires contribs == Get(ext.package, "contributes")
    ensures res.language != "" ==> r == res
    ensures res.language == "" ==>
              var k := FirstHit(langs, fileName, suffix);
              && (k == |langs| ==> r.language == "" && r.configuration == res.configuration)
              && (k < |langs| ==> ResolvedAt(ext, langs[k], res.configuration, r)
                                  && (!NamesFile(langs[k], fileName) ==> r.extPath == ext.path))
              && (r.extPath == res.extPath || r.extPath == ext.path)
    ensures r.language != "" && res.language == "" ==>
              exists l <- langs :: IsMember(l, "id") && AsString(Get(l, "id")) == r.language
                                   && (NamesFile(l, fileName) || HasExtension(l, suffix))
    ensures res.language == "" && r.language == "" ==> r.grammars == res.grammars || exists l <- langs :: IsMember(l, "id") && AsString(Get(l, "id")) == ""
    decreases |langs|
  {
    if |langs| == 0 || res.language != "" then res
    else
      var l := langs[0];
      assert forall x <- langs[1..] :: x in langs;
      assert forall j :: 1 <= j < |langs| ==> langs[j] == langs[1..][j - 1];
      if !IsMember(l, "id") then ResolveInLanguages(ext, contribs, langs[1..], fileName, suffix, res)
      else
        var id := AsString(Get(l, "id"));
        var res1 :=
          if NamesFile(l, fileName) then res.(language := id, grammars := Get(contribs, "grammars"))
          else if HasExtension(l, suffix) then
            res.(extPath := ext.path, language := id, grammars := Get(contribs, "grammars"))
          else res;
        if res1.language != "" then
          if IsMember(l, "configuration") then res1.(configuration := Get(l, "configuration")) else res1
        else ResolveInLanguages(ext, contribs, langs[1..], fileName, suffix, res1)
  }

  /** An extension both searches look into: it contributes `languages` and `grammars`. */
  predicate Searched(e: Extension) {
    IsMember(Get(e.package, "contributes"), "languages") && IsMember(Get(e.package, "contributes"), "grammars")
  }

  /** The language entries an extension contributes. */
  function Entries(e: Extension): seq<Json> {
    Elements(Get(Get(e.package, "contributes"), "languages"))
  }

  /** The first extension in which the newer search ends, or |exts|. */
  function FirstResolving(exts: seq<Extension>, fileName: string, suffix: string): (i: nat)
    ensures i <= |exts|
    ensures i < |exts| ==> Searched(exts[i]) && FirstHit(Entries(exts[i]), fileName, suffix) < |Entries(exts[i])|
    ensures forall j :: 0 <= j < i ==>
              !(Searched(exts[j]) && FirstHit(Entries(exts[j]), fileName, suffix) < |Entries(exts[j])|)
  {
    FirstWhere(exts, e => Searched(e) && FirstHit(Entries(e), fileName, suffix) < |Entries(e)|)
  }

  /** The outer loop over extensions (newer): only extensions contributing both
      `languages` and `grammars` are searched. */
  function Resolve(exts: seq<Extension>, fileName: string, suffix: string, res: Resolution): (r: Resolution)
    ensures res.language != "" ==> r == res
    ensures res.language == "" ==>
              var i := FirstResolving(exts, fileName, suffix);
              && (i == |exts| ==> r.language == "" && r.configuration == res.configuration)
              && (i < |exts| ==>
                    var l := Entries(exts[i])[FirstHit(Entries(exts[i]), fileName, suffix)];
                    ResolvedAt(exts[i], l, res.configuration, r) && (!NamesFile(l, fileName) ==> r.extPath == exts[i].path))
    ensures r.language != "" && res.language == "" ==>
              exists e <- exts :: IsMember(Get(e.package, "contributes"), "languages")
                                  && IsMember(Get(e.package, "contributes"), "grammars")
    decreases |exts|
  {
    if |exts| == 0 || res.language != "" then res
    else
      var contribs := Get(exts[0].package, "contributes");
      assert forall x <- exts[1..] :: x in exts;
      FirstResolvingStep(exts, fileName, suffix);
      if !IsMember(contribs, "languages") || !IsMember(contribs, "grammars") then
        Resolve(exts[1..], fileName, suffix, res)
      else
        var r1 := ResolveInLanguages(exts[0], contribs, Elements(Get(contribs, "languages")), fileName, suffix, res);
        Resolve(exts[1..], fileName, suffix, r1)
  }

  /** The search ends in the first extension when it can, and otherwise one extension
      later than it would among the rest. */
  lemma FirstResolvingStep(exts: seq<Extension>, fileName: string, suffix: string)
    requires |exts| > 0
    ensures var i := FirstResolving(exts, fileName, suffix);
            if Searched(exts[0]) && FirstHit(Entries(exts[0]), fileName, suffix) < |Entries(exts[0])| then i == 0
            else i == 1 + FirstResolving(exts[1..], fileName, suffix)
                 && (i < |exts| ==> exts[i] == exts[1..][i - 1])
  {
    var i := FirstResolving(exts, fileName, suffix);
    var i1 := FirstResolving(exts[1..], fileName, suffix);
    if !(Searched(exts[0]) && FirstHit(Entries(exts[0]), fileName, suffix) < |Entries(exts[0])|) {
      assert forall j :: 1 <= j < |exts| ==> exts[j] == exts[1..][j - 1];
    }
  }

  predicate ScopeMatches(g: Json, language: string) {
    IsMember(g, "scopeName") && AsString(Get(g, "scopeName")) == "source." + language
  }

  predicate LanguageMatches(g: Json, language: string) {
    IsMember(g, "language") && AsString(Get(g, "language")) == language
  }

  /** The grammar `gs[k]` where `k` is the first index matching by scope (or by language),
      none when no grammar matches. */
  function FirstMatching(gs: seq<Json>, language: string, byScope: bool): (r: Option<Json>)
    ensures var k := FirstWhere(gs, g => if byScope then ScopeMatches(g, language) else LanguageMatches(g, language));
            r == if k < |gs| then Some(gs[k]) else None
    ensures r.Some? ==> r.value in gs
    ensures r.Some? ==> (if byScope then ScopeMatches(r.value, language) else LanguageMatches(r.value, language))
    ensures r.None? ==> forall g <- gs :: !(if byScope then ScopeMatches(g, language) else LanguageMatches(g, language))
  {
    if |gs| == 0 then None
    else if (if byScope then ScopeMatches(gs[0], language) else LanguageMatches(gs[0], language)) then Some(gs[0])
    else
      var r := FirstMatching(gs[1..], language, byScope);
      assert forall g <- gs[1..] :: g in gs;
      assert forall g <- gs :: g == gs[0] || g in gs[1..];
      r
  }

  /** The grammar pass of language_from_file (newer): a grammar scoped `source.<id>` wins,
      then one whose `language` is the id. */
  function PickGrammar(gs: seq<Json>, language: string): (r: Option<Json>)
    ensures r.Some? ==> r.value in gs && (ScopeMatches(r.value, language) || LanguageMatches(r.value, language))
    ensures r.Some? && !ScopeMatches(r.value, language) ==> forall g <- gs :: !ScopeMatches(g, language)
    ensures r.None? ==> forall g <- gs :: !ScopeMatches(g, language) && !LanguageMatches(g, language)
  {
    match FirstMatching(gs, language, true)
    case Some(g) => Some(g)
    case None => FirstMatching(gs, language, false)
  }

  /** The configuration file a matched language reads. */
  function ConfigurationPath(res: Resolution): string {
    if !IsEmpty(res.configuration) then JoinPath(res.extPath, AsString(res.configuration))
    else JoinPath(res.extPath, "language-configuration.json")
  }

  datatype Lookup = Lookup(lang: LanguageInfo, cache: map<string, LanguageInfo>)

  /** The language a file's grammar falls back to: scoped by its suffix. */
  function FallbackLanguage(suffix: string): LanguageInfo {
    NewLanguage.(id := suffix, grammar := FallbackGrammar(suffix))
  }

  /** language_from_file (newer). */
  function LanguageFromFile(fs: FileSystem, cache: map<string, LanguageInfo>, path: string,
                            exts: seq<Extension>): (r: Lookup)
    ensures var suffix := "." + FileSuffix(path);
            suffix in cache ==> r == Lookup(cache[suffix], cache)
    ensures var suffix := "." + FileSuffix(path);
            suffix !in cache && r.lang.grammar.FallbackGrammar? ==>
              r.lang == FallbackLanguage(suffix)
              && r.cache == (if suffix == "." then cache else cache[suffix := r.lang])
    ensures var suffix := "." + FileSuffix(path);
            suffix !in cache && r.lang.grammar.GrammarFile? ==> r.cache == cache[suffix := r.lang]
    ensures r.lang.grammar != NoGrammar || "." + FileSuffix(path) in cache
    ensures var suffix := "." + FileSuffix(path);
            var res := Resolve(exts, FileName(path), suffix, Unresolved);
            var g := if res.language != "" then PickGrammar(Elements(res.grammars), res.language) else None;
            suffix !in cache ==>
              && (r.lang.grammar.FallbackGrammar? <==> g.None?)
              && (g.Some? ==>
                    && r.lang.id == res.language
                    && r.lang.grammar == GrammarFile(JoinPath(res.extPath, AsString(Get(g.value, "path"))))
                    && r.lang == LoadLanguageConfiguration(fs(ConfigurationPath(res)),
                                                           NewLanguage.(grammar := r.lang.grammar, id := res.language)).lang)
  {
    var suffix := "." + FileSuffix(path);
    if suffix in cache then Lookup(cache[suffix], cache)
    else
      var res := Resolve(exts, FileName(path), suffix, Unresolved);
      var g := if res.language != "" then PickGrammar(Elements(res.grammars), res.language) else None;
      if g.Some? then
        var base := NewLanguage.(grammar := GrammarFile(JoinPath(res.extPath, AsString(Get(g.value, "path")))),
                                 id := res.language);
        var lang := LoadLanguageConfiguration(fs(ConfigurationPath(res)), base).lang;
        Lookup(lang, cache[suffix := lang])
      else
        var lang := FallbackLanguage(suffix);
        Lookup(lang, if suffix != "." then cache[suffix := lang] else cache)
  }

  /** A language entry that ends the older search: `extensions` and a non-empty `id`, and
      the suffix among the extensions. */
  predicate HitLegacy(l: Json, suffix: string) {
    IsMember(l, "extensions") && IsMember(l, "id") && AsString(Get(l, "id")) != "" && HasExtension(l, suffix)
  }

  /** The first entry of `langs` that ends the older search, or |langs|. */
  function FirstHitLegacy(langs: seq<Json>, suffix: string): (k: nat)
    ensures k <= |langs|
    ensures k < |langs| ==> HitLegacy(langs[k], suffix)
    ensures forall j :: 0 <= j < k ==> !HitLegacy(langs[j], suffix)
  {
    FirstWhere(langs, l => HitLegacy(l, suffix))
  }

  /** The inner loop over one extension's `languages` (older): only entries with both
      `extensions` and `id` are considered, and only the suffix is matched. */
  function ResolveInLanguagesLegacy(ext: Extension, contribs: Json, langs: seq<Json>,
                                    suffix: string, res: Resolution): (r: Resolution)
    requires contribs == Get(ext.package, "contributes")
    ensures res.language != "" ==> r == res
    ensures res.language == "" ==>
              var k := FirstHitLegacy(langs, suffix);
              && (k == |langs| ==> r.language == "" && r.configuration == res.configuration)
              && (k < |langs| ==> ResolvedAt(ext, langs[k], res.configuration, r) && r.extPath == ext.path)
    ensures r.language != "" && res.language == "" ==>
              exists l <- langs :: IsMember(l, "extensions") && IsMember(l, "id")
                                   && AsString(Get(l, "id")) == r.language && HasExtension(l, suffix)
    ensures r.language != "" && res.language == "" ==> r.extPath == ext.path
    decreases |langs|
  {
    if |langs| == 0 || res.language != "" then res
    else
      var l := langs[0];
      assert forall x <- langs[1..] :: x in langs;
      assert forall j :: 1 <= j < |langs| ==> langs[j] == langs[1..][j - 1];
      if !IsMember(l, "extensions") || !IsMember(l, "id") then
        ResolveInLanguagesLegacy(ext, contribs, langs[1..], suffix, res)
      else
        var res1 := if HasExtension(l, suffix)
                    then res.(extPath := ext.path, language := AsString(Get(l, "id")), grammars := Get(contribs, "grammars"))
                    else res;
        if res1.language != "" then
          if IsMember(l, "configuration") then res1.(configuration := Get(l, "configuration")) else res1
        else ResolveInLanguagesLegacy(ext, contribs, langs[1..], suffix, res1)
  }

  /** The first extension in which the older search ends, or |exts|. */
  function FirstResolvingLegacy(exts: seq<Extension>, suffix: string): (i: nat)
    ensures i <= |exts|
    ensures i < |exts| ==> Searched(exts[i]) && FirstHitLegacy(Entries(exts[i]), suffix) < |Entries(exts[i])|
    ensures forall j :: 0 <= j < i ==>
              !(Searched(exts[j]) && FirstHitLegacy(Entries(exts[j]), suffix) < |Entries(exts[j])|)
  {
    FirstWhere(exts, e => Searched(e) && FirstHitLegacy(Entries(e), suffix) < |Entries(e)|)
  }

  /** The older search ends in the first extension when it can, and otherwise one
      extension later than it would among the rest. */
  lemma FirstResolvingLegacyStep(exts: seq<Extension>, suffix: string)
    requires |exts| > 0
    ensures var i := FirstResolvingLegacy(exts, suffix);
            if Searched(exts[0]) && FirstHitLegacy(Entries(exts[0]), suffix) < |Entries(exts[0])| then i == 0
            else i == 1 + FirstResolvingLegacy(exts[1..], suffix)
                 && (i < |exts| ==> exts[i] == exts[1..][i - 1])
  {
    var i := FirstResolvingLegacy(exts, suffix);
    var i1 := FirstResolvingLegacy(exts[1..], suffix);
    if !(Searched(exts[0]) && FirstHitLegacy(Entries(exts[0]), suffix) < |Entries(exts[0])|) {
      assert forall j :: 1 <= j < |exts| ==> exts[j] == exts[1..][j - 1];
    }
  }

  /** The outer loop over extensions (older), searching the same extensions. */
  function ResolveLegacy(exts: seq<Extension>, suffix: string, res: Resolution): (r: Resolution)
    ensures res.language != "" ==> r == res
    ensures res.language == "" ==>
              var i := FirstResolvingLegacy(exts, suffix);
              && (i == |exts| ==> r.language == "" && r.configuration == res.configuration)
              && (i < |exts| ==>
                    var l := Entries(exts[i])[FirstHitLegacy(Entries(exts[i]), suffix)];
                    ResolvedAt(exts[i], l, res.configuration, r) && r.extPath == exts[i].path)
    decreases |exts|
  {
    if |exts| == 0 || res.language != "" then res
    else
      var contribs := Get(exts[0].package, "contributes");
      FirstResolvingLegacyStep(exts, suffix);
      if !IsMember(contribs, "languages") || !IsMember(contribs, "grammars") then
        ResolveLegacy(exts[1..], suffix, res)
      else
        ResolveLegacy(exts[1..], suffix,
                      ResolveInLanguagesLegacy(exts[0], contribs, Elements(Get(contribs, "languages")), suffix, res))
  }

  /** The index of the last grammar whose `language` is `language`, or |gs| when none is. */
  function LastMatching(gs: seq<Json>, language: string): (k: nat)
    ensures k <= |gs|
    ensures k < |gs| ==> LanguageMatches(gs[k], language)
    ensures k < |gs| ==> forall j :: k < j < |gs| ==> !LanguageMatches(gs[j], language)
    ensures k == |gs| ==> forall j :: 0 <= j < |gs| ==> !LanguageMatches(gs[j], language)
    decreases |gs|
  {
    if |gs| == 0 then 0
    else if LanguageMatches(gs[|gs| - 1], language) then |gs| - 1
    else
      var k := LastMatching(gs[..|gs| - 1], language);
      assert forall j :: 0 <= j < |gs| - 1 ==> gs[..|gs| - 1][j] == gs[j];
      if k == |gs| - 1 then |gs| else k
  }

  /** The grammar loop of the older language_from_file: every grammar whose `language` is
      the id is loaded in turn and the configuration is read again for each, appending its
      brackets and pairs once more. The last matching grammar is the one kept, under the
      resolved id; with none matching the language is unchanged. */
  function LoadMatchingGrammars(fs: FileSystem, gs: seq<Json>, res: Resolution, lang: LanguageInfo): (r: LanguageInfo)
    ensures var k := LastMatching(gs, res.language);
            && (k == |gs| ==> r == lang)
            && (k < |gs| ==> r.grammar == GrammarFile(JoinPath(res.extPath, AsString(Get(gs[k], "path"))))
                             && r.id == res.language)
    ensures var k := LastMatching(gs, res.language);
            k < |gs| ==>
              r == LoadLanguageConfiguration(fs(ConfigurationPath(res)),
                                             LoadMatchingGrammars(fs, gs[..k], res, lang).(
                                               grammar := GrammarFile(JoinPath(res.extPath, AsString(Get(gs[k], "path")))),
                                               id := res.language)).lang
    ensures (forall g <- gs :: !LanguageMatches(g, res.language)) ==> r == lang
    ensures |gs| > 0 && LanguageMatches(gs[|gs| - 1], res.language) ==>
              r.grammar == GrammarFile(JoinPath(res.extPath, AsString(Get(gs[|gs| - 1], "path"))))
    ensures r.grammar != lang.grammar ==> exists g <- gs :: LanguageMatches(g, res.language)
    ensures r.grammar == lang.grammar || r.grammar.GrammarFile?
    decreases |gs|
  {
    if |gs| == 0 then lang
    else
      var prefix := gs[..|gs| - 1];
      var g := gs[|gs| - 1];
      assert forall j :: 0 <= j < |prefix| ==> prefix[j] == gs[j];
      var before := LoadMatchingGrammars(fs, prefix, res, lang);
      assert LastMatching(gs, res.language) < |prefix| ==> prefix[..LastMatching(gs, res.language)] == gs[..LastMatching(gs, res.language)];
      if LanguageMatches(g, res.language) then
        var loaded := before.(grammar := GrammarFile(JoinPath(res.extPath, AsString(Get(g, "path")))),
                              id := res.language);
        LoadLanguageConfiguration(fs(ConfigurationPath(res)), loaded).lang
      else before
  }

  /** The grammars are loaded one after the other: loading a + b is loading b over what
      loading a left. */
  lemma {:induction false} LoadMatchingGrammarsAppend(fs: FileSystem, a: seq<Json>, b: seq<Json>,
                                                      res: Resolution, lang: LanguageInfo)
    ensures LoadMatchingGrammars(fs, a + b, res, lang)
            == LoadMatchingGrammars(fs, b, res, LoadMatchingGrammars(fs, a, res, lang))
    decreases |b|
  {
    if |b| == 0 {
      assert a + b == a;
    } else {
      assert (a + b)[..|a + b| - 1] == a + b[..|b| - 1];
      assert (a + b)[|a + b| - 1] == b[|b| - 1];
      LoadMatchingGrammarsAppend(fs, a, b[..|b| - 1], res, lang);
    }
  }

  /** language_from_file (older): the result is always cached under the suffix. */
  function LanguageFromFileLegacy(fs: FileSystem, cache: map<string, LanguageInfo>, path: string,
                                  exts: seq<Extension>): (r: Lookup)
    ensures var suffix := "." + FileSuffix(path);
            suffix in cache ==> r == Lookup(cache[suffix], cache)
    ensures var suffix := "." + FileSuffix(path);
            suffix !in cache ==> r.cache == cache[suffix := r.lang]
    ensures var suffix := "." + FileSuffix(path);
            suffix !in cache && r.lang.grammar.FallbackGrammar? ==> r.lang == FallbackLanguage(suffix)
    ensures var suffix := "." + FileSuffix(path);
            var res := ResolveLegacy(exts, suffix, Unresolved);
            var gs := Elements(res.grammars);
            var k := LastMatching(gs, res.language);
            suffix !in cache ==>
              && (r.lang.grammar.FallbackGrammar? <==> res.language == "" || k == |gs|)
              && (res.language != "" && k < |gs| ==>
                    && r.lang == LoadMatchingGrammars(fs, gs, res, NewLanguage)
                    && r.lang.id == res.language
                    && r.lang.grammar == GrammarFile(JoinPath(res.extPath, AsString(Get(gs[k], "path")))))
  {
    var suffix := "." + FileSuffix(path);
    if suffix in cache then Lookup(cache[suffix], cache)
    else
      var res := ResolveLegacy(exts, suffix, Unresolved);
      var loaded := if res.language != "" then LoadMatchingGrammars(fs, Elements(res.grammars), res, NewLanguage) else NewLanguage;
      var lang := if loaded.grammar == NoGrammar then FallbackLanguage(suffix) else loaded;
      Lookup(lang, cache[suffix := lang])
  }

  /** Asking again with the cache a lookup left behind gives the same language and changes
      the cache no further: a hit returns the entry, and the uncached "." fallback is
      recomputed identically. */
  lemma LanguageFromFileStable(fs: FileSystem, cache: map<string, LanguageInfo>, path: string, exts: seq<Extension>)
    ensures var r := LanguageFromFile(fs, cache, path, exts);
            LanguageFromFile(fs, r.cache, path, exts) == r
  {
    var suffix := "." + FileSuffix(path);
    var r := LanguageFromFile(fs, cache, path, exts);
    if suffix !in cache && suffix !in r.cache {
      assert r.cache == cache;
    }
  }

  lemma LanguageFromFileLegacyStable(fs: FileSystem, cache: map<string, LanguageInfo>, path: string, exts: seq<Extension>)
    ensures var r := LanguageFromFileLegacy(fs, cache, path, exts);
            LanguageFromFileLegacy(fs, r.cache, path, exts) == r
  {
  }

  /** When no extension's search ends for a file's name and suffix, the newer lookup falls
      back to the grammar scoped by the suffix. */
  lemma LanguageFromFileWithoutHit(fs: FileSystem, cache: map<string, LanguageInfo>, path: string, exts: seq<Extension>)
    requires "." + FileSuffix(path) !in cache
    requires FirstResolving(exts, FileName(path), "." + FileSuffix(path)) == |exts|
    ensures LanguageFromFile(fs, cache, path, exts).lang == FallbackLanguage("." + FileSuffix(path))
  {
  }

  /** A language the newer lookup loads a grammar for has the id of the first hit in the
      first extension whose search ends. */
  lemma LanguageFromFileTakesFirstHit(fs: FileSystem, cache: map<string, LanguageInfo>, path: string, exts: seq<Extension>)
    requires "." + FileSuffix(path) !in cache
    ensures var suffix := "." + FileSuffix(path);
            var i := FirstResolving(exts, FileName(path), suffix);
            var r := LanguageFromFile(fs, cache, path, exts);
            r.lang.grammar.GrammarFile? ==>
              i < |exts| && r.lang.id == AsString(Get(Entries(exts[i])[FirstHit(Entries(exts[i]), FileName(path), suffix)], "id"))
  {
  }

  /** When no extension's search ends for a suffix, the older lookup falls back to the
      grammar scoped by the suffix, and caches it. */
  lemma LanguageFromFileLegacyWithoutHit(fs: FileSystem, cache: map<string, LanguageInfo>, path: string, exts: seq<Extension>)
    requires "." + FileSuffix(path) !in cache
    requires FirstResolvingLegacy(exts, "." + FileSuffix(path)) == |exts|
    ensures var r := LanguageFromFileLegacy(fs, cache, path, exts);
            r.lang == FallbackLanguage("." + FileSuffix(path))
            && r.cache == cache["." + FileSuffix(path) := r.lang]
  {
  }

  /** A language the older lookup loads a grammar for has the id of the first hit in the
      first extension whose search ends, and the last grammar of that extension declaring
      the language. */
  lemma LanguageFromFileLegacyTakesFirstHit(fs: FileSystem, cache: map<string, LanguageInfo>, path: string, exts: seq<Extension>)
    requires "." + FileSuffix(path) !in cache
    ensures var suffix := "." + FileSuffix(path);
            var i := FirstResolvingLegacy(exts, suffix);
            var r := LanguageFromFileLegacy(fs, cache, path, exts);
            r.lang.grammar.GrammarFile? ==>
              && i < |exts|
              && r.lang.id == AsString(Get(Entries(exts[i])[FirstHitLegacy(Entries(exts[i]), suffix)], "id"))
              && var gs := Elements(Get(Get(exts[i].package, "contributes"), "grammars"));
                 var k := LastMatching(gs, r.lang.id);
                 k < |gs| && r.lang.grammar == GrammarFile(JoinPath(exts[i].path, AsString(Get(gs[k], "path"))))
  {
  }

  /** A name without a suffix looks up ".": the older resolver caches its fallback under
      that key, the newer one leaves the cache as it was. */
  /** The name `x.` has an empty suffix, so both generations look up the key ".". */
  lemma TrailingDotSuffix()
    ensures FileName("x.") == "x."
    ensures "." + FileSuffix("x.") == "."
  {
    FileNameWithoutSlash("x.");
    assert AfterLastDot("x.") == "";
  }

  /** A path without a separator is its own file name. */
  lemma {:induction false} FileNameWithoutSlash(path: string)
    requires '/' !in path
    ensures FileName(path) == path
    decreases |path|
  {
    if |path| > 0 {
      var pre := path[..|path| - 1];
      assert '/' !in pre by {
        forall k | 0 <= k < |pre| ensures pre[k] != '/' {
          assert pre[k] == path[k];
        }
      }
      FileNameWithoutSlash(pre);
      assert pre + [path[|path| - 1]] == path;
    }
  }

  lemma DotSuffixCaching(fs: FileSystem)
    ensures LanguageFromFileLegacy(fs, map[], "x.", []).cache == map["." := FallbackLanguage(".")]
    ensures LanguageFromFile(fs, map[], "x.", []).cache == map[]
  {
    DotSuffixCachingLegacy(fs);
    DotSuffixNotCached(fs);
  }

  lemma DotSuffixCachingLegacy(fs: FileSystem)
    ensures LanguageFromFileLegacy(fs, map[], "x.", []).cache == map["." := FallbackLanguage(".")]
  {
    TrailingDotSuffix();
    assert ResolveLegacy([], ".", Unresolved) == Unresolved;
  }

  lemma DotSuffixNotCached(fs: FileSystem)
    ensures LanguageFromFile(fs, map[], "x.", []).cache == map[]
  {
    TrailingDotSuffix();
    assert Resolve([], "x.", ".", Unresolved) == Unresolved;
  }
}

=== FILE: extensionregistry.dfy ===
/** The extension registry of the script layer (js/extensions.js). An extension is an object
    with `activate` and `deactivate` methods and an `activated` flag that the registry sets
    on the object itself. Objects are known by identity; the registry keeps, besides its map,
    the set of objects whose flag is set and the trace of methods it called. */
module ExtensionRegistry {

  /** A script extension object, by identity. */
  datatype ExtObject = ExtObject(id: nat)

  /** A call the registry makes on an extension object. */
  datatype ExtCall = Activate(target: ExtObject) | Deactivate(target: ExtObject)

  datatype ExtState = ExtState(registry: map<string, ExtObject>, activated: set<ExtObject>, trace: seq<ExtCall>)

  const EmptyRegistry: ExtState := ExtState(map[], {}, [])

  /** registerExtension: the object is stored under its name; the object it replaces, if any,
      is deactivated first. Deactivating does not clear that object's flag. */
  function RegisterExtension(st: ExtState, name: string, ext: ExtObject): (r: ExtState)
    ensures r.registry == st.registry[name := ext]
    ensures r.activated == st.activated
    ensures name in st.registry ==> r.trace == st.trace + [Deactivate(st.registry[name])]
    ensures name !in st.registry ==> r.trace == st.trace
  {
    var trace := if name in st.registry then st.trace + [Deactivate(st.registry[name])] else st.trace;
    ExtState(st.registry[name := ext], st.activated, trace)
  }

  /** activate: calls `activate` on the registered object unless its flag is already set, and
      sets the flag; an unknown name changes nothing. */
  function ActivateExtension(st: ExtState, name: string): (r: ExtState)
    ensures name !in st.registry ==> r == st
    ensures name in st.registry && st.registry[name] in st.activated ==> r == st
    ensures name in st.registry && st.registry[name] !in st.activated ==>
              r.trace == st.trace + [Activate(st.registry[name])] && st.registry[name] in r.activated
    ensures r.registry == st.registry
    ensures r.activated == st.activated || (name in st.registry && r.activated == st.activated + {st.registry[name]})
  {
    if name in st.registry && st.registry[name] !in st.activated then
      var ext := st.registry[name];
      ExtState(st.registry, st.activated + {ext}, st.trace + [Activate(ext)])
    else st
  }

  /** An operation a script performs on the registry. */
  datatype ExtOp = Register(name: string, ext: ExtObject) | ActivateOp(name: string)

  function Step(st: ExtState, op: ExtOp): ExtState {
    match op
    case Register(name, ext) => RegisterExtension(st, name, ext)
    case ActivateOp(name) => ActivateExtension(st, name)
  }

  /** The state after a sequence of operations, applied in order. */
  function Run(st: ExtState, ops: seq<ExtOp>): ExtState
    decreases |ops|
  {
    if |ops| == 0 then st else Run(Step(st, ops[0]), ops[1..])
  }

  /** How many times `activate` was called on an object. */
  function Activations(trace: seq<ExtCall>, ext: ExtObject): nat {
    multiset(trace)[Activate(ext)]
  }

  /** The trace agrees with the flags: an object was activated once if its flag is set and
      never otherwise. */
  ghost predicate Consistent(st: ExtState) {
    forall ext :: Activations(st.trace, ext) == if ext in st.activated then 1 else 0
  }

  /** One operation keeps the trace consistent with the flags. */
  lemma StepConsistent(st: ExtState, op: ExtOp)
    requires Consistent(st)
    ensures Consistent(Step(st, op))
  {
    var r := Step(st, op);
    forall ext
      ensures Activations(r.trace, ext) == if ext in r.activated then 1 else 0
    {
      if op.Register? && op.name in st.registry {
        assert multiset(r.trace) == multiset(st.trace) + multiset{Deactivate(st.registry[op.name])};
      } else if op.ActivateOp? && op.name in st.registry && st.registry[op.name] !in st.activated {
        assert multiset(r.trace) == multiset(st.trace) + multiset{Activate(st.registry[op.name])};
      }
    }
  }

  /** Any sequence of operations keeps the trace consistent with the flags. */
  lemma {:induction false} RunConsistent(st: ExtState, ops: seq<ExtOp>)
    requires Consistent(st)
    ensures Consistent(Run(st, ops))
    decreases |ops|
  {
    if |ops| > 0 {
      StepConsistent(st, ops[0]);
      RunConsistent(Step(st, ops[0]), ops[1..]);
    }
  }

  /** Starting from the empty registry, `activate` is called at most once on any object,
      however the scripts register and activate. */
  lemma ActivatedAtMostOnce(ops: seq<ExtOp>, ext: ExtObject)
    ensures Activations(Run(EmptyRegistry, ops).trace, ext) <= 1
  {
    RunConsistent(EmptyRegistry, ops);
  }

  /** Registering a fresh object under a name lets `activate` run again for that name. */
  lemma FreshObjectActivatesAgain(st: ExtState, name: string, ext: ExtObject)
    requires ext !in st.activated
    ensures ActivateExtension(RegisterExtension(st, name, ext), name).trace ==
              RegisterExtension(st, name, ext).trace + [Activate(ext)]
  {
  }

  /** Re-registering an object that was already activated does not activate it again. */
  lemma ReRegisteredObjectStaysActive(st: ExtState, name: string, ext: ExtObject)
    requires ext in st.activated
    ensures ActivateExtension(RegisterExtension(st, name, ext), name) == RegisterExtension(st, name, ext)
  {
  }
}

=== FILE: folding.dfy ===
/** Cross-line bracket matching, code folding and the scope query of the newer editor
    (src/editor.cpp). They read only the per-line records the highlighter leaves behind:
    the residual `brackets`, the `foldingBrackets`, the scope map and the `folded` flag.
    A cursor is a (line, column) pair; a bracket position is a column of its own line. */
module Folding {
  import opened Base
  import opened LineData
  import opened Highlighter

  // ---------------------------------------------------------------- bracket lookups

  /** The first index at or after `i` of a bracket at `column`, or -1. */
  function FirstAtColumn(bs: seq<Bracket>, column: nat, i: nat): (r: int)
    requires i <= |bs|
    ensures r == -1 || (i <= r < |bs| && bs[r].position == column)
    ensures r >= 0 ==> forall j :: i <= j < r ==> bs[j].position != column
    ensures r == -1 <==> forall j :: i <= j < |bs| ==> bs[j].position != column
    decreases |bs| - i
  {
    if i == |bs| then -1
    else if bs[i].position == column then i
    else FirstAtColumn(bs, column, i + 1)
  }

  /** bracketAtCursor: the first residual bracket of the line sitting at the column; `None`
      stands for the sentinel (line -1, position -1), returned for a line without a record
      and for a column no bracket sits at. */
  function BracketAtCursor(doc: Document, line: nat, column: nat): (r: Option<Bracket>)
    ensures r.Some? ==> line < |doc| && doc[line].rec.Some?
    ensures r.Some? ==> exists k :: 0 <= k < |doc[line].rec.value.brackets|
                                    && doc[line].rec.value.brackets[k] == r.value
                                    && r.value.position == column
                                    && forall j :: 0 <= j < k ==> doc[line].rec.value.brackets[j].position != column
    ensures r.None? <==> line >= |doc| || doc[line].rec.None?
                         || forall b <- doc[line].rec.value.brackets :: b.position != column
  {
    if line >= |doc| || doc[line].rec.None? then None
    else
      var bs := doc[line].rec.value.brackets;
      var k := FirstAtColumn(bs, column, 0);
      if k == -1 then None else Some(bs[k])
  }

  /** The index of the last opening bracket, or -1. */
  function LastOpen(bs: seq<Bracket>): (r: int)
    ensures -1 <= r < |bs|
    ensures r >= 0 ==> bs[r].open && forall j :: r < j < |bs| ==> !bs[j].open
    ensures r == -1 <==> forall j :: 0 <= j < |bs| ==> !bs[j].open
  {
    if |bs| == 0 then -1
    else if bs[|bs| - 1].open then |bs| - 1
    else LastOpen(bs[..|bs| - 1])
  }

  /** findLastOpenBracketCursor: the column of the last opening folding bracket of the
      line, or `None` (a null cursor) when there is none or the line has no record. */
  function FindLastOpenBracket(doc: Document, line: nat): (r: Option<nat>)
    ensures r.Some? ==> line < |doc| && doc[line].rec.Some?
    ensures r.Some? <==> line < |doc| && doc[line].rec.Some?
                         && exists b <- doc[line].rec.value.foldingBrackets :: b.open
    ensures r.Some? ==> exists k :: 0 <= k < |doc[line].rec.value.foldingBrackets|
                                    && doc[line].rec.value.foldingBrackets[k].open
                                    && doc[line].rec.value.foldingBrackets[k].position == r.value
                                    && forall j :: k < j < |doc[line].rec.value.foldingBrackets| ==>
                                                     !doc[line].rec.value.foldingBrackets[j].open
  {
    if line >= |doc| || doc[line].rec.None? then None
    else
      var bs := doc[line].rec.value.foldingBrackets;
      var k := LastOpen(bs);
      if k == -1 then None else Some(bs[k].position)
  }

  // ---------------------------------------------------------------- the stack scans

  /** A residual bracket together with the line whose record holds it. */
  datatype Token = Token(line: nat, bracket: Bracket)

  function LineTokens(line: nat, bs: seq<Bracket>): (r: seq<Token>)
    ensures |r| == |bs| && forall k :: 0 <= k < |bs| ==> r[k] == Token(line, bs[k])
  {
    seq(|bs|, k requires 0 <= k < |bs| => Token(line, bs[k]))
  }

  function Reversed<T>(s: seq<T>): (r: seq<T>)
    ensures |r| == |s| && forall k :: 0 <= k < |s| ==> r[k] == s[|s| - 1 - k]
  {
    seq(|s|, k requires 0 <= k < |s| => s[|s| - 1 - k])
  }

  /** The brackets the forward scan visits: every residue from line `l` downwards, in
      order, up to the first line without a record. */
  function ForwardTokens(doc: Document, l: nat): (r: seq<Token>)
    ensures forall t <- r :: l <= t.line < |doc|
    decreases |doc| - l
  {
    if l >= |doc| || doc[l].rec.None? then []
    else LineTokens(l, doc[l].rec.value.brackets) + ForwardTokens(doc, l + 1)
  }

  /** The forward scan only reaches a line after passing every line before it, so every
      line from `l` through the line of any bracket it visits has a record. */
  lemma {:induction false} ForwardTokensHaveRecords(doc: Document, l: nat, k: nat)
    requires k < |ForwardTokens(doc, l)|
    ensures forall j :: l <= j <= ForwardTokens(doc, l)[k].line ==> doc[j].rec.Some?
    decreases |doc| - l
  {
    var own := LineTokens(l, doc[l].rec.value.brackets);
    if k >= |own| {
      assert ForwardTokens(doc, l)[k] == ForwardTokens(doc, l + 1)[k - |own|];
      ForwardTokensHaveRecords(doc, l + 1, k - |own|);
    }
  }

  /** The forward scan stops early exactly when some line from `l` on has no record. */
  predicate ReachesGap(doc: Document, l: nat) {
    exists j :: l <= j < |doc| && doc[j].rec.None?
  }

  /** The brackets the backward scan visits: every residue from line `l` upwards, each
      line right to left, up to the first line without a record. */
  function BackwardTokens(doc: Document, l: nat): (r: seq<Token>)
    ensures forall t <- r :: t.line <= l && t.line < |doc|
  {
    if l >= |doc| || doc[l].rec.None? then []
    else Reversed(LineTokens(l, doc[l].rec.value.brackets))
         + (if l == 0 then [] else BackwardTokens(doc, l - 1))
  }

  /** How a scan ends: at the matching bracket, at a bracket that does not pair with the
      top of the stack, or with the brackets exhausted. */
  datatype Match = Found(line: nat, position: nat) | Mismatch | Exhausted

  /** A bracket on the anchor's line that lies on the far side of the anchor is passed
      over (before it when scanning forward, after it when scanning backward). */
  predicate Skipped(b: Bracket, anchor: Option<Bracket>, forward: bool) {
    anchor.Some? && b.line == anchor.value.line
    && (if forward then b.position < anchor.value.position else b.position > anchor.value.position)
  }

  /** The stack loop of findBracketMatchCursor. Forward, opens are pushed and a close must
      meet an open of the same pair on top; backward the roles swap. Meeting a bracket to
      pair with on an empty stack is `back()` on an empty vector. */
  function Scan(toks: seq<Token>, anchor: Option<Bracket>, forward: bool, stack: seq<Bracket>): (r: Checked<Match>)
    ensures |stack| > 0 ==> r.Ok?
    ensures r.Ok? && r.value.Found? ==>
              exists k :: 0 <= k < |toks| && toks[k].line == r.value.line
                          && toks[k].bracket.position == r.value.position
                          && toks[k].bracket.open != forward && !Skipped(toks[k].bracket, anchor, forward)
    decreases |toks|
  {
    if |toks| == 0 then Ok(Exhausted)
    else
      var b := toks[0].bracket;
      if Skipped(b, anchor, forward) then Scan(toks[1..], anchor, forward, stack)
      else if b.open != forward then
        if |stack| == 0 then Undefined
        else
          var top := stack[|stack| - 1];
          if top.open == forward && top.id == b.id then
            if |stack| == 1 then Ok(Found(toks[0].line, b.position))
            else Scan(toks[1..], anchor, forward, stack[..|stack| - 1])
          else Ok(Mismatch)
      else Scan(toks[1..], anchor, forward, stack + [b])
  }

  /** Reference for a scan whose brackets all share one pair id (as the highlighter's scan
      records them): only a nesting depth is kept. */
  function DepthScan(toks: seq<Token>, anchor: Option<Bracket>, forward: bool, depth: nat): Checked<Match>
    decreases |toks|
  {
    if |toks| == 0 then Ok(Exhausted)
    else
      var b := toks[0].bracket;
      if Skipped(b, anchor, forward) then DepthScan(toks[1..], anchor, forward, depth)
      else if b.open == forward then DepthScan(toks[1..], anchor, forward, depth + 1)
      else if depth == 0 then Undefined
      else if depth == 1 then Ok(Found(toks[0].line, b.position))
      else DepthScan(toks[1..], anchor, forward, depth - 1)
  }

  predicate TokensSameId(toks: seq<Token>) {
    forall k :: 0 <= k < |toks| ==> toks[k].bracket.id == 0
  }

  /** Every entry of the stack is a bracket of the kind the scan pushes. */
  predicate Pushed(stack: seq<Bracket>, forward: bool) {
    forall k :: 0 <= k < |stack| ==> stack[k].open == forward && stack[k].id == 0
  }

  /** With a single pair id the stack scan never reports a mismatch: it ends exactly where
      the nesting depth returns to zero. */
  lemma {:induction false} ScanMatchesDepth(toks: seq<Token>, anchor: Option<Bracket>, forward: bool, stack: seq<Bracket>)
    requires TokensSameId(toks) && Pushed(stack, forward)
    ensures Scan(toks, anchor, forward, stack) == DepthScan(toks, anchor, forward, |stack|)
    ensures Scan(toks, anchor, forward, stack) != Ok(Mismatch)
    decreases |toks|
  {
    if |toks| > 0 {
      var b := toks[0].bracket;
      assert b.id == 0;
      assert TokensSameId(toks[1..]);
      if Skipped(b, anchor, forward) {
        ScanMatchesDepth(toks[1..], anchor, forward, stack);
      } else if b.open != forward {
        if |stack| > 1 {
          ScanMatchesDepth(toks[1..], anchor, forward, stack[..|stack| - 1]);
        }
      } else {
        ScanMatchesDepth(toks[1..], anchor, forward, stack + [b]);
      }
    }
  }

  /** findBracketMatchCursor from the bracket `b` on line `line`: forward for an opening
      bracket, backward for a closing one. */
  function FindBracketMatch(doc: Document, line: nat, b: Bracket): (r: Checked<Match>)
    ensures r.Ok? && r.value.Found? && b.open ==> line <= r.value.line < |doc|
    ensures r.Ok? && r.value.Found? && !b.open ==> r.value.line <= line
  {
    if b.open then Scan(ForwardTokens(doc, line), Some(b), true, [])
    else Scan(BackwardTokens(doc, line), Some(b), false, [])
  }

  // ---------------------------------------------------------------- folding

  /** A line as the fold loop leaves it: its record's flag set, hidden with no height when
      folded, shown with one line when not. */
  function FoldLine(l: Line, folded: bool): (r: Line)
    requires l.rec.Some?
    ensures r.text == l.text && r.rec.Some? && r.rec.value.folded == folded
    ensures r.visible == !folded && r.lineCount == (if folded then 0 else 1)
    ensures r.rec.value == l.rec.value.(folded := folded)
  {
    l.(rec := Some(l.rec.value.(folded := folded)), visible := !folded,
       lineCount := if folded then 0 else 1)
  }

  /** The fold loop over lines `k..last`; a line without a record there is the null
      `targetData` the loop dereferences. */
  function FoldRange(doc: Document, k: nat, last: int, folded: bool): (r: Checked<Document>)
    requires last < |doc|
    ensures r.Ok? <==> forall j :: k <= j <= last ==> doc[j].rec.Some?
    ensures r.Ok? ==> |r.value| == |doc|
    ensures r.Ok? ==> forall j :: 0 <= j < |doc| && k <= j <= last ==> r.value[j] == FoldLine(doc[j], folded)
    ensures r.Ok? ==> forall j :: 0 <= j < |doc| && !(k <= j <= last) ==> r.value[j] == doc[j]
    decreases last + 1 - k
  {
    if k > last then Ok(doc)
    else if doc[k].rec.None? then Undefined
    else
      var next := doc[k := FoldLine(doc[k], folded)];
      assert forall j :: k < j <= last ==> next[j] == doc[j];
      FoldRange(next, k + 1, last, folded)
  }

  /** The last line the fold loop reaches: the match line when it lies below the anchor;
      otherwise `block == endBlock` never holds and the loop runs to the end. */
  function FoldEnd(anchor: nat, matchLine: nat, n: nat): (r: int)
    requires anchor < n
    ensures anchor <= r < n
    ensures anchor < matchLine < n ==> r == matchLine
  {
    if anchor < matchLine < n then matchLine else n - 1
  }

  /** What toggleFold(line) acts on: nothing when it returns early, otherwise the anchor
      line (line - 1) and the last line of the fold range. */
  datatype FoldSpan = NoFold | FoldSpan(anchor: nat, last: nat)

  /** The anchor is line - 1; its last opening folding bracket is looked up, then the
      bracket record at that column, then its match. A found match gives the span from the
      anchor to FoldEnd; an undefined match is undefined; every other outcome is NoFold. */
  function FoldTarget(doc: Document, line: nat): (r: Checked<FoldSpan>)
    ensures r.Ok? && r.value.FoldSpan? ==>
              line >= 1 && r.value.anchor == line - 1 && r.value.anchor <= r.value.last < |doc|
              && doc[r.value.anchor].rec.Some?
    ensures line == 0 || line > |doc| ==> r == Ok(NoFold)
    ensures 1 <= line <= |doc| ==>
              var a := line - 1;
              var col := FindLastOpenBracket(doc, a);
              var b := if col.Some? then BracketAtCursor(doc, a, col.value) else None;
              var m := if b.Some? then FindBracketMatch(doc, a, b.value) else Ok(Exhausted);
              && (r.Undefined? <==> m.Undefined?)
              && (r == Ok(NoFold) <==> m.Ok? && !m.value.Found?)
              && (m.Ok? && m.value.Found? ==> r == Ok(FoldSpan(a, FoldEnd(a, m.value.line, |doc|))))
  {
    if line == 0 || line - 1 >= |doc| then Ok(NoFold)
    else
      var anchor := line - 1;
      var col := FindLastOpenBracket(doc, anchor);
      if col.None? then Ok(NoFold)
      else
        var b := BracketAtCursor(doc, anchor, col.value);
        if b.None? then Ok(NoFold)
        else
          var m := FindBracketMatch(doc, anchor, b.value);
          if m.Undefined? then Undefined
          else if m.value.Found? then Ok(FoldSpan(anchor, FoldEnd(anchor, m.value.line, |doc|)))
          else Ok(NoFold)
  }

  /** The body of toggleFold once the range is known: the anchor's `folded` flag flips and
      every line after it through `last` takes the new flag and visibility. */
  function ToggleAt(doc: Document, a: nat, last: int): (r: Checked<Document>)
    requires a < |doc| && doc[a].rec.Some? && a <= last < |doc|
    ensures r.Ok? <==> forall j :: a < j <= last ==> doc[j].rec.Some?
    ensures r.Ok? ==> |r.value| == |doc|
    ensures r.Ok? ==> r.value[a] == doc[a].(rec := Some(doc[a].rec.value.(folded := !doc[a].rec.value.folded)))
    ensures r.Ok? ==> forall j :: a < j <= last ==> r.value[j] == FoldLine(doc[j], !doc[a].rec.value.folded)
    ensures r.Ok? ==> forall j :: 0 <= j < |doc| && !(a <= j <= last) ==> r.value[j] == doc[j]
  {
    var rec := doc[a].rec.value;
    var f := !rec.folded;
    var marked := doc[a := doc[a].(rec := Some(rec.(folded := f)))];
    assert forall j :: a < j <= last ==> marked[j] == doc[j];
    FoldRange(marked, a + 1, last, f)
  }

  /** The effect of toggling the range from anchor `a` through `last`: defined exactly when
      every line after the anchor has a record; then the anchor's flag flips, the range
      takes the new flag and its visibility, and every other line is kept. */
  predicate FoldToggled(doc: Document, a: nat, last: int, r: Checked<Document>)
    requires a < |doc| && doc[a].rec.Some? && a <= last < |doc|
  {
    var f := !doc[a].rec.value.folded;
    && (r.Ok? <==> forall j :: a < j <= last ==> doc[j].rec.Some?)
    && (r.Ok? ==>
          && |r.value| == |doc|
          && r.value[a] == doc[a].(rec := Some(doc[a].rec.value.(folded := f)))
          && (forall j :: a < j <= last ==> r.value[j] == FoldLine(doc[j], f))
          && (forall j :: 0 <= j < |doc| && !(a <= j <= last) ==> r.value[j] == doc[j]))
  }

  /** Editor::toggleFold(line), 1-based: nothing changes when the anchor has no foldable
      bracket or no match, an undefined match is undefined, and otherwise the range from
      the anchor to the fold end is toggled. */
  function ToggleFold(doc: Document, line: nat): (r: Checked<Document>)
    ensures match FoldTarget(doc, line)
            case Undefined => r.Undefined?
            case Ok(NoFold) => r == Ok(doc)
            case Ok(FoldSpan(a, last)) => a == line - 1 && FoldToggled(doc, a, last, r)
  {
    match FoldTarget(doc, line)
    case Undefined => Undefined
    case Ok(NoFold) => Ok(doc)
    case Ok(FoldSpan(a, last)) => ToggleAt(doc, a, last)
  }

  /** Two documents whose records hold the same brackets (the fold flags, visibility and
      texts may differ). */
  predicate SameBrackets(d1: Document, d2: Document) {
    |d1| == |d2|
    && forall k :: 0 <= k < |d1| ==>
         (d1[k].rec.Some? <==> d2[k].rec.Some?)
         && (d1[k].rec.Some? ==>
               d1[k].rec.value.brackets == d2[k].rec.value.brackets
               && d1[k].rec.value.foldingBrackets == d2[k].rec.value.foldingBrackets)
  }

  lemma {:induction false} SameBracketsSameForward(d1: Document, d2: Document, l: nat)
    requires SameBrackets(d1, d2)
    ensures ForwardTokens(d1, l) == ForwardTokens(d2, l)
    decreases |d1| - l
  {
    if l < |d1| {
      assert d1[l].rec.Some? <==> d2[l].rec.Some?;
      if d1[l].rec.Some? {
        assert d1[l].rec.value.brackets == d2[l].rec.value.brackets;
        SameBracketsSameForward(d1, d2, l + 1);
      }
    }
  }

  lemma {:induction false} SameBracketsSameBackward(d1: Document, d2: Document, l: nat)
    requires SameBrackets(d1, d2)
    ensures BackwardTokens(d1, l) == BackwardTokens(d2, l)
    decreases l
  {
    if l < |d1| {
      assert d1[l].rec.Some? <==> d2[l].rec.Some?;
      if d1[l].rec.Some? {
        var own := Reversed(LineTokens(l, d1[l].rec.value.brackets));
        assert d1[l].rec.value.brackets == d2[l].rec.value.brackets;
        var rest1 := if l == 0 then [] else BackwardTokens(d1, l - 1);
        var rest2 := if l == 0 then [] else BackwardTokens(d2, l - 1);
        if l > 0 {
          SameBracketsSameBackward(d1, d2, l - 1);
        }
        assert rest1 == rest2;
        assert BackwardTokens(d1, l) == own + rest1;
        assert BackwardTokens(d2, l) == own + rest2;
      }
    }
  }

  /** The fold range depends on the brackets alone. */
  lemma SameBracketsSameTarget(d1: Document, d2: Document, line: nat)
    requires SameBrackets(d1, d2)
    ensures FoldTarget(d1, line) == FoldTarget(d2, line)
  {
    if line >= 1 && line - 1 < |d1| {
      var a := line - 1;
      SameBracketsSameAnchor(d1, d2, a);
      var col := FindLastOpenBracket(d1, a);
      if col.Some? {
        SameBracketsSameAnchorBracket(d1, d2, a, col.value);
        var b := BracketAtCursor(d1, a, col.value);
        if b.Some? {
          SameBracketsSameMatch(d1, d2, a, b.value);
        }
      }
    }
  }

  /** Same brackets, same last opening bracket on a line. */
  lemma SameBracketsSameAnchor(d1: Document, d2: Document, a: nat)
    requires SameBrackets(d1, d2) && a < |d1|
    ensures FindLastOpenBracket(d1, a) == FindLastOpenBracket(d2, a)
  {
    assert d1[a].rec.Some? ==> d1[a].rec.value.foldingBrackets == d2[a].rec.value.foldingBrackets;
  }

  /** Same brackets, same bracket under a column. */
  lemma SameBracketsSameAnchorBracket(d1: Document, d2: Document, a: nat, col: nat)
    requires SameBrackets(d1, d2) && a < |d1|
    ensures BracketAtCursor(d1, a, col) == BracketAtCursor(d2, a, col)
  {
    assert d1[a].rec.Some? ==> d1[a].rec.value.brackets == d2[a].rec.value.brackets;
  }

  /** Same brackets, same match. */
  lemma SameBracketsSameMatch(d1: Document, d2: Document, a: nat, b: Bracket)
    requires SameBrackets(d1, d2)
    ensures FindBracketMatch(d1, a, b) == FindBracketMatch(d2, a, b)
  {
    SameBracketsSameForward(d1, d2, a);
    SameBracketsSameBackward(d1, d2, a);
  }

  /** Toggling changes no bracket, so a second toggle acts on the same range. */
  lemma ToggleAtKeepsBrackets(doc: Document, a: nat, last: int)
    requires a < |doc| && doc[a].rec.Some? && a <= last < |doc|
    requires ToggleAt(doc, a, last).Ok?
    ensures SameBrackets(doc, ToggleAt(doc, a, last).value)
  {
    var d1 := ToggleAt(doc, a, last).value;
    forall k | 0 <= k < |doc|
      ensures d1[k].rec.Some? <==> doc[k].rec.Some?
      ensures d1[k].rec.Some? ==>
                (d1[k].rec.value.brackets == doc[k].rec.value.brackets
                 && d1[k].rec.value.foldingBrackets == doc[k].rec.value.foldingBrackets)
    {
    }
  }

  /** Toggling a range twice gives the document back, provided every line of the range
      already agreed with the anchor's flag (for an unfolded anchor: every line of the
      range unfolded, visible and one line high). */
  lemma ToggleAtTwice(doc: Document, a: nat, last: int)
    requires a < |doc| && doc[a].rec.Some? && a <= last < |doc|
    requires forall j :: a < j <= last ==> doc[j].rec.Some? && doc[j] == FoldLine(doc[j], doc[a].rec.value.folded)
    ensures ToggleAt(doc, a, last).Ok?
    ensures ToggleAt(ToggleAt(doc, a, last).value, a, last) == Ok(doc)
  {
    var d1 := ToggleAt(doc, a, last).value;
    var d2 := ToggleAt(d1, a, last).value;
    assert |d2| == |doc|;
    forall j | 0 <= j < |doc|
      ensures d2[j] == doc[j]
    {
      if a < j <= last {
        assert d2[j] == FoldLine(d1[j], doc[a].rec.value.folded);
      }
    }
    assert d2 == doc;
  }

  /** Folding twice with unchanged bracket data gives the document back when the range
      agreed with the anchor's flag beforehand. */
  lemma ToggleTwiceRestores(doc: Document, line: nat)
    requires FoldTarget(doc, line).Ok? && FoldTarget(doc, line).value.FoldSpan?
    requires var a, last := FoldTarget(doc, line).value.anchor, FoldTarget(doc, line).value.last;
             forall j :: a < j <= last ==> doc[j].rec.Some? && doc[j] == FoldLine(doc[j], doc[a].rec.value.folded)
    ensures ToggleFold(doc, line).Ok?
    ensures ToggleFold(ToggleFold(doc, line).value, line) == Ok(doc)
  {
    var a, last := FoldTarget(doc, line).value.anchor, FoldTarget(doc, line).value.last;
    ToggleAtTwice(doc, a, last);
    var d1 := ToggleFold(doc, line).value;
    ToggleAtKeepsBrackets(doc, a, last);
    SameBracketsSameTarget(doc, d1, line);
  }

  // ---------------------------------------------------------------- scopes and dirty flag

  /** scopesAtCursor: the scope path in force at the column, split on spaces; nothing for
      a line without a record. */
  function ScopesAtCursor(doc: Document, line: nat, column: nat): (r: seq<string>)
    ensures (line >= |doc| || doc[line].rec.None?) ==> r == []
    ensures line < |doc| && doc[line].rec.Some? ==>
              |r| >= 1 && Join(r, ' ') == ScopeAt(doc[line].rec.value.scopes, column)
              && forall k :: 0 <= k < |r| ==> ' ' !in r[k]
  {
    if line >= |doc| || doc[line].rec.None? then []
    else
      var name := ScopeAt(doc[line].rec.value.scopes, column);
      JoinSplit(name, ' ');
      Split(name, ' ')
  }

  /** What reaches the editor's unsaved-changes flag: a file being opened or saved (the
      calls that succeed; a failed open or save changes nothing), or the undo stack
      reporting whether an undo is available (makeDirty). */
  datatype EditorEvent = FileOpened | FileSaved | UndoAvailable(available: bool)

  /** The flag after one event: openFile and saveFile clear it, makeDirty copies the
      signal. */
  function Step(dirty: bool, e: EditorEvent): bool {
    match e
    case FileOpened => false
    case FileSaved => false
    case UndoAvailable(u) => u
  }

  /** hasUnsavedChanges after a sequence of events, applied in order: it reports the last
      undo-availability signal since the file was last opened or saved, and nothing is
      unsaved right after an open or a save. */
  function Unsaved(events: seq<EditorEvent>, dirty: bool): (r: bool)
    ensures |events| > 0 ==> (r <==> events[|events| - 1] == UndoAvailable(true))
    ensures |events| == 0 ==> r == dirty
    decreases |events|
  {
    if |events| == 0 then dirty
    else Unsaved(events[1..], Step(dirty, events[0]))
  }
}

=== FILE: highlighter.dfy ===
/** One pass of Highlighter::highlightBlock (highlighter.cpp) over one line of the
    document. The grammar engine and the theme are parameters: `parse` stands for
    parse::parse and `stylesForScope` for theme->styles_for_scope. QSyntaxHighlighter's own
    behaviour is modelled as far as the pass observes it: formats are cleared before the
    pass, setFormat clips to the line, format() beyond the line is the default format. */
module Highlighter {
  import opened Base
  import opened LineData
  import opened Extension

  /** What parse::parse hands back: the scopes it saw on the line and the state the line
      ends in. */
  datatype ParseOutput = ParseOutput(scopes: ScopeMap, state: ParserState)

  /** A loaded grammar: its seed state and its line parser (text, start state, first line). */
  datatype Grammar = Grammar(seed: ParserState, parse: (string, ParserState, bool) -> ParseOutput)

  datatype Theme = Theme(stylesForScope: string -> Style)

  /** The highlighter's configuration: theme and grammar may be unset (null pointers). */
  datatype Config = Config(theme: Option<Theme>, grammar: Option<Grammar>, lang: LanguageInfo,
                           foreground: Color, deferRendering: bool)

  /** Lines longer than this are not handed to the grammar. */
  const MaxParsedLength: nat := 500

  /** BLOCK_STATE_COMMENT: the block state of a line that ends inside a block comment. */
  const BlockStateComment: int := 2

  predicate Ready(h: Config) {
    h.theme.Some? && h.grammar.Some?
  }

  /** The bracket scan advances by the length of the token it matched, so an empty token
      would never advance: the configuration must not contain one. */
  predicate TokensNonEmpty(lang: LanguageInfo) {
    (forall k :: 0 <= k < |lang.bracketOpen| ==> |lang.bracketOpen[k]| > 0)
    && (forall k :: 0 <= k < |lang.bracketClose| ==> |lang.bracketClose[k]| > 0)
  }

  // ---------------------------------------------------------------- formats

  /** The SCOPE_PROPERTY_ID tag for a scope name: comment wins over string. */
  function KindOfScope(scope: string): (r: ScopeKind)
    ensures r != Unset
    ensures r == CommentScope <==> Contains(scope, "comment")
    ensures r == StringScope <==> !Contains(scope, "comment") && Contains(scope, "string")
  {
    if Contains(scope, "comment") then CommentScope
    else if Contains(scope, "string") then StringScope
    else OtherScope
  }

  /** A style sets a character format only when it asks for something. */
  predicate HasFormatting(s: Style) {
    s.bold || s.italic || s.underline || s.strikethrough || s.foreground.Some?
  }

  /** The format a scope's style gives a character, or `before` when the style is empty. */
  function FormatOf(th: Theme, scope: string, before: CharFormat): CharFormat {
    var s := th.stylesForScope(scope);
    if HasFormatting(s) then Styled(KindOfScope(scope), s) else before
  }

  /** The scope tag of the format at a position; beyond the line it is the default. */
  function KindAt(fm: seq<CharFormat>, c: nat): ScopeKind {
    if c < |fm| && fm[c].Styled? then fm[c].kind else Unset
  }

  /** The character at `i` of the NUL-terminated line buffer. */
  function CharAt(line: string, i: nat): char {
    if i < |line| then line[i] else 0 as char
  }

  predicate Blank(c: char) {
    c == ' ' || c == '\t'
  }

  // ---------------------------------------------------------------- minimap spans

  /** A minimap span drawn over `line`: at least two characters, starting on a non-blank
      character, with no space strictly inside it. */
  predicate ValidSpan(line: string, sp: Span) {
    sp.length >= 2 && !Blank(CharAt(line, sp.start))
    && forall j :: sp.start < j < sp.start + sp.length - 1 ==> CharAt(line, j) != ' '
  }

  predicate Ordered(spans: seq<Span>) {
    forall k :: 0 <= k < |spans| - 1 ==> spans[k].start + spans[k].length <= spans[k + 1].start
  }

  /** The run loop of setFormatFromStyle over positions [i, end): `open` is the start of
      the word being measured. A word ends at a space (which the span includes) or at the
      last position of the run; a word that starts on the last position makes no span. */
  function MinimapSpans(line: string, i: nat, end: nat, open: Option<nat>, clr: Color): (r: seq<Span>)
    requires open.Some? ==> open.value < i && !Blank(CharAt(line, open.value))
    requires open.Some? ==> forall j :: open.value < j < i ==> CharAt(line, j) != ' '
    ensures forall sp <- r :: ValidSpan(line, sp) && sp.start + sp.length <= end && sp.color == clr
    ensures forall sp <- r :: sp.start >= (if open.Some? then open.value else i)
    ensures forall sp <- r :: sp.length >= 2 && (CharAt(line, sp.start + sp.length - 1) == ' ' || sp.start + sp.length == end)
    ensures Ordered(r)
    decreases end - i
  {
    if i >= end then []
    else match open
      case None =>
        if !Blank(CharAt(line, i)) then MinimapSpans(line, i + 1, end, Some(i), clr)
        else MinimapSpans(line, i + 1, end, None, clr)
      case Some(s) =>
        if CharAt(line, i) == ' ' || i + 1 == end then
          var rest := MinimapSpans(line, i + 1, end, None, clr);
          [Span(s, i - s + 1, clr)] + rest
        else MinimapSpans(line, i + 1, end, open, clr)
  }

  /** The formats and minimap spans a pass has produced so far. */
  datatype Painted = Painted(formats: seq<CharFormat>, spans: seq<Span>)

  /** setFormatFromStyle: formats [start, start + length) with the scope's style when it has
      one (clipped to the line), and appends the run's minimap spans, drawn in the style's
      foreground or the editor's when the style has none. */
  function PaintRun(th: Theme, fg: Color, line: string, start: nat, length: nat, scope: string, p: Painted): (r: Painted)
    ensures |r.formats| == |p.formats|
    ensures forall c :: 0 <= c < |p.formats| ==>
              r.formats[c] == if start <= c < start + length then FormatOf(th, scope, p.formats[c]) else p.formats[c]
    ensures p.spans <= r.spans
    ensures forall sp <- r.spans[|p.spans|..] :: ValidSpan(line, sp) && start <= sp.start && sp.start + sp.length <= start + length
    ensures Ordered(p.spans) && (|p.spans| == 0 || p.spans[|p.spans| - 1].start + p.spans[|p.spans| - 1].length <= start)
            ==> Ordered(r.spans)
  {
    var s := th.stylesForScope(scope);
    var fm := if HasFormatting(s) then
                seq(|p.formats|, c requires 0 <= c < |p.formats| =>
                    if start <= c < start + length then Styled(KindOfScope(scope), s) else p.formats[c])
              else p.formats;
    var clr := s.foreground.GetOr(fg);
    var added := MinimapSpans(line, start, start + length, None, clr);
    var spans := p.spans + added;
    assert spans[|p.spans|..] == added;
    Painted(fm, spans)
  }

  // ---------------------------------------------------------------- scope walk

  /** The scope in force at `c` when `prev` is in force before the first entry. */
  function NameAt(scopes: ScopeMap, c: nat, prev: string): string {
    if |scopes| == 0 || scopes[0].offset > c then prev else ScopeAt(scopes, c)
  }

  /** Past the first entry's offset, the scope in force no longer depends on what came before. */
  lemma NameAtAfterFirstEntry(scopes: ScopeMap, c: nat, prev: string)
    requires |scopes| > 0 && scopes[0].offset <= c
    ensures NameAt(scopes[1..], c, scopes[0].name) == NameAt(scopes, c, prev)
  {
  }

  /** The walk over the parser's scope map (lines 153-176): each entry closes the run of
      the scope before it; the run of the last scope ends at the end of the line buffer
      (the text plus its newline). */
  function ScopeWalk(th: Theme, fg: Color, line: string, scopes: ScopeMap, si: nat, prev: string, p: Painted): (r: Painted)
    requires |scopes| > 0 ==> si <= scopes[0].offset
    ensures |r.formats| == |p.formats|
    ensures p.spans <= r.spans
    decreases |scopes|
  {
    if |scopes| == 0 then
      if |line| > si then PaintRun(th, fg, line, si, |line| - si, prev, p) else p
    else
      var n := scopes[0].offset;
      var p1 := if n > si then PaintRun(th, fg, line, si, n - si, prev, p) else p;
      var rest: ScopeMap := scopes[1..];
      var r := ScopeWalk(th, fg, line, rest, n, scopes[0].name, p1);
      r
  }

  /** Every minimap span the walk adds is a valid span of the line. */
  lemma {:induction false} ScopeWalkSpans(th: Theme, fg: Color, line: string, scopes: ScopeMap, si: nat,
                                          prev: string, p: Painted, k: nat)
    requires |scopes| > 0 ==> si <= scopes[0].offset
    requires |p.spans| <= k < |ScopeWalk(th, fg, line, scopes, si, prev, p).spans|
    ensures ValidSpan(line, ScopeWalk(th, fg, line, scopes, si, prev, p).spans[k])
    decreases |scopes|
  {
    if |scopes| == 0 {
      var r := PaintRun(th, fg, line, si, |line| - si, prev, p);
      assert r.spans[k] in r.spans[|p.spans|..];
    } else {
      var n := scopes[0].offset;
      var p1 := if n > si then PaintRun(th, fg, line, si, n - si, prev, p) else p;
      var rest: ScopeMap := scopes[1..];
      if k < |p1.spans| {
        assert p1.spans[k] in p1.spans[|p.spans|..];
      } else {
        ScopeWalkSpans(th, fg, line, rest, n, scopes[0].name, p1, k);
      }
    }
  }

  /** The walk formats every character of the line with the style of the scope in force
      there, and leaves the characters before its starting point alone. */
  lemma {:induction false} ScopeWalkFormats(th: Theme, fg: Color, line: string, scopes: ScopeMap, si: nat,
                                            prev: string, p: Painted, c: nat)
    requires |scopes| > 0 ==> si <= scopes[0].offset
    requires c < |p.formats| && c < |line|
    ensures var r := ScopeWalk(th, fg, line, scopes, si, prev, p);
            r.formats[c] == if c < si then p.formats[c] else FormatOf(th, NameAt(scopes, c, prev), p.formats[c])
    decreases |scopes|
  {
    if |scopes| > 0 {
      var n := scopes[0].offset;
      var p1 := if n > si then PaintRun(th, fg, line, si, n - si, prev, p) else p;
      var rest: ScopeMap := scopes[1..];
      ScopeWalkFormats(th, fg, line, rest, n, scopes[0].name, p1, c);
      if n <= c {
        NameAtAfterFirstEntry(scopes, c, prev);
      }
    }
  }

  // ---------------------------------------------------------------- block comments

  datatype CommentStep = CommentStep(painted: Painted, state: Option<int>)

  /** The block comment opener: only its first occurrence is looked at, and it counts only
      where the scope walk already tagged a comment; otherwise there is none (-1). */
  function CommentOpening(lang: LanguageInfo, text: string, fm: seq<CharFormat>): (r: int)
    ensures r == -1 || (0 <= r && OccursAt(text, lang.blockCommentStart, r) && KindAt(fm, r) == CommentScope)
    ensures r != -1 ==> forall i :: 0 <= i < r ==> !OccursAt(text, lang.blockCommentStart, i)
    ensures r == -1 <==> !Contains(text, lang.blockCommentStart)
                         || KindAt(fm, IndexOf(text, lang.blockCommentStart)) != CommentScope
  {
    var b := IndexOf(text, lang.blockCommentStart);
    if b != -1 && KindAt(fm, b) != CommentScope then -1 else b
  }

  /** The block comment step (lines 185-209). `state` is the new block state, or None when
      the language has no block comment (the state is then left alone). */
  function BlockComment(lang: LanguageInfo, th: Theme, fg: Color, text: string, prevState: int, p: Painted): (r: CommentStep)
    requires |p.formats| == |text|
    ensures |lang.blockCommentStart| == 0 <==> r.state.None?
    ensures r.state.None? ==> r.painted == p
    ensures r.state == Some(BlockStateComment) <==>
              |lang.blockCommentStart| > 0 && !Contains(text, lang.blockCommentEnd)
              && (CommentOpening(lang, text, p.formats) != -1 || prevState == BlockStateComment)
    ensures r.state.Some? ==> r.state.value == 0 || r.state.value == BlockStateComment
    ensures |r.painted.formats| == |p.formats|
    ensures r.state == Some(BlockStateComment) ==>
              var b := CommentOpening(lang, text, p.formats);
              forall c :: (if b == -1 then 0 else b) <= c < |p.formats| ==>
                r.painted.formats[c] == FormatOf(th, "comment", p.formats[c])
    ensures r.state == Some(0) && prevState != BlockStateComment ==> r.painted == p
    ensures p.spans <= r.painted.spans && forall sp <- r.painted.spans[|p.spans|..] :: ValidSpan(text + "\n", sp)
  {
    if |lang.blockCommentStart| == 0 then CommentStep(p, None)
    else
      var line := text + "\n";
      var b := CommentOpening(lang, text, p.formats);
      var e := IndexOf(text, lang.blockCommentEnd);
      if e == -1 && (b != -1 || prevState == BlockStateComment) then
        var from := if b != -1 then b else 0;
        CommentStep(PaintRun(th, fg, line, from, |line| - from, "comment", p), Some(BlockStateComment))
      else if e != -1 && prevState == BlockStateComment then
        CommentStep(PaintRun(th, fg, line, 0, e + |lang.blockCommentEnd|, "comment", p), Some(0))
      else CommentStep(p, Some(0))
  }

  // ---------------------------------------------------------------- brackets

  /** `t` is the first token of `toks`, in configuration order, that occurs at `c`. */
  ghost predicate FirstOccurring(line: string, toks: seq<string>, c: nat, t: string) {
    exists k :: 0 <= k < |toks| && toks[k] == t && OccursAt(line, t, c)
                && forall j :: 0 <= j < k ==> !OccursAt(line, toks[j], c)
  }

  /** The first token of `toks` that occurs at `c` (strstr(c, b) == c). */
  function FirstAt(line: string, toks: seq<string>, c: nat): (r: Option<string>)
    ensures r.Some? ==> r.value in toks && OccursAt(line, r.value, c)
    ensures r.None? ==> forall t <- toks :: !OccursAt(line, t, c)
  {
    if |toks| == 0 then None
    else if OccursAt(line, toks[0], c) then Some(toks[0])
    else
      var r := FirstAt(line, toks[1..], c);
      assert forall t <- toks :: t == toks[0] || t in toks[1..];
      r
  }

  /** The token `FirstAt` finds is the first one, in configuration order, that occurs. */
  lemma {:induction false} FirstAtIsFirst(line: string, toks: seq<string>, c: nat)
    ensures FirstAt(line, toks, c).Some? ==> FirstOccurring(line, toks, c, FirstAt(line, toks, c).value)
  {
    if |toks| > 0 {
      if OccursAt(line, toks[0], c) {
        assert toks[0] == toks[0];
      } else {
        FirstAtIsFirst(line, toks[1..], c);
        FirstAtCons(line, toks, c, FirstAt(line, toks[1..], c));
      }
    }
  }

  /** A token that comes first among the later tokens comes first among all of them when
      the first token does not occur. */
  lemma FirstAtCons(line: string, toks: seq<string>, c: nat, r: Option<string>)
    requires |toks| > 0 && !OccursAt(line, toks[0], c)
    requires r.Some? ==> FirstOccurring(line, toks[1..], c, r.value)
    ensures r.Some? ==> FirstOccurring(line, toks, c, r.value)
  {
    if r.Some? {
      var k :| 0 <= k < |toks[1..]| && toks[1..][k] == r.value && OccursAt(line, r.value, c)
                && forall j :: 0 <= j < k ==> !OccursAt(line, toks[1..][j], c);
      assert toks[k + 1] == r.value;
      forall j | 0 <= j < k + 1
        ensures !OccursAt(line, toks[j], c)
      {
        if j > 0 {
          assert toks[j] == toks[1..][j - 1];
        }
      }
    }
  }

  predicate InStringOrComment(fm: seq<CharFormat>, c: nat) {
    KindAt(fm, c) == CommentScope || KindAt(fm, c) == StringScope
  }

  predicate Increasing(bs: seq<Bracket>) {
    |bs| < 2 || (bs[0].position < bs[1].position && Increasing(bs[1..]))
  }

  /** The length of the token the scan matched at a reported bracket: the first opening
      token there for an open bracket, the first closing token for a close one. */
  function TokenLength(line: string, opens: seq<string>, closes: seq<string>, b: Bracket): nat {
    match FirstAt(line, if b.open then opens else closes, b.position)
    case Some(t) => |t|
    case None => 0
  }

  /** Each bracket's token ends at or before the next bracket: the scan resumes after the
      whole token it matched. */
  predicate TokensApart(line: string, opens: seq<string>, closes: seq<string>, bs: seq<Bracket>) {
    |bs| < 2
    || (bs[0].position + TokenLength(line, opens, closes, bs[0]) <= bs[1].position
        && TokensApart(line, opens, closes, bs[1..]))
  }

  /** Position `p` lies strictly inside the token of one of the brackets `bs`. */
  predicate InsideToken(line: string, opens: seq<string>, closes: seq<string>, bs: seq<Bracket>, p: nat) {
    |bs| > 0
    && (bs[0].position < p < bs[0].position + TokenLength(line, opens, closes, bs[0])
        || InsideToken(line, opens, closes, bs[1..], p))
  }

  /** One of the brackets `bs` is reported at position `p`. */
  predicate ReportedAt(bs: seq<Bracket>, p: nat) {
    |bs| > 0 && (bs[0].position == p || ReportedAt(bs[1..], p))
  }

  /** Where the scan reports a bracket: inside the line, outside comments and strings,
      with an opening or closing token. */
  predicate BracketStart(line: string, fm: seq<CharFormat>, opens: seq<string>, closes: seq<string>, p: nat) {
    p < |line| && !InStringOrComment(fm, p)
    && (FirstAt(line, opens, p).Some? || FirstAt(line, closes, p).Some?)
  }

  /** A bracket as the scan reports it: at a bracket start, line 0 and pair id 0, open
      exactly when an opening token occurs there. */
  predicate ReportedBracket(line: string, fm: seq<CharFormat>, opens: seq<string>, closes: seq<string>, b: Bracket) {
    && BracketStart(line, fm, opens, closes, b.position) && b.id == 0 && b.line == 0
    && b.open == FirstAt(line, opens, b.position).Some?
  }

  /** The bracket scan (lines 214-264) from position `c` of the line buffer: a position in
      a comment or string, or without a token, is passed over; otherwise a bracket is
      reported, open exactly when an opening token occurs there (opening tokens are tried
      first), and the scan resumes after that token. Every bracket gets line 0 and pair
      id 0: the source never advances its pair counter. */
  function ExtractBrackets(line: string, fm: seq<CharFormat>, opens: seq<string>, closes: seq<string>, c: nat): (r: seq<Bracket>)
    requires forall t <- opens :: |t| > 0
    requires forall t <- closes :: |t| > 0
    ensures Increasing(r)
    ensures TokensApart(line, opens, closes, r)
    ensures forall b <- r :: c <= b.position && ReportedBracket(line, fm, opens, closes, b)
    ensures forall p :: c <= p && BracketStart(line, fm, opens, closes, p) && !InsideToken(line, opens, closes, r, p)
                        ==> ReportedAt(r, p)
    decreases |line| - c
  {
    if c >= |line| then []
    else if !BracketStart(line, fm, opens, closes, c) then ExtractBrackets(line, fm, opens, closes, c + 1)
    else
      var b := Bracket(0, c, 0, FirstAt(line, opens, c).Some?);
      var n := TokenLength(line, opens, closes, b);
      assert n > 0;
      var rest := ExtractBrackets(line, fm, opens, closes, c + n);
      assert ([b] + rest)[1..] == rest;
      [b] + rest
  }

  /** A pairing stack: a closing bracket can only sit at the bottom. */
  predicate ClosesAtBottom(stack: seq<Bracket>) {
    forall k :: 0 < k < |stack| ==> stack[k].open
  }

  /** The pairing loop (lines 267-278): a close pops a matching open on top, is dropped
      when the top does not match, and is kept only when the stack is empty. */
  function PairBrackets(tokens: seq<Bracket>, stack: seq<Bracket>): (r: seq<Bracket>)
    requires ClosesAtBottom(stack)
    ensures ClosesAtBottom(r)
    ensures forall b <- r :: b in stack || b in tokens
    ensures |r| <= |stack| + |tokens|
    decreases |tokens|
  {
    if |tokens| == 0 then stack
    else
      var b := tokens[0];
      assert forall x <- tokens[1..] :: x in tokens;
      if !b.open && |stack| > 0 then
        var top := stack[|stack| - 1];
        if top.open && top.id == b.id then
          assert forall x <- stack[..|stack| - 1] :: x in stack;
          PairBrackets(tokens[1..], stack[..|stack| - 1])
        else PairBrackets(tokens[1..], stack)
      else
        assert ClosesAtBottom(stack + [b]);
        PairBrackets(tokens[1..], stack + [b])
  }

  /** The number of opening brackets on a stack. */
  function OpenCount(s: seq<Bracket>): nat {
    if |s| == 0 then 0 else OpenCount(s[..|s| - 1]) + (if s[|s| - 1].open then 1 else 0)
  }

  predicate HasClose(s: seq<Bracket>) {
    exists k :: 0 <= k < |s| && !s[k].open
  }

  /** Reference for the pairing when every bracket has the same pair id: the nesting depth,
      where a close at depth 0 is ignored. */
  function ClampedDepth(tokens: seq<Bracket>, d: nat): nat {
    if |tokens| == 0 then d
    else if tokens[0].open then ClampedDepth(tokens[1..], d + 1)
    else ClampedDepth(tokens[1..], if d == 0 then 0 else d - 1)
  }

  /** Some close arrives when the depth is 0. */
  predicate UnmatchedClose(tokens: seq<Bracket>, d: nat) {
    if |tokens| == 0 then false
    else if tokens[0].open then UnmatchedClose(tokens[1..], d + 1)
    else d == 0 || UnmatchedClose(tokens[1..], d - 1)
  }

  predicate SameId(s: seq<Bracket>) {
    forall k :: 0 <= k < |s| ==> s[k].id == 0
  }

  /** With a single pair id (as the scan produces), the pairing keeps exactly the opens left
      at the end of a depth count, plus a close at the bottom exactly when some close arrived
      with nothing open. */
  lemma {:induction false} PairingMatchesDepth(tokens: seq<Bracket>, stack: seq<Bracket>)
    requires ClosesAtBottom(stack) && SameId(tokens) && SameId(stack)
    ensures OpenCount(PairBrackets(tokens, stack)) == ClampedDepth(tokens, OpenCount(stack))
    ensures HasClose(PairBrackets(tokens, stack)) <==> HasClose(stack) || UnmatchedClose(tokens, OpenCount(stack))
    decreases |tokens|
  {
    if |tokens| > 0 {
      var b := tokens[0];
      var rest := tokens[1..];
      assert SameId(rest);
      if !b.open && |stack| > 0 {
        var top := stack[|stack| - 1];
        if top.open && top.id == b.id {
          var popped := stack[..|stack| - 1];
          assert SameId(popped);
          assert OpenCount(stack) == OpenCount(popped) + 1;
          assert HasClose(popped) <==> HasClose(stack) by {
            if HasClose(stack) {
              var k :| 0 <= k < |stack| && !stack[k].open;
              assert k < |popped| && popped[k] == stack[k];
            }
          }
          PairingMatchesDepth(rest, popped);
        } else {
          assert !top.open;
          assert OpenCount(stack) == 0 by {
            assert |stack| == 1;
            assert stack[..0] == [];
          }
          PairingMatchesDepth(rest, stack);
        }
      } else {
        var pushed := stack + [b];
        assert pushed[..|stack|] == stack;
        assert ClosesAtBottom(pushed);
        assert SameId(pushed);
        assert HasClose(pushed) <==> HasClose(stack) || !b.open by {
          if HasClose(stack) {
            var k :| 0 <= k < |stack| && !stack[k].open;
            assert pushed[k] == stack[k];
          }
          if !b.open {
            assert !pushed[|stack|].open;
          }
          if HasClose(pushed) {
            var k :| 0 <= k < |pushed| && !pushed[k].open;
            if k < |stack| {
              assert stack[k] == pushed[k];
            }
          }
        }
        if !b.open {
          assert OpenCount(stack) == 0;
        }
        PairingMatchesDepth(rest, pushed);
      }
    }
  }

  /** The "if-else" adjustment (lines 281-285): a close followed by an open of the same pair
      (as in `} else {`) leaves nothing. */
  function DropCloseOpen(bs: seq<Bracket>): (r: seq<Bracket>)
    ensures r == [] || r == bs
    ensures r == [] <==> |bs| == 0 || (|bs| == 2 && bs[0].open != bs[1].open && bs[0].id == bs[1].id)
  {
    if |bs| == 2 && bs[0].open != bs[1].open && bs[0].id == bs[1].id then [] else bs
  }

  /** The brackets a line keeps: scanned, paired, adjusted; none when the language has
      no bracket configuration. */
  function LineBrackets(lang: LanguageInfo, line: string, fm: seq<CharFormat>): (r: seq<Bracket>)
    requires TokensNonEmpty(lang)
    ensures ClosesAtBottom(r)
    ensures !lang.brackets ==> r == []
    ensures forall b <- r :: b.position < |line| && b.id == 0 && b.line == 0 && !InStringOrComment(fm, b.position)
  {
    if lang.brackets then
      var scanned := ExtractBrackets(line, fm, lang.bracketOpen, lang.bracketClose, 0);
      DropCloseOpen(PairBrackets(scanned, []))
    else []
  }

  // ---------------------------------------------------------------- the pass

  datatype PassResult = PassResult(doc: Document, markedDirty: bool)

  /** previousBlockState(): -1 before the first line. */
  function PrevState(doc: Document, i: nat): int
    requires i <= |doc|
  {
    if i == 0 then -1 else doc[i - 1].userState
  }

  /** The record of the line before `i`, if it has one. */
  function PrevRecord(doc: Document, i: nat): Option<Record>
    requires i <= |doc|
  {
    if i == 0 then None else doc[i - 1].rec
  }

  /** The line before `i` is either record-less or carries a parser state. */
  predicate PrevStateKnown(doc: Document, i: nat)
    requires i <= |doc|
  {
    PrevRecord(doc, i).Some? ==> PrevRecord(doc, i).value.endState.Some?
  }

  /** Every record except the one on line `i` carries a parser state. */
  predicate StatesKnownExcept(doc: Document, i: nat) {
    forall k :: 0 <= k < |doc| && k != i && doc[k].rec.Some? ==> doc[k].rec.value.endState.Some?
  }

  /** The pass does its work: theme and grammar are set, and the line either has a record
      or rendering is not deferred. */
  predicate Proceeds(h: Config, doc: Document, i: nat)
    requires i < |doc|
  {
    Ready(h) && (doc[i].rec.Some? || !h.deferRendering)
  }

  /** The state the line starts in: the previous line's end state, else the seed. */
  function StartState(h: Config, doc: Document, i: nat): ParserState
    requires i < |doc| && Ready(h) && PrevStateKnown(doc, i)
  {
    match PrevRecord(doc, i)
    case Some(p) => p.endState.value
    case None => h.grammar.value.seed
  }

  /** What the grammar says about the line; a line over 500 characters is not parsed and
      keeps its start state. */
  function ParseLine(h: Config, doc: Document, i: nat): (r: ParseOutput)
    requires i < |doc| && Ready(h) && PrevStateKnown(doc, i)
    ensures |doc[i].text| > MaxParsedLength ==> r == ParseOutput([], StartState(h, doc, i))
  {
    if |doc[i].text| > MaxParsedLength then ParseOutput([], StartState(h, doc, i))
    else h.grammar.value.parse(doc[i].text + "\n", StartState(h, doc, i), PrevRecord(doc, i).None?)
  }

  /** The formats and spans the scope walk produces for line `i`. */
  function WalkLine(h: Config, doc: Document, i: nat): (r: Painted)
    requires i < |doc| && Ready(h) && PrevStateKnown(doc, i)
    ensures |r.formats| == |doc[i].text|
    ensures forall c :: 0 <= c < |doc[i].text| ==>
              r.formats[c] == FormatOf(h.theme.value, ScopeAt(ParseLine(h, doc, i).scopes, c), Plain)
    ensures forall k :: 0 <= k < |r.spans| ==> ValidSpan(doc[i].text + "\n", r.spans[k])
  {
    var scopes := ParseLine(h, doc, i).scopes;
    var p := Painted(PlainFormats(|doc[i].text|), []);
    var r := ScopeWalk(h.theme.value, h.foreground, doc[i].text + "\n", scopes, 0, "", p);
    assert forall c | 0 <= c < |doc[i].text| ::
             r.formats[c] == FormatOf(h.theme.value, ScopeAt(scopes, c), Plain) by {
      forall c | 0 <= c < |doc[i].text|
        ensures r.formats[c] == FormatOf(h.theme.value, ScopeAt(scopes, c), Plain)
      {
        ScopeWalkFormats(h.theme.value, h.foreground, doc[i].text + "\n", scopes, 0, "", p, c);
      }
    }
    assert forall k | 0 <= k < |r.spans| :: ValidSpan(doc[i].text + "\n", r.spans[k]) by {
      forall k | 0 <= k < |r.spans|
        ensures ValidSpan(doc[i].text + "\n", r.spans[k])
      {
        ScopeWalkSpans(h.theme.value, h.foreground, doc[i].text + "\n", scopes, 0, "", p, k);
      }
    }
    r
  }

  /** The line as the pass leaves it (its record, formats and block state). */
  function PassLine(h: Config, doc: Document, i: nat): (r: Line)
    requires i < |doc| && (Ready(h) ==> PrevStateKnown(doc, i)) && TokensNonEmpty(h.lang)
    ensures r.text == doc[i].text && r.visible == doc[i].visible && r.lineCount == doc[i].lineCount
    ensures |r.formats| == |doc[i].text|
    ensures !Proceeds(h, doc, i) ==> r == doc[i].(formats := PlainFormats(|doc[i].text|))
    ensures Proceeds(h, doc, i) ==>
              r.rec.Some? && r.rec.value.endState == Some(ParseLine(h, doc, i).state)
              && !r.rec.value.dirty && ClosesAtBottom(r.rec.value.brackets)
              && (forall sp <- r.rec.value.spans :: ValidSpan(doc[i].text + "\n", sp))
              && (forall b <- r.rec.value.brackets :: !InStringOrComment(r.formats, b.position))
              && (!h.lang.brackets ==> r.rec.value.brackets == [])
    ensures Proceeds(h, doc, i) && |h.lang.blockCommentStart| == 0 ==>
              r.userState == doc[i].userState && r.formats == WalkLine(h, doc, i).formats
    ensures Proceeds(h, doc, i) && |h.lang.blockCommentStart| > 0 ==>
              (r.userState == BlockStateComment <==>
                 !Contains(doc[i].text, h.lang.blockCommentEnd)
                 && (CommentOpening(h.lang, doc[i].text, WalkLine(h, doc, i).formats) != -1
                     || PrevState(doc, i) == BlockStateComment))
    ensures Proceeds(h, doc, i) ==>
              var own := doc[i].rec.GetOr(BlankRecord);
              r.rec.value.folded == own.folded && r.rec.value.scopes == own.scopes
              && r.rec.value.lastPrevRule == (if PrevRecord(doc, i).Some? then
                                                PrevRecord(doc, i).value.endState.value.TopRule().GetOr(own.lastPrevRule)
                                              else own.lastPrevRule)
  {
    var text := doc[i].text;
    if !Proceeds(h, doc, i) then doc[i].(formats := PlainFormats(|text|))
    else
      var th := h.theme.value;
      var own := doc[i].rec.GetOr(BlankRecord);
      var lastPrev := match PrevRecord(doc, i)
                      case Some(p) => p.endState.value.TopRule().GetOr(own.lastPrevRule)
                      case None => own.lastPrevRule;
      var parsed := ParseLine(h, doc, i);
      var walked := WalkLine(h, doc, i);
      var cm := BlockComment(h.lang, th, h.foreground, text, PrevState(doc, i), walked);
      var fm := cm.painted.formats;
      var bs := LineBrackets(h.lang, text + "\n", fm);
      var rec := own.(endState := Some(parsed.state), spans := cm.painted.spans, brackets := bs,
                      dirty := false, lastPrevRule := lastPrev);
      assert cm.painted.spans == walked.spans + cm.painted.spans[|walked.spans|..];
      doc[i].(formats := fm, rec := Some(rec), userState := cm.state.GetOr(doc[i].userState))
  }

  /** Whether the pass over line `i` marks the next line for another pass: the line ends
      in a rule other than the one the next line was last highlighted after. */
  predicate MarksNext(h: Config, doc: Document, i: nat)
    requires i < |doc| && (Ready(h) ==> PrevStateKnown(doc, i))
  {
    Proceeds(h, doc, i) && ParseLine(h, doc, i).state.TopRule().Some?
    && i + 1 < |doc| && doc[i + 1].rec.Some?
    && ParseLine(h, doc, i).state.TopRule().value != doc[i + 1].rec.value.lastPrevRule
  }

  /** Highlighter::highlightBlock on line `i` (with QSyntaxHighlighter's format reset). */
  function HighlightBlock(h: Config, doc: Document, i: nat): (r: PassResult)
    requires i < |doc| && (Ready(h) ==> PrevStateKnown(doc, i)) && TokensNonEmpty(h.lang)
    ensures |r.doc| == |doc| && r.doc[i] == PassLine(h, doc, i)
    ensures forall k :: 0 <= k < |doc| && k != i && k != i + 1 ==> r.doc[k] == doc[k]
    ensures r.markedDirty == MarksNext(h, doc, i)
    ensures i + 1 < |doc| ==>
              r.doc[i + 1] == if r.markedDirty then doc[i + 1].(rec := Some(doc[i + 1].rec.value.(dirty := true)))
                              else doc[i + 1]
  {
    var line := PassLine(h, doc, i);
    var d1 := doc[i := line];
    if MarksNext(h, doc, i) then
      var next := doc[i + 1].(rec := Some(doc[i + 1].rec.value.(dirty := true)));
      PassResult(d1[i + 1 := next], true)
    else PassResult(d1, false)
  }

  /** The pass keeps every text and every record. */
  lemma HighlightBlockKeeps(h: Config, doc: Document, i: nat)
    requires i < |doc| && (Ready(h) ==> PrevStateKnown(doc, i)) && TokensNonEmpty(h.lang)
    ensures var r := HighlightBlock(h, doc, i);
            forall k :: 0 <= k < |doc| ==> r.doc[k].text == doc[k].text && (doc[k].rec.Some? ==> r.doc[k].rec.Some?)
  {
    var r := HighlightBlock(h, doc, i);
    PassLineKeeps(h, doc, i);
    forall k | 0 <= k < |doc|
      ensures r.doc[k].text == doc[k].text && (doc[k].rec.Some? ==> r.doc[k].rec.Some?)
    {
      if k != i && k != i + 1 {
        assert r.doc[k] == doc[k];
      }
    }
  }

  /** After the pass every record carries a parser state when every record but the line's
      own did. */
  lemma HighlightBlockStatesKnown(h: Config, doc: Document, i: nat)
    requires i < |doc| && (Ready(h) ==> PrevStateKnown(doc, i)) && TokensNonEmpty(h.lang)
    requires Ready(h) && StatesKnownExcept(doc, i)
    ensures StatesKnown(HighlightBlock(h, doc, i).doc)
  {
    var r := HighlightBlock(h, doc, i);
    PassLineKeeps(h, doc, i);
    forall k | 0 <= k < |doc| && r.doc[k].rec.Some?
      ensures r.doc[k].rec.value.endState.Some?
    {
      if k != i && k != i + 1 {
        assert r.doc[k] == doc[k];
      }
    }
  }

  /** The line the pass leaves keeps its text and its record, and its record carries a
      parser state whenever the theme and grammar are set. */
  lemma PassLineKeeps(h: Config, doc: Document, i: nat)
    requires i < |doc| && (Ready(h) ==> PrevStateKnown(doc, i)) && TokensNonEmpty(h.lang)
    ensures var line := PassLine(h, doc, i);
            line.text == doc[i].text && (doc[i].rec.Some? ==> line.rec.Some?)
            && (Ready(h) && line.rec.Some? ==> line.rec.value.endState.Some?)
  {
  }

  /** A line longer than 500 characters never reaches the grammar: any parser gives the same
      pass, and the line ends in the state it started in. */
  lemma LongLineSkipsGrammar(h: Config, doc: Document, i: nat, other: (string, ParserState, bool) -> ParseOutput)
    requires i < |doc| && (Ready(h) ==> PrevStateKnown(doc, i)) && TokensNonEmpty(h.lang) && Ready(h)
    requires |doc[i].text| > MaxParsedLength
    ensures var h2 := h.(grammar := Some(h.grammar.value.(parse := other)));
            HighlightBlock(h2, doc, i) == HighlightBlock(h, doc, i)
    ensures Proceeds(h, doc, i) ==> HighlightBlock(h, doc, i).doc[i].rec.value.endState == Some(StartState(h, doc, i))
  {
    var h2 := h.(grammar := Some(h.grammar.value.(parse := other)));
    assert ParseLine(h2, doc, i) == ParseLine(h, doc, i);
    assert WalkLine(h2, doc, i) == WalkLine(h, doc, i);
    assert PassLine(h2, doc, i) == PassLine(h, doc, i);
  }

  /** Highlighting the same line twice in a row changes nothing the second time. */
  lemma HighlightBlockIdempotent(h: Config, doc: Document, i: nat)
    requires i < |doc| && (Ready(h) ==> PrevStateKnown(doc, i)) && TokensNonEmpty(h.lang)
    ensures var r := HighlightBlock(h, doc, i);
            (Ready(h) ==> PrevStateKnown(r.doc, i)) && HighlightBlock(h, r.doc, i) == r
  {
    var r := HighlightBlock(h, doc, i);
    assert PrevRecord(r.doc, i) == PrevRecord(doc, i);
    assert PrevState(r.doc, i) == PrevState(doc, i);
    if Proceeds(h, doc, i) {
      assert Proceeds(h, r.doc, i);
      assert ParseLine(h, r.doc, i) == ParseLine(h, doc, i);
      assert WalkLine(h, r.doc, i) == WalkLine(h, doc, i);
    }
    assert PassLine(h, r.doc, i) == r.doc[i];
    assert MarksNext(h, r.doc, i) == MarksNext(h, doc, i);
  }
}

=== FILE: icons.dfy ===
/** Icon resolution for the sidebar (src/icons.cpp, and the older icons.cpp). An icon theme
    is a JSON definition (a VS Code icon theme) and the directory its images live in. A file's
    icon name is looked up through a chain of tables; the name's definition is a font glyph
    or an image; rendered pixmaps are memoised in a cache that lives across calls. Painting
    is abstracted to the Pixmap datatype. */
module Icons {
  import opened Base
  import opened JsonValue
  import opened Extension
  import opened Utf8

  /** icon_theme_t: the parsed theme and the directory its icon paths are relative to. */
  datatype IconTheme = IconTheme(definition: Json, iconsPath: string)

  /** What a call hands back: a null QPixmap, a transparent 16x16 pixmap with nothing drawn
      on it, a font glyph in a colour, an SVG file recoloured with the requested colour
      (newer), or an image file drawn as is (older). */
  datatype Pixmap = NullPixmap | Blank | Glyph(text: string, color: string)
                  | Svg(path: string, tint: string) | Image(path: string)

  /** What an icon definition asks to draw. */
  datatype IconDef = NoIcon | FontIcon(text: string, color: string) | PathIcon(path: string)

  /** The state the static caches carry: the file-icon cache of icon_for_file and the
      folder-icon cache of icon_for_folder (two separate function-local statics, each keyed
      by its own cache id), and the language cache of language_from_file. */
  datatype IconState = IconState(fileIcons: map<string, Pixmap>, folderIcons: map<string, Pixmap>,
                                 langs: map<string, LanguageInfo>)

  datatype IconResult = IconResult(pixmap: Pixmap, state: IconState)

  /** An icon name, with the language cache the lookup left behind. */
  datatype NameLookup = NameLookup(name: string, langs: map<string, LanguageInfo>)

  /** `table[key].asString()` when the key is a member, otherwise `fallback`. */
  function MemberOr(table: Json, key: string, fallback: string): (r: string)
    ensures IsMember(table, key) ==> r == AsString(table.fields[key])
    ensures !IsMember(table, key) ==> r == fallback
  {
    if IsMember(table, key) then AsString(Get(table, key)) else fallback
  }

  /** The definition of icon `name`: a `fontCharacter` (its escape decoded, wrapped in "x"
      on both sides first) wins over an `iconPath`. */
  function DefinitionOf(theme: IconTheme, name: string): (r: IconDef)
    ensures var defs := Get(theme.definition, "iconDefinitions");
            !IsMember(defs, name) ==> r == NoIcon
    ensures var d := Get(Get(theme.definition, "iconDefinitions"), name);
            IsMember(Get(theme.definition, "iconDefinitions"), name) && IsMember(d, "fontCharacter") ==>
              r == FontIcon(WStringConvert("x" + AsString(Get(d, "fontCharacter")) + "x"), AsString(Get(d, "fontColor")))
    ensures var d := Get(Get(theme.definition, "iconDefinitions"), name);
            IsMember(Get(theme.definition, "iconDefinitions"), name) && !IsMember(d, "fontCharacter") ==>
              r == (if IsMember(d, "iconPath") then PathIcon(theme.iconsPath + "/" + AsString(Get(d, "iconPath")))
                    else NoIcon)
    ensures r.PathIcon? ==> StartsWith(r.path, theme.iconsPath + "/")
  {
    var defs := Get(theme.definition, "iconDefinitions");
    if !IsMember(defs, name) then NoIcon
    else
      var d := Get(defs, name);
      if IsMember(d, "fontCharacter") then
        FontIcon(WStringConvert("x" + AsString(Get(d, "fontCharacter")) + "x"), AsString(Get(d, "fontColor")))
      else if IsMember(d, "iconPath") then
        var path := theme.iconsPath + "/" + AsString(Get(d, "iconPath"));
        assert path[..|theme.iconsPath + "/"|] == theme.iconsPath + "/";
        PathIcon(path)
      else NoIcon
  }

  /** The first non-empty name of a fallback chain, or "" when every link is empty. */
  function FirstNonEmpty(chain: seq<string>): (r: string)
    ensures r == "" <==> forall k :: 0 <= k < |chain| ==> chain[k] == ""
    ensures r != "" ==> exists k :: 0 <= k < |chain| && chain[k] == r && forall j :: 0 <= j < k ==> chain[j] == ""
  {
    if |chain| == 0 then ""
    else if chain[0] != "" then chain[0]
    else
      var r := FirstNonEmpty(chain[1..]);
      assert forall k :: 1 <= k < |chain| ==> chain[k] == chain[1..][k - 1];
      if r != "" then
        var k :| 0 <= k < |chain[1..]| && chain[1..][k] == r && forall j :: 0 <= j < k ==> chain[1..][j] == "";
        assert chain[k + 1] == r;
        r
      else r
  }

  /** The icon-name chain of both resolvers after its first link: the theme's key for the
      language of "x.<suffix>" in `languageIds`, the suffix itself there, then `file`. */
  function NameChain(first: string, def: Json, suffix: string, lang: LanguageInfo): seq<string> {
    var languageIds := Get(def, "languageIds");
    [first, MemberOr(languageIds, lang.id, ""), MemberOr(languageIds, suffix, ""), AsString(Get(def, "file"))]
  }

  /** A four-link chain falls through its empty links in order. */
  lemma FirstNonEmptyOfFour(a: string, b: string, c: string, d: string)
    ensures FirstNonEmpty([a, b, c, d]) == if a != "" then a else if b != "" then b else if c != "" then c else d
  {
    assert [d][1..] == [];
    assert FirstNonEmpty([d]) == d;
    assert [c, d][1..] == [d];
    assert FirstNonEmpty([c, d]) == if c != "" then c else d;
    assert [b, c, d][1..] == [c, d];
    assert FirstNonEmpty([b, c, d]) == if b != "" then b else if c != "" then c else d;
    assert [a, b, c, d][1..] == [b, c, d];
  }

  // ---------------------------------------------------------------- newer resolver

  /** The icon-name chain of icon_for_file (newer): the theme's key for the file name, then
      `fileExtensions[suffix]`, which replaces it whenever present (the guard is a comma
      expression whose left operand is discarded); if still empty, the language id of
      "x.<suffix>" in `languageIds`, then the suffix itself there; finally `file`. */
  function FileIconName(fs: FileSystem, theme: IconTheme, fileName: string, suffix: string,
                        exts: seq<Extension>, langs: map<string, LanguageInfo>): (r: NameLookup)
    ensures var byExt := Get(theme.definition, "fileExtensions");
            IsMember(byExt, suffix) && AsString(byExt.fields[suffix]) != "" ==>
              r == NameLookup(AsString(byExt.fields[suffix]), langs)
    ensures var byExt := Get(theme.definition, "fileExtensions");
            !IsMember(byExt, suffix) && MemberOr(theme.definition, fileName, "") != "" ==>
              r == NameLookup(MemberOr(theme.definition, fileName, ""), langs)
    ensures var first := MemberOr(Get(theme.definition, "fileExtensions"), suffix,
                                  MemberOr(theme.definition, fileName, ""));
            var lk := LanguageFromFile(fs, langs, "x." + suffix, exts);
            && r.name == FirstNonEmpty(NameChain(first, theme.definition, suffix, lk.lang))
            && r.langs == (if first == "" then lk.cache else langs)
  {
    var def := theme.definition;
    var byName := MemberOr(def, fileName, "");
    var byExt := MemberOr(Get(def, "fileExtensions"), suffix, byName);
    if byExt != "" then
      var lk := LanguageFromFile(fs, langs, "x." + suffix, exts);
      var languageIds := Get(def, "languageIds");
      FirstNonEmptyOfFour(byExt, MemberOr(languageIds, lk.lang.id, ""), MemberOr(languageIds, suffix, ""),
                          AsString(Get(def, "file")));
      NameLookup(byExt, langs)
    else
      var languageIds := Get(def, "languageIds");
      var lk := LanguageFromFile(fs, langs, "x." + suffix, exts);
      var byLang := MemberOr(languageIds, lk.lang.id, "");
      var bySuffix := if byLang == "" then MemberOr(languageIds, suffix, "") else byLang;
      var name := if bySuffix == "" then AsString(Get(def, "file")) else bySuffix;
      FirstNonEmptyOfFour(byExt, byLang, MemberOr(languageIds, suffix, ""), AsString(Get(def, "file")));
      NameLookup(name, lk.cache)
  }

  /** Asking again with the language cache the first lookup left behind gives the same
      name and leaves that cache as it is. */
  lemma FileIconNameStable(fs: FileSystem, theme: IconTheme, fileName: string, suffix: string,
                           exts: seq<Extension>, langs: map<string, LanguageInfo>)
    ensures var r := FileIconName(fs, theme, fileName, suffix, exts, langs);
            FileIconName(fs, theme, fileName, suffix, exts, r.langs) == r
  {
    LanguageFromFileStable(fs, langs, "x." + suffix, exts);
  }

  /** The painting step AS WRITTEN: a glyph when the definition is a font with a
      non-empty character; otherwise the branch meant for SVG icons is taken for every other
      case, because its condition assigns `icon_svg` and is always true, so a name without
      a definition yields a blank pixmap, and the "return QPixmap()" branch is unreachable. */
  function PaintAsWritten(d: IconDef, color: string): (r: Pixmap)
    ensures r != NullPixmap
    ensures d.NoIcon? ==> r == Blank
  {
    match d
    case FontIcon(text, fontColor) => if |text| > 0 then Glyph(text, fontColor) else Blank
    case PathIcon(path) => Svg(path, color)
    case NoIcon => Blank
  }

  /** The painting step, corrected: the SVG branch is taken only for an SVG icon, and
      anything else returns a null pixmap. */
  function Paint(d: IconDef, color: string): (r: Pixmap)
    ensures r == NullPixmap <==> d.NoIcon? || (d.FontIcon? && |d.text| == 0)
    ensures d.PathIcon? ==> r == Svg(d.path, color)
  {
    match d
    case FontIcon(text, fontColor) => if |text| > 0 then Glyph(text, fontColor) else NullPixmap
    case PathIcon(path) => Svg(path, color)
    case NoIcon => NullPixmap
  }

  /** The two differ exactly where the definition draws nothing: there the code as written
      hands back a blank pixmap instead of a null one. */
  lemma PaintDiffersOnlyWhenNothingDrawn(d: IconDef, color: string)
    ensures Paint(d, color) != PaintAsWritten(d, color) <==> Paint(d, color) == NullPixmap
    ensures Paint(d, color) == NullPixmap ==> PaintAsWritten(d, color) == Blank
  {
  }

  /** icon_for_file (newer) AS WRITTEN: no theme gives a null pixmap; a cached id (suffix
      and colour) returns its pixmap; otherwise the icon name is resolved, an empty name
      gives a null pixmap that is not cached, and any other name is painted (a name
      without a definition paints a blank pixmap) and cached. Only the file cache and the
      language cache change. */
  function IconForFileAsWritten(fs: FileSystem, theme: Option<IconTheme>, fileName: string, suffix: string,
                                exts: seq<Extension>, color: string, st: IconState): (r: IconResult)
    ensures theme.None? ==> r == IconResult(NullPixmap, st)
    ensures theme.Some? && suffix + color in st.fileIcons ==> r == IconResult(st.fileIcons[suffix + color], st)
    ensures theme.Some? && suffix + color !in st.fileIcons ==>
              var nl := FileIconName(fs, theme.value, fileName, suffix, exts, st.langs);
              && r.state.langs == nl.langs && r.state.folderIcons == st.folderIcons
              && (nl.name == "" ==> r.pixmap == NullPixmap && r.state.fileIcons == st.fileIcons)
              && (nl.name != "" ==>
                    r.pixmap == PaintAsWritten(DefinitionOf(theme.value, nl.name), color)
                    && r.state.fileIcons == st.fileIcons[suffix + color := r.pixmap])
  {
    if theme.None? then IconResult(NullPixmap, st)
    else
      var id := suffix + color;
      if id in st.fileIcons then IconResult(st.fileIcons[id], st)
      else
        var nl := FileIconName(fs, theme.value, fileName, suffix, exts, st.langs);
        var st1 := st.(langs := nl.langs);
        if nl.name == "" then IconResult(NullPixmap, st1)
        else
          var px := PaintAsWritten(DefinitionOf(theme.value, nl.name), color);
          IconResult(px, st1.(fileIcons := st.fileIcons[id := px]))
  }

  /** icon_for_file (newer), with the painting step corrected: the same, except that a
      name whose definition draws nothing gives a null pixmap, which is not cached. */
  function IconForFile(fs: FileSystem, theme: Option<IconTheme>, fileName: string, suffix: string,
                       exts: seq<Extension>, color: string, st: IconState): (r: IconResult)
    ensures theme.None? ==> r == IconResult(NullPixmap, st)
    ensures theme.Some? && suffix + color in st.fileIcons ==> r == IconResult(st.fileIcons[suffix + color], st)
    ensures theme.Some? && suffix + color !in st.fileIcons ==>
              var nl := FileIconName(fs, theme.value, fileName, suffix, exts, st.langs);
              && r.state.langs == nl.langs && r.state.folderIcons == st.folderIcons
              && r.pixmap == (if nl.name == "" then NullPixmap else Paint(DefinitionOf(theme.value, nl.name), color))
              && r.state.fileIcons == (if r.pixmap == NullPixmap then st.fileIcons
                                       else st.fileIcons[suffix + color := r.pixmap])
  {
    if theme.None? then IconResult(NullPixmap, st)
    else
      var id := suffix + color;
      if id in st.fileIcons then IconResult(st.fileIcons[id], st)
      else
        var nl := FileIconName(fs, theme.value, fileName, suffix, exts, st.langs);
        var st1 := st.(langs := nl.langs);
        if nl.name == "" then IconResult(NullPixmap, st1)
        else
          var px := Paint(DefinitionOf(theme.value, nl.name), color);
          if px == NullPixmap then IconResult(NullPixmap, st1)
          else IconResult(px, st1.(fileIcons := st.fileIcons[id := px]))
  }

  /** When the icon name resolved for a file has no definition in the theme (a theme whose
      `file` icon is not defined, say), the code as written returns a blank pixmap and
      caches it, where a null pixmap that is not cached was meant. */
  lemma UndefinedIconIsBlankAsWritten(fs: FileSystem, theme: IconTheme, fileName: string, suffix: string,
                                      exts: seq<Extension>, color: string, st: IconState)
    requires suffix + color !in st.fileIcons
    requires var name := FileIconName(fs, theme, fileName, suffix, exts, st.langs).name;
             name != "" && DefinitionOf(theme, name) == NoIcon
    ensures var w := IconForFileAsWritten(fs, Some(theme), fileName, suffix, exts, color, st);
            w.pixmap == Blank && w.state.fileIcons == st.fileIcons[suffix + color := Blank]
    ensures var c := IconForFile(fs, Some(theme), fileName, suffix, exts, color, st);
            c.pixmap == NullPixmap && c.state.fileIcons == st.fileIcons
  {
  }

  /** Asking twice for the same file icon returns the same pixmap, and the second call
      changes no cache: a painted icon is found in the icon cache, and a null one is
      recomputed identically. */
  lemma IconForFileRepeat(fs: FileSystem, theme: Option<IconTheme>, fileName: string, suffix: string,
                          exts: seq<Extension>, color: string, st: IconState)
    ensures var r1 := IconForFile(fs, theme, fileName, suffix, exts, color, st);
            IconForFile(fs, theme, fileName, suffix, exts, color, r1.state) == r1
  {
    if theme.Some? && suffix + color !in st.fileIcons {
      FileIconNameStable(fs, theme.value, fileName, suffix, exts, st.langs);
    }
  }

  /** The same holds for the code as written. */
  lemma IconForFileAsWrittenRepeat(fs: FileSystem, theme: Option<IconTheme>, fileName: string, suffix: string,
                                   exts: seq<Extension>, color: string, st: IconState)
    ensures var r1 := IconForFileAsWritten(fs, theme, fileName, suffix, exts, color, st);
            IconForFileAsWritten(fs, theme, fileName, suffix, exts, color, r1.state) == r1
  {
    if theme.Some? && suffix + color !in st.fileIcons {
      FileIconNameStable(fs, theme.value, fileName, suffix, exts, st.langs);
    }
  }

  /** The icon name of icon_for_folder (newer): `folderExpanded` for an open folder when the
      theme has one, otherwise `folder`. */
  function FolderIconName(theme: IconTheme, open: bool): (r: string)
    ensures !open ==> r == AsString(Get(theme.definition, "folder"))
    ensures open && AsString(Get(theme.definition, "folderExpanded")) != "" ==>
              r == AsString(Get(theme.definition, "folderExpanded"))
    ensures open && AsString(Get(theme.definition, "folderExpanded")) == "" ==>
              r == AsString(Get(theme.definition, "folder"))
  {
    var expanded := if open then AsString(Get(theme.definition, "folderExpanded")) else "";
    if expanded != "" then expanded else AsString(Get(theme.definition, "folder"))
  }

  /** icon_for_folder (newer): an empty name gives a null pixmap; the cache id is the icon
      name and the colour, in the folder cache; the painting has no null branch, so a name
      without a definition paints a blank pixmap, which is cached. */
  function IconForFolder(theme: Option<IconTheme>, open: bool, color: string, st: IconState): (r: IconResult)
    ensures theme.None? ==> r == IconResult(NullPixmap, st)
    ensures theme.Some? && FolderIconName(theme.value, open) == "" ==> r == IconResult(NullPixmap, st)
    ensures theme.Some? && FolderIconName(theme.value, open) != "" ==>
              var name := FolderIconName(theme.value, open);
              var id := name + color;
              if id in st.folderIcons then r == IconResult(st.folderIcons[id], st)
              else r.pixmap == PaintAsWritten(DefinitionOf(theme.value, name), color)
                   && r.state == st.(folderIcons := st.folderIcons[id := r.pixmap])
  {
    if theme.None? then IconResult(NullPixmap, st)
    else
      var name := FolderIconName(theme.value, open);
      if name == "" then IconResult(NullPixmap, st)
      else
        var id := name + color;
        if id in st.folderIcons then IconResult(st.folderIcons[id], st)
        else
          var px := PaintAsWritten(DefinitionOf(theme.value, name), color);
          IconResult(px, st.(folderIcons := st.folderIcons[id := px]))
  }

  /** An open and a closed folder share their icon when the theme has no `folderExpanded`. */
  lemma FolderWithoutExpandedIcon(theme: IconTheme, color: string, st: IconState)
    requires AsString(Get(theme.definition, "folderExpanded")) == ""
    ensures IconForFolder(Some(theme), true, color, st) == IconForFolder(Some(theme), false, color, st)
  {
  }

  // ---------------------------------------------------------------- older resolver

  /** The painting step of the older icons.cpp: a font glyph is drawn when the character
      is non-empty; the always-true assignment then draws the loaded image, which is null
      unless the definition gave a path. */
  function PaintLegacy(d: IconDef): (r: Pixmap)
    ensures r != NullPixmap
    ensures d.PathIcon? ==> r == Image(d.path)
  {
    match d
    case FontIcon(text, fontColor) => if |text| > 0 then Glyph(text, fontColor) else Blank
    case PathIcon(path) => Image(path)
    case NoIcon => Blank
  }

  /** The icon-name chain of the older icon_for_file: `fileExtensions[suffix]`, then the
      language id in `languageIds`, then the suffix there, then `file`. */
  function FileIconNameLegacy(fs: FileSystem, theme: IconTheme, suffix: string,
                              exts: seq<Extension>, langs: map<string, LanguageInfo>): (r: NameLookup)
    ensures var byExt := Get(theme.definition, "fileExtensions");
            IsMember(byExt, suffix) && AsString(byExt.fields[suffix]) != "" ==>
              r == NameLookup(AsString(byExt.fields[suffix]), langs)
    ensures var first := MemberOr(Get(theme.definition, "fileExtensions"), suffix, "");
            var lk := LanguageFromFileLegacy(fs, langs, "x." + suffix, exts);
            && r.name == FirstNonEmpty(NameChain(first, theme.definition, suffix, lk.lang))
            && r.langs == (if first == "" then lk.cache else langs)
  {
    var def := theme.definition;
    var byExt := MemberOr(Get(def, "fileExtensions"), suffix, "");
    if byExt != "" then
      var lk := LanguageFromFileLegacy(fs, langs, "x." + suffix, exts);
      var languageIds := Get(def, "languageIds");
      FirstNonEmptyOfFour(byExt, MemberOr(languageIds, lk.lang.id, ""), MemberOr(languageIds, suffix, ""),
                          AsString(Get(def, "file")));
      NameLookup(byExt, langs)
    else
      var languageIds := Get(def, "languageIds");
      var lk := LanguageFromFileLegacy(fs, langs, "x." + suffix, exts);
      var byLang := MemberOr(languageIds, lk.lang.id, "");
      var bySuffix := if byLang == "" then MemberOr(languageIds, suffix, "") else byLang;
      var name := if bySuffix == "" then AsString(Get(def, "file")) else bySuffix;
      FirstNonEmptyOfFour(byExt, byLang, MemberOr(languageIds, suffix, ""), AsString(Get(def, "file")));
      NameLookup(name, lk.cache)
  }

  /** icon_for_file (older): the cache id is the suffix alone, and every call that gets
      past the theme check caches what it painted, whatever the name. */
  function IconForFileLegacy(fs: FileSystem, theme: Option<IconTheme>, suffix: string,
                             exts: seq<Extension>, st: IconState): (r: IconResult)
    ensures theme.None? ==> r == IconResult(NullPixmap, st)
    ensures theme.Some? && suffix in st.fileIcons ==> r == IconResult(st.fileIcons[suffix], st)
    ensures theme.Some? && suffix !in st.fileIcons ==>
              var nl := FileIconNameLegacy(fs, theme.value, suffix, exts, st.langs);
              && r.pixmap == PaintLegacy(DefinitionOf(theme.value, nl.name))
              && r.state == IconState(st.fileIcons[suffix := r.pixmap], st.folderIcons, nl.langs)
  {
    if theme.None? then IconResult(NullPixmap, st)
    else if suffix in st.fileIcons then IconResult(st.fileIcons[suffix], st)
    else
      var nl := FileIconNameLegacy(fs, theme.value, suffix, exts, st.langs);
      var px := PaintLegacy(DefinitionOf(theme.value, nl.name));
      IconResult(px, IconState(st.fileIcons[suffix := px], st.folderIcons, nl.langs))
  }

  /** The older cache is keyed by suffix alone: once a suffix is cached, every later call
      for it returns that pixmap and changes nothing. */
  lemma LegacyFileIconCached(fs: FileSystem, theme: IconTheme, suffix: string,
                             exts: seq<Extension>, st: IconState, exts2: seq<Extension>)
    ensures var r1 := IconForFileLegacy(fs, Some(theme), suffix, exts, st);
            IconForFileLegacy(fs, Some(theme), suffix, exts2, r1.state) == IconResult(r1.pixmap, r1.state)
  {
  }

  /** icon_for_folder (older): always the `folder` icon, open or not, cached by its name. */
  function IconForFolderLegacy(theme: Option<IconTheme>, open: bool, st: IconState): (r: IconResult)
    ensures theme.None? ==> r == IconResult(NullPixmap, st)
    ensures theme.Some? ==>
              var name := AsString(Get(theme.value.definition, "folder"));
              if name in st.folderIcons then r == IconResult(st.folderIcons[name], st)
              else r.pixmap == PaintLegacy(DefinitionOf(theme.value, name))
                   && r.state == st.(folderIcons := st.folderIcons[name := r.pixmap])
  {
    if theme.None? then IconResult(NullPixmap, st)
    else
      var name := AsString(Get(theme.value.definition, "folder"));
      if name in st.folderIcons then IconResult(st.folderIcons[name], st)
      else
        var px := PaintLegacy(DefinitionOf(theme.value, name));
        IconResult(px, st.(folderIcons := st.folderIcons[name := px]))
  }

  /** The older folder icon ignores whether the folder is open. */
  lemma LegacyFolderIgnoresOpen(theme: Option<IconTheme>, st: IconState)
    ensures IconForFolderLegacy(theme, true, st) == IconForFolderLegacy(theme, false, st)
  {
  }
}

=== FILE: jsfs.dfy ===
/** The limited file system the script engine sees (JSFs in src/js.cpp and the older js.cpp).
    Every path a script passes is sanitised: `~` and `..` are deleted, and the rest is placed
    under the project directory. Qt's path normalisation (QFileInfo::absolutePath,
    QFileInfo::absoluteFilePath) and the file contents are parameters. */
module JsFs {
  import opened Base

  /** The characters of `RemoveAll(s, p)` all come from `s`. */
  lemma {:induction false} RemoveAllKeepsChars(s: string, p: string, c: char)
    requires |p| > 0 && c !in s
    ensures c !in RemoveAll(s, p)
    decreases |s|
  {
    if |s| >= |p| {
      if s[..|p|] == p {
        assert forall k :: 0 <= k < |s[|p|..]| ==> s[|p|..][k] == s[|p| + k];
        RemoveAllKeepsChars(s[|p|..], p, c);
      } else {
        assert forall k :: 0 <= k < |s[1..]| ==> s[1..][k] == s[1 + k];
        RemoveAllKeepsChars(s[1..], p, c);
      }
    }
  }

  /** Deleting a one-character pattern leaves none of that character. */
  lemma {:induction false} RemoveAllChar(s: string, c: char)
    ensures c !in RemoveAll(s, [c])
    decreases |s|
  {
    if |s| >= 1 {
      RemoveAllChar(s[1..], c);
    }
  }

  /** A string without the pattern is left as it is. */
  lemma {:induction false} RemoveAllAbsent(s: string, p: string)
    requires |p| > 0 && !Contains(s, p)
    ensures RemoveAll(s, p) == s
    decreases |s|
  {
    if |s| >= |p| {
      assert !OccursAt(s, p, 0);
      forall i | 0 <= i <= |s[1..]|
        ensures !OccursAt(s[1..], p, i)
      {
        if OccursAt(s[1..], p, i) {
          assert s[1..][i..i + |p|] == s[i + 1..i + 1 + |p|];
          assert OccursAt(s, p, i + 1);
        }
      }
      RemoveAllAbsent(s[1..], p);
    }
  }

  /** After deleting ".." left to right, a string that does not begin with a dot still
      begins with the same character. */
  lemma KeepsNonDotHead(t: string)
    requires |t| > 0 && t[0] != '.'
    ensures |RemoveAll(t, "..")| > 0 && RemoveAll(t, "..")[0] == t[0]
  {
    if |t| >= 2 {
      assert t[..2] != "..";
    }
  }

  /** Deleting ".." left to right leaves no "..": every run of dots shrinks to at most
      one dot, and the characters between runs are not dots and stay. */
  lemma {:induction false} RemoveDotsLeavesNone(s: string)
    ensures !Contains(RemoveAll(s, ".."), "..")
    decreases |s|
  {
    var r := RemoveAll(s, "..");
    if |s| < 2 {
      assert |r| < 2;
    } else if s[..2] == ".." {
      RemoveDotsLeavesNone(s[2..]);
    } else {
      var rest := RemoveAll(s[1..], "..");
      RemoveDotsLeavesNone(s[1..]);
      assert r == [s[0]] + rest;
      if s[0] == '.' {
        assert s[1] != '.' by { assert s[..2] == [s[0], s[1]]; }
        KeepsNonDotHead(s[1..]);
      }
      forall i | 0 <= i <= |r|
        ensures !OccursAt(r, "..", i)
      {
        if i >= 1 && OccursAt(r, "..", i) {
          assert r[i..i + 2] == rest[i - 1..i + 1];
          assert OccursAt(rest, "..", i - 1);
        }
      }
    }
  }

  /** A path without `~` or "..". */
  predicate IsClean(path: string) {
    '~' !in path && !Contains(path, "..")
  }

  /** A clean path passes both deletions unchanged. */
  lemma CleanPathUnchanged(path: string)
    ensures IsClean(path) ==> RemoveAll(RemoveAll(path, "~"), "..") == path
  {
    if IsClean(path) {
      forall i | 0 <= i <= |path|
        ensures !OccursAt(path, "~", i)
      {
        if i < |path| {
          assert path[i..i + 1][0] == path[i];
        }
      }
      RemoveAllAbsent(path, "~");
      RemoveAllAbsent(path, "..");
    }
  }

  /** `s` with every `c` dropped and the other characters kept in order. */
  function Without(s: string, c: char): (r: string)
    ensures c !in r && |r| <= |s|
  {
    if |s| == 0 then ""
    else (if s[0] == c then "" else [s[0]]) + Without(s[1..], c)
  }

  /** The length of the run of dots `s` starts with. */
  function LeadingDots(s: string): (n: nat)
    ensures n <= |s| && (forall i :: 0 <= i < n ==> s[i] == '.') && (n < |s| ==> s[n] != '.')
  {
    if |s| == 0 || s[0] != '.' then 0 else 1 + LeadingDots(s[1..])
  }

  /** `s` with each maximal run of dots shrunk to one dot when its length is odd and to
      nothing when it is even; every other character is kept in order. */
  function ParityDots(s: string): string
    decreases |s|
  {
    if |s| == 0 then ""
    else if s[0] != '.' then [s[0]] + ParityDots(s[1..])
    else
      var n := LeadingDots(s);
      (if n % 2 == 1 then "." else "") + ParityDots(s[n..])
  }

  /** Deleting a one-character pattern drops exactly that character. */
  lemma {:induction false} RemoveAllCharIsWithout(s: string, c: char)
    ensures RemoveAll(s, [c]) == Without(s, c)
    decreases |s|
  {
    if |s| >= 1 {
      assert s[..1] == [s[0]];
      RemoveAllCharIsWithout(s[1..], c);
    }
  }

  /** Deleting ".." left to right removes dots in pairs from each run, leaving one dot
      exactly when the run is odd. */
  lemma {:induction false} RemoveDotsIsParity(s: string)
    ensures RemoveAll(s, "..") == ParityDots(s)
    decreases |s|
  {
    if |s| < 2 {
      if |s| == 1 && s[0] == '.' {
        assert LeadingDots(s) == 1;
        assert ParityDots(s) == "." + ParityDots(s[1..]);
      }
    } else if s[0] != '.' || s[1] != '.' {
      assert s[..2] != "..";
      assert RemoveAll(s, "..") == [s[0]] + RemoveAll(s[1..], "..");
      RemoveDotsIsParity(s[1..]);
      if s[0] == '.' {
        assert LeadingDots(s) == 1;
        assert ParityDots(s) == "." + ParityDots(s[1..]);
      } else {
        assert ParityDots(s) == [s[0]] + ParityDots(s[1..]);
      }
    } else {
      assert s[..2] == "..";
      assert RemoveAll(s, "..") == RemoveAll(s[2..], "..");
      RemoveDotsIsParity(s[2..]);
      PairOfDotsDropped(s);
    }
  }

  lemma ParityOfTwoLess(n: nat)
    requires n >= 2
    ensures (n - 2) % 2 == n % 2
  {
    var q := (n - 2) / 2;
    assert n - 2 == 2 * q + (n - 2) % 2;
    assert n == 2 * (q + 1) + (n - 2) % 2;
  }

  /** Two dots less at the head of a run leave the parity reading unchanged. */
  lemma PairOfDotsDropped(s: string)
    requires |s| >= 2 && s[0] == '.' && s[1] == '.'
    ensures ParityDots(s) == ParityDots(s[2..])
  {
    var t := s[2..];
    assert s[1..][1..] == t;
    assert LeadingDots(s[1..]) == 1 + LeadingDots(t);
    var n := LeadingDots(s);
    assert n == 2 + LeadingDots(t);
    var head := if n % 2 == 1 then "." else "";
    assert ParityDots(s) == head + ParityDots(s[n..]);
    if n > 2 {
      assert t[n - 2..] == s[n..];
      ParityOfTwoLess(n);
      assert t[0] == '.';
      assert ParityDots(t) == head + ParityDots(s[n..]);
    } else {
      assert t == s[n..];
      assert head == "";
      assert ParityDots(s) == ParityDots(t);
    }
  }

  /** The sanitised path component: every `~` deleted, then every "..". The result is the
      path without `~`, with each run of dots cut to one dot when odd and none when even. */
  function Clean(path: string): (r: string)
    ensures r == ParityDots(Without(path, '~'))
    ensures IsClean(r)
    ensures IsClean(path) ==> r == path
    ensures |r| <= |path|
  {
    var noTilde := RemoveAll(path, "~");
    RemoveAllChar(path, '~');
    RemoveAllKeepsChars(noTilde, "..", '~');
    RemoveDotsLeavesNone(noTilde);
    CleanPathUnchanged(path);
    RemoveAllCharIsWithout(path, '~');
    RemoveDotsIsParity(noTilde);
    RemoveAll(noTilde, "..")
  }

  /** Sanitising twice is sanitising once. */
  lemma CleanIdempotent(path: string)
    ensures Clean(Clean(path)) == Clean(path)
  {
  }

  /** Qt's path functions, given as parameters: `absolutePath` of a file name is the
      absolute path of the directory holding it, `absoluteFilePath` the absolute path of the
      file itself. */
  datatype PathResolver = PathResolver(absolutePath: string -> string, absoluteFilePath: string -> string)

  /** The project directory is dropped when the sanitised path (with a slash appended)
      already contains the absolute directory of the project. */
  predicate AlreadyInProject(path: string, projectPath: string, q: PathResolver) {
    Contains(Clean(path) + "/", q.absolutePath(projectPath))
  }

  /** sanitizePath (src/js.cpp): the file a script's path names, always built from a clean
      component, under the project unless the path already reaches into it. */
  function SanitizePath(path: string, projectPath: string, q: PathResolver): (r: string)
    ensures AlreadyInProject(path, projectPath, q) ==> r == q.absoluteFilePath("/" + Clean(path))
    ensures !AlreadyInProject(path, projectPath, q) ==> r == q.absoluteFilePath(projectPath + "/" + Clean(path))
    ensures IsClean(path) && !AlreadyInProject(path, projectPath, q) ==>
              r == q.absoluteFilePath(projectPath + "/" + path)
  {
    var c := Clean(path);
    var project := if Contains(c + "/", q.absolutePath(projectPath)) then "" else projectPath;
    assert "" + "/" + c == "/" + c;
    q.absoluteFilePath(project + "/" + c)
  }

  /** sanitizePath (js.cpp): always under the project directory. */
  function SanitizePathLegacy(path: string, projectPath: string, q: PathResolver): (r: string)
    ensures IsClean(path) ==> r == q.absoluteFilePath(projectPath + "/" + path)
  {
    q.absoluteFilePath(projectPath + "/" + Clean(path))
  }

  /** Whatever a script passes, the file it reaches is named by a component without `~` or
      "..", joined to the project directory or (newer) to the root when the component
      already reaches into the project. */
  lemma SanitizedComponentIsClean(path: string, projectPath: string, q: PathResolver)
    ensures exists c :: IsClean(c) && |c| <= |path| &&
              SanitizePathLegacy(path, projectPath, q) == q.absoluteFilePath(projectPath + "/" + c)
    ensures exists c, project :: IsClean(c) && |c| <= |path| && project in {"", projectPath} &&
              SanitizePath(path, projectPath, q) == q.absoluteFilePath(project + "/" + c)
  {
    var c := Clean(path);
    assert IsClean(c) && |c| <= |path|;
    if AlreadyInProject(path, projectPath, q) {
      assert SanitizePath(path, projectPath, q) == q.absoluteFilePath("" + "/" + c);
    } else {
      assert SanitizePath(path, projectPath, q) == q.absoluteFilePath(projectPath + "/" + c);
    }
  }

  /** Paths that sanitise to the same component name the same file. */
  lemma SanitizeIgnoresRemovedParts(p1: string, p2: string, projectPath: string, q: PathResolver)
    requires Clean(p1) == Clean(p2)
    ensures SanitizePath(p1, projectPath, q) == SanitizePath(p2, projectPath, q)
    ensures SanitizePathLegacy(p1, projectPath, q) == SanitizePathLegacy(p2, projectPath, q)
  {
  }

  /** Sanitising a path that was already sanitised names the same file in the older
      version. */
  lemma LegacySanitizeStable(path: string, projectPath: string, q: PathResolver)
    ensures SanitizePathLegacy(Clean(path), projectPath, q) == SanitizePathLegacy(path, projectPath, q)
  {
  }

  /** The files a script can read: the contents of an openable file, keyed by its
      absolute path. */
  type Files = string -> Option<string>

  /** JSFs::readFile: the contents of the sanitised file, or "" when it cannot be opened. */
  function ReadFile(files: Files, path: string, projectPath: string, q: PathResolver): (r: string)
    ensures files(SanitizePath(path, projectPath, q)).None? ==> r == ""
    ensures files(SanitizePath(path, projectPath, q)).Some? ==> r == files(SanitizePath(path, projectPath, q)).value
  {
    files(SanitizePath(path, projectPath, q)).GetOr("")
  }

  /** JSFs::readFileSync: the options are ignored. */
  function ReadFileSync(files: Files, path: string, options: string, projectPath: string, q: PathResolver): (r: string)
    ensures files(SanitizePath(path, projectPath, q)).None? ==> r == ""
  {
    ReadFile(files, path, projectPath, q)
  }

  /** Whatever the options, readFileSync reads what readFile reads. */
  lemma ReadFileSyncIsReadFile(files: Files, path: string, o1: string, o2: string, projectPath: string, q: PathResolver)
    ensures ReadFileSync(files, path, o1, projectPath, q) == ReadFile(files, path, projectPath, q)
    ensures ReadFileSync(files, path, o1, projectPath, q) == ReadFileSync(files, path, o2, projectPath, q)
  {
  }
}

=== FILE: json.dfy ===
/** The slice of jsoncpp's Json::Value the extension loader and the icon resolver read.
    Objects are finite maps (jsoncpp keeps them sorted by key, so member order never
    matters to the code modelled here); arrays keep their order. */
module JsonValue {
  import opened Base

  datatype Json =
    | Null
    | Bool(b: bool)
    | Int(i: int)
    | Str(s: string)
    | Arr(items: seq<Json>)
    | Obj(fields: map<string, Json>)

  /** Value::isMember: only an object has members. */
  predicate IsMember(j: Json, key: string) {
    j.Obj? && key in j.fields
  }

  /** Value::operator[](key): the member, or a null value when there is none. */
  function Get(j: Json, key: string): (r: Json)
    ensures !IsMember(j, key) ==> r == Null
  {
    if IsMember(j, key) then j.fields[key] else Null
  }

  /** The elements an index loop `for (i = 0; i < v.size(); i++) v[i]` visits. */
  function Elements(j: Json): seq<Json> {
    if j.Arr? then j.items else []
  }

  /** Value::size. */
  function Size(j: Json): nat {
    match j
    case Arr(items) => |items|
    case Obj(fields) => |fields|
    case _ => 0
  }

  /** Value::empty: true only for null and for an empty array or object. */
  predicate IsEmpty(j: Json) {
    j.Null? || ((j.Arr? || j.Obj?) && Size(j) == 0)
  }

  /** Value::asString for the scalar kinds (arrays and objects make jsoncpp throw). */
  function AsString(j: Json): string {
    match j
    case Null => ""
    case Bool(b) => if b then "true" else "false"
    case Int(i) => IntToString(i)
    case Str(s) => s
    case _ => ""
  }

  /** Value::getMemberNames, as a set: the code only asks whether a name is among them. */
  function MemberNames(j: Json): set<string> {
    if j.Obj? then j.fields.Keys else {}
  }
}

=== FILE: keybinding.dfy ===
/** Key dispatch of the script layer (js/keybinding.js). A key combination is looked up in
    the key map; a press of the combination that was last accepted, less than 150 ms after
    it, is dropped, because both the main window and the editor trap key events. The clock
    is a parameter: each press carries its time in milliseconds. */
module KeyBinding {
  import opened Base
  import opened JsonValue
  import opened CommandRegistry

  /** The window in which a repeat of the last accepted combination is ignored. */
  const RepeatWindow: int := 150

  /** One entry of a key map: the combination, the command it runs, and its arguments. */
  datatype Binding = Binding(keys: string, command: string, args: Json)

  /** The module's state: `key_mapping` and `last_key` (time and combination of the last
      accepted press). */
  datatype KeyState = KeyState(mapping: map<string, Binding>, lastTime: int, lastKeys: string)

  const InitialKeyState: KeyState := KeyState(map[], 0, "")

  /** What processKeys returns, the state it leaves, and the calls it made. */
  datatype Outcome = Outcome(handled: bool, state: KeyState, calls: seq<Call>)

  /** The press repeats the last accepted one within the window. */
  predicate IsRepeat(st: KeyState, keys: string, time: int) {
    st.lastKeys == keys && time - st.lastTime < RepeatWindow
  }

  /** processKeys: an unmapped combination and a repeat are refused and change nothing;
      otherwise the press is recorded and its command executed. The result is true even when
      the command throws (the exception is caught), so throwing is not modelled apart. */
  function ProcessKeys(st: KeyState, reg: Registry, keys: string, time: int): (r: Outcome)
    ensures keys !in st.mapping ==> r == Outcome(false, st, [])
    ensures keys in st.mapping && IsRepeat(st, keys, time) ==> r == Outcome(false, st, [])
    ensures r.handled <==> keys in st.mapping && !IsRepeat(st, keys, time)
    ensures r.handled ==> r.state == st.(lastTime := time, lastKeys := keys)
                          && r.calls == ExecuteCommand(reg, st.mapping[keys].command, st.mapping[keys].args)
    ensures r.state.mapping == st.mapping
  {
    if keys !in st.mapping then Outcome(false, st, [])
    else if IsRepeat(st, keys, time) then Outcome(false, st, [])
    else
      var kb := st.mapping[keys];
      Outcome(true, st.(lastTime := time, lastKeys := keys), ExecuteCommand(reg, kb.command, kb.args))
  }

  /** The same press delivered twice (by the main window and by the editor) runs its command
      once: the second delivery, less than 150 ms later, is refused. */
  lemma DoubleDeliveryRunsOnce(st: KeyState, reg: Registry, keys: string, t1: int, t2: int)
    requires keys in st.mapping && !IsRepeat(st, keys, t1)
    requires t2 - t1 < RepeatWindow
    ensures var first := ProcessKeys(st, reg, keys, t1);
            var second := ProcessKeys(first.state, reg, keys, t2);
            first.handled && !second.handled && second.calls == [] && second.state == first.state
  {
  }

  /** A different combination is never suppressed by the last one. */
  lemma OtherKeysNotSuppressed(st: KeyState, reg: Registry, keys: string, time: int)
    requires keys in st.mapping && keys != st.lastKeys
    ensures ProcessKeys(st, reg, keys, time).handled
  {
  }

  /** Entries of a key map that bind `keys`. */
  predicate Binds(bs: seq<Binding>, i: int, keys: string) {
    0 <= i < |bs| && bs[i].keys == keys
  }

  /** The mapping of a combination, if it has one. */
  function Find(mapping: map<string, Binding>, keys: string): Option<Binding> {
    if keys in mapping then Some(mapping[keys]) else None
  }

  /** The last entry of the list that binds `keys`. */
  function LastFor(bs: seq<Binding>, keys: string): (r: Option<Binding>)
    ensures r.None? ==> forall i :: !Binds(bs, i, keys)
    ensures (forall i :: !Binds(bs, i, keys)) ==> r.None?
    ensures r.Some? ==> exists i :: Binds(bs, i, keys) && r.value == bs[i] &&
                                    forall j :: i < j < |bs| ==> !Binds(bs, j, keys)
    decreases |bs|
  {
    if |bs| == 0 then None
    else if bs[|bs| - 1].keys == keys then
      assert Binds(bs, |bs| - 1, keys);
      Some(bs[|bs| - 1])
    else
      var front := bs[..|bs| - 1];
      FrontBinds(bs, front);
      assert !Binds(bs, |bs| - 1, keys);
      LastFor(front, keys)
  }

  /** The entries of a key map without its last entry bind what they bound in it. */
  lemma FrontBinds(bs: seq<Binding>, front: seq<Binding>)
    requires |bs| > 0 && front == bs[..|bs| - 1]
    ensures forall j, k :: 0 <= j < |front| ==> (Binds(front, j, k) <==> Binds(bs, j, k))
    ensures forall j, k :: Binds(front, j, k) ==> Binds(bs, j, k)
  {
  }

  /** loadMap: each entry is stored under its combination, in order, so a combination ends
      up with the last entry that binds it; combinations the list does not mention keep
      their mapping. */
  function LoadMap(mapping: map<string, Binding>, bs: seq<Binding>): (r: map<string, Binding>)
    ensures forall k :: Find(r, k) == if LastFor(bs, k).Some? then LastFor(bs, k) else Find(mapping, k)
    decreases |bs|
  {
    if |bs| == 0 then mapping
    else
      var last := bs[|bs| - 1];
      LoadMap(mapping, bs[..|bs| - 1])[last.keys := last]
  }

  /** Loading the same key map twice gives what loading it once gives. */
  lemma LoadMapTwice(mapping: map<string, Binding>, bs: seq<Binding>)
    ensures LoadMap(LoadMap(mapping, bs), bs) == LoadMap(mapping, bs)
  {
    var once := LoadMap(mapping, bs);
    var twice := LoadMap(once, bs);
    assert forall k :: Find(twice, k) == Find(once, k);
    assert forall k :: k in twice <==> Find(twice, k).Some?;
    assert forall k :: k in once <==> Find(once, k).Some?;
  }

  /** Loading a key map after another keeps what the first bound unless the second rebinds
      it. */
  lemma LoadMapKeepsEarlier(mapping: map<string, Binding>, first: seq<Binding>, second: seq<Binding>, keys: string)
    requires keys in LoadMap(mapping, first)
    requires forall i :: !Binds(second, i, keys)
    ensures keys in LoadMap(LoadMap(mapping, first), second)
    ensures LoadMap(LoadMap(mapping, first), second)[keys] == LoadMap(mapping, first)[keys]
  {
    assert Find(LoadMap(LoadMap(mapping, first), second), keys) == Find(LoadMap(mapping, first), keys);
  }
}

=== FILE: legacyeditor.dfy ===
/** Bracket matching, folding and the scope query of the older editor (editor.cpp). It
    reads the same per-line records, but matches from the whole residue of the folding
    line and is 1-based in its fold toggle. */
module LegacyEditor {
  import opened Base
  import opened LineData
  import opened Highlighter
  import opened Folding

  /** isFoldable: the line has a record whose last residual bracket opens. */
  predicate IsFoldable(doc: Document, line: nat) {
    line < |doc| && doc[line].rec.Some? && |doc[line].rec.value.brackets| > 0
    && doc[line].rec.value.brackets[|doc[line].rec.value.brackets| - 1].open
  }

  /** A residue left by the in-line pairing (closes only at the bottom) ends in an open
      exactly when it holds any open: a line is foldable exactly when some bracket on it is
      left unclosed. */
  lemma FoldableIffOpenLeft(doc: Document, line: nat)
    requires line < |doc| && doc[line].rec.Some? && ClosesAtBottom(doc[line].rec.value.brackets)
    ensures IsFoldable(doc, line) <==> OpenCount(doc[line].rec.value.brackets) > 0
  {
  }

  /** After a highlight pass that did its work, the line is foldable exactly when its
      residue holds an open bracket. */
  lemma PassFoldableIffOpenLeft(h: Config, doc: Document, i: nat)
    requires i < |doc| && (Ready(h) ==> PrevStateKnown(doc, i)) && TokensNonEmpty(h.lang)
    requires Proceeds(h, doc, i)
    ensures var d := HighlightBlock(h, doc, i).doc;
            IsFoldable(d, i) <==> OpenCount(d[i].rec.value.brackets) > 0
  {
    FoldableIffOpenLeft(HighlightBlock(h, doc, i).doc, i);
  }

  /** findBracketMatch: the line where the stack seeded with the folding line's whole
      residue empties. A null record on the folding line is dereferenced; a later line
      without a record is skipped without advancing, so the loop never ends. */
  function FindBracketMatch(doc: Document, line: nat): (r: Checked<Option<nat>>)
    ensures line >= |doc| ==> r == Ok(None)
    ensures line < |doc| && doc[line].rec.None? ==> r.Undefined?
    ensures r.Ok? && r.value.Some? ==>
              line < r.value.value < |doc| && forall j :: line <= j <= r.value.value ==> doc[j].rec.Some?
    ensures r.Undefined? ==> line < |doc| && (doc[line].rec.None? || ReachesGap(doc, line + 1))
  {
    if line >= |doc| then Ok(None)
    else if doc[line].rec.None? then Undefined
    else
      var seed := doc[line].rec.value.brackets;
      if |seed| == 0 then Ok(None)
      else
        var toks := ForwardTokens(doc, line + 1);
        var m := Scan(toks, None, true, seed);
        if m.Undefined? then Undefined
        else match m.value
          case Found(l, _) =>
            var k :| 0 <= k < |toks| && toks[k].line == l;
            ForwardTokensHaveRecords(doc, line + 1, k);
            Ok(Some(l))
          case Mismatch => Ok(None)
          case Exhausted => if ReachesGap(doc, line + 1) then Undefined else Ok(None)
  }

  /** With one pair id and a residue of opens only, the older match never fails on a
      mismatch: it ends where the nesting depth over the following lines returns to zero,
      and the search never reaches a bracket it cannot pair. */
  lemma LegacyMatchIsDepthMatch(doc: Document, line: nat)
    requires line < |doc| && doc[line].rec.Some? && |doc[line].rec.value.brackets| > 0
    requires Pushed(doc[line].rec.value.brackets, true)
    requires TokensSameId(ForwardTokens(doc, line + 1))
    ensures var d := DepthScan(ForwardTokens(doc, line + 1), None, true, |doc[line].rec.value.brackets|);
            && d.Ok?
            && (d.value.Found? ==> FindBracketMatch(doc, line) == Ok(Some(d.value.line)))
            && (d.value.Exhausted? ==> FindBracketMatch(doc, line) == if ReachesGap(doc, line + 1) then Undefined else Ok(None))
  {
    var seed := doc[line].rec.value.brackets;
    ScanMatchesDepth(ForwardTokens(doc, line + 1), None, true, seed);
    DepthScanDefinedFromOpenStack(ForwardTokens(doc, line + 1), None, true, |seed|);
  }

  /** A depth scan that starts with something open never meets a close with nothing open:
      it stops at depth one instead. */
  lemma {:induction false} DepthScanDefinedFromOpenStack(toks: seq<Token>, anchor: Option<Bracket>, forward: bool, depth: nat)
    requires depth > 0
    ensures DepthScan(toks, anchor, forward, depth).Ok?
    ensures DepthScan(toks, anchor, forward, depth) != Ok(Mismatch)
    decreases |toks|
  {
    if |toks| > 0 {
      var b := toks[0].bracket;
      if Skipped(b, anchor, forward) {
        DepthScanDefinedFromOpenStack(toks[1..], anchor, forward, depth);
      } else if b.open == forward {
        DepthScanDefinedFromOpenStack(toks[1..], anchor, forward, depth + 1);
      } else if depth > 1 {
        DepthScanDefinedFromOpenStack(toks[1..], anchor, forward, depth - 1);
      }
    }
  }

  /** Editor::toggleFold(line), 1-based: the folding line is `line - 1` and the first line
      affected is `line`. The match is looked up before anything else. */
  function ToggleFold(doc: Document, line: nat): (r: Checked<Document>)
    ensures line == 0 || line > |doc| ==> r == Ok(doc)
    ensures r.Undefined? <==> 1 <= line <= |doc| && FindBracketMatch(doc, line - 1).Undefined?
    ensures 1 <= line <= |doc| && FindBracketMatch(doc, line - 1) == Ok(None) ==> r == Ok(doc)
    ensures 1 <= line < |doc| && doc[line].rec.None? && FindBracketMatch(doc, line - 1).Ok? ==> r == Ok(doc)
    ensures 1 <= line < |doc| && doc[line].rec.Some? && FindBracketMatch(doc, line - 1).Ok?
            && FindBracketMatch(doc, line - 1).value.Some? ==>
              r == ToggleAt(doc, line - 1, FindBracketMatch(doc, line - 1).value.value)
  {
    if line == 0 || line > |doc| then Ok(doc)
    else
      var end := FindBracketMatch(doc, line - 1);
      if end.Undefined? then Undefined
      else if end.value.None? || line >= |doc| || doc[line].rec.None? then Ok(doc)
      else ToggleAt(doc, line - 1, end.value.value)
  }

  /** The fold loop never dereferences a missing record: when a match exists every line up
      to it has one, so the toggle is defined whenever the match is. */
  lemma ToggleDefinedWhenMatchIs(doc: Document, line: nat)
    requires 1 <= line < |doc| && FindBracketMatch(doc, line - 1).Ok?
    ensures ToggleFold(doc, line).Ok?
  {
  }

  /** Folding twice with the same brackets gives the document back when the range agreed
      with the folding line's flag beforehand. */
  lemma ToggleTwiceRestores(doc: Document, line: nat)
    requires 1 <= line < |doc| && doc[line].rec.Some?
    requires FindBracketMatch(doc, line - 1).Ok? && FindBracketMatch(doc, line - 1).value.Some?
    requires forall j :: line <= j <= FindBracketMatch(doc, line - 1).value.value ==>
               doc[j] == FoldLine(doc[j], doc[line - 1].rec.value.folded)
    ensures ToggleFold(doc, line).Ok? && ToggleFold(ToggleFold(doc, line).value, line) == Ok(doc)
  {
    var a := line - 1;
    var last := FindBracketMatch(doc, a).value.value;
    ToggleAtTwice(doc, a, last);
    var d1 := ToggleFold(doc, line).value;
    ToggleAtKeepsBrackets(doc, a, last);
    SameBracketsSameForward(doc, d1, a + 1);
    assert FindBracketMatch(d1, a) == FindBracketMatch(doc, a);
  }

  /** The older highlighter never writes a record's scope map, so a line it has passed over
      keeps the empty map of a fresh record and scopesAtCursor yields one empty scope. */
  lemma ScopesAlwaysEmptyAfterPass(h: Config, doc: Document, i: nat, column: nat)
    requires i < |doc| && (Ready(h) ==> PrevStateKnown(doc, i)) && TokensNonEmpty(h.lang)
    requires Proceeds(h, doc, i)
    requires doc[i].rec.None? || doc[i].rec.value.scopes == []
    ensures ScopesAtCursor(HighlightBlock(h, doc, i).doc, i, column) == [""]
  {
    var d := HighlightBlock(h, doc, i).doc;
    assert d[i].rec.value.scopes == [];
    assert ScopeAt(d[i].rec.value.scopes, column) == "";
  }
}

=== FILE: linedata.dfy ===
/** The per-line side table the highlighter keeps (HighlightBlockData) and the document it
    hangs off. A QTextDocument is a sequence of blocks; each block carries its text, the
    integer block state QSyntaxHighlighter keeps, the character formats the last highlight
    pass produced, an optional side record, and its visibility/line count. */
module LineData {
  import opened Base

  datatype Color = Color(red: int, green: int, blue: int)

  /** A theme style; `foreground == None` is a blank foreground colour. */
  datatype Style = Style(foreground: Option<Color>, bold: bool, italic: bool,
                         underline: bool, strikethrough: bool)

  /** The SCOPE_PROPERTY_ID tag a character format carries. */
  datatype ScopeKind = Unset | StringScope | CommentScope | OtherScope

  /** A character format set by the highlighter, or the default format. */
  datatype CharFormat = Plain | Styled(kind: ScopeKind, style: Style)

  /** A minimap run: `length` characters from `start` drawn in `color`. */
  datatype Span = Span(start: nat, length: nat, color: Color)

  /** bracket_info_t: the line it was recorded on, its column, the index of its bracket
      pair in the language configuration, and whether it opens. */
  datatype Bracket = Bracket(line: nat, position: nat, id: nat, open: bool)

  /** The grammar engine's parser state: a stack of rule ids, top last. */
  datatype ParserState = ParserState(rules: seq<nat>) {
    /** parser_state->rule->rule_id, absent when the stack has no rule. */
    function TopRule(): Option<nat> {
      if |rules| == 0 then None else Some(rules[|rules| - 1])
    }
  }

  /** An entry of the scope map: a scope path (as to_s renders it) starting at `offset`. */
  datatype ScopeEntry = ScopeEntry(offset: nat, name: string)

  predicate SortedScopes(s: seq<ScopeEntry>) {
    forall i, j :: 0 <= i < j < |s| ==> s[i].offset < s[j].offset
  }

  /** std::map<size_t, scope_t>, iterated in key order. */
  type ScopeMap = s: seq<ScopeEntry> | SortedScopes(s) witness []

  /** HighlightBlockData. `endState == None` is the null parser_state of a freshly
      created record. `foldingBrackets` is written only by the newer highlighter. */
  datatype Record = Record(
    endState: Option<ParserState>,
    scopes: ScopeMap,
    spans: seq<Span>,
    brackets: seq<Bracket>,
    foldingBrackets: seq<Bracket>,
    dirty: bool,
    folded: bool,
    lastPrevRule: nat)

  /** `new HighlightBlockData`: nothing analysed, dirty/folded false, rule 0. */
  const BlankRecord: Record := Record(None, [], [], [], [], false, false, 0)

  /** A QTextBlock: `userState` is -1 until a highlight pass sets it. */
  datatype Line = Line(
    text: string,
    userState: int,
    formats: seq<CharFormat>,
    rec: Option<Record>,
    visible: bool,
    lineCount: nat)

  type Document = seq<Line>

  /** The format of every character of a block nobody has highlighted. */
  function PlainFormats(n: nat): (r: seq<CharFormat>)
    ensures |r| == n && forall k :: 0 <= k < n ==> r[k] == Plain
  {
    seq(n, _ => Plain)
  }

  /** A block as QPlainTextEdit::setPlainText creates it: no state, no record. */
  function FreshLine(text: string): Line {
    Line(text, -1, PlainFormats(|text|), None, true, 1)
  }

  /** The document setPlainText builds from the lines of a file. */
  function FreshDocument(lines: seq<string>): (d: Document)
    ensures |d| == |lines|
    ensures forall k :: 0 <= k < |lines| ==> d[k].text == lines[k] && d[k].rec.None?
  {
    seq(|lines|, k requires 0 <= k < |lines| => FreshLine(lines[k]))
  }

  /** The scope path in force at `column`: the entry with the greatest offset not beyond
      the column, or the empty scope when no entry starts at or before it. */
  function ScopeAt(scopes: ScopeMap, column: nat): (r: string)
    ensures (|scopes| == 0 || scopes[0].offset > column) ==> r == ""
  {
    if |scopes| == 0 || scopes[0].offset > column then ""
    else
      var rest: ScopeMap := scopes[1..];
      if |rest| == 0 || rest[0].offset > column then scopes[0].name
      else ScopeAt(rest, column)
  }

  /** Every record in the document carries a parser state. */
  predicate StatesKnown(doc: Document) {
    forall k :: 0 <= k < |doc| && doc[k].rec.Some? ==> doc[k].rec.value.endState.Some?
  }

  /** The entry ScopeAt picks is the one with the greatest offset not beyond the column. */
  lemma {:induction false} ScopeAtPicksLastEntryNotAfter(scopes: ScopeMap, column: nat, k: nat)
    requires k < |scopes| && scopes[k].offset <= column
    requires k + 1 == |scopes| || scopes[k + 1].offset > column
    ensures ScopeAt(scopes, column) == scopes[k].name
    decreases k
  {
    var rest: ScopeMap := scopes[1..];
    if k == 0 {
    } else {
      assert scopes[0].offset < scopes[k].offset;
      assert rest[0] == scopes[1] && rest[0].offset <= scopes[k].offset;
      ScopeAtPicksLastEntryNotAfter(rest, column, k - 1);
    }
  }
}

=== FILE: scheduler.dfy ===
/** When lines get highlighted: QSyntaxHighlighter's rehighlightBlock (which carries on
    into the next line while the block state keeps changing), the highlighter's timer tick
    Highlighter::onUpdate (highlighter.cpp), the editor's warm-up Editor::highlightBlocks and
    Editor::openFile (editor.cpp, src/editor.cpp). Timers are explicit: a tick is one call,
    and "schedule another tick" is a result flag. */
module Scheduler {
  import opened Base
  import opened LineData
  import opened Highlighter

  /** At most this many lines are highlighted per tick. */
  const LinesPerTick: nat := 200

  /** Files larger than this many bytes are highlighted in the background after loading. */
  const DeferThreshold: nat := 16 * 1024

  /** QSyntaxHighlighter::rehighlightBlock: highlight line `i`, then keep going to the next
      line for as long as a pass changes its line's block state. */
  function Rehighlight(h: Config, doc: Document, i: nat): (r: PassResult)
    requires i < |doc| && TokensNonEmpty(h.lang)
    requires Ready(h) ==> StatesKnownExcept(doc, i)
    ensures |r.doc| == |doc|
    ensures Ready(h) ==> Clean(r.doc[i])
    ensures forall k :: 0 <= k < i ==> r.doc[k] == doc[k]
    ensures forall k :: 0 <= k < |doc| ==> r.doc[k].text == doc[k].text && (doc[k].rec.Some? ==> r.doc[k].rec.Some?)
    ensures Ready(h) ==> StatesKnown(r.doc)
    decreases |doc| - i
  {
    var p := HighlightBlock(h, doc, i);
    HighlightBlockKeeps(h, doc, i);
    assert Ready(h) ==> StatesKnown(p.doc) by {
      if Ready(h) {
        HighlightBlockStatesKnown(h, doc, i);
      }
    }
    assert Ready(h) ==> Clean(p.doc[i]) by {
      if Ready(h) {
        PassLineClean(h, doc, i);
      }
    }
    if p.doc[i].userState != doc[i].userState && i + 1 < |doc| then
      var q := Rehighlight(h, p.doc, i + 1);
      PassResult(q.doc, p.markedDirty || q.markedDirty)
    else p
  }

  /** The line rehighlightBlock starts from is left as one pass over it leaves it. */
  lemma RehighlightFirstLine(h: Config, doc: Document, i: nat)
    requires i < |doc| && TokensNonEmpty(h.lang)
    requires Ready(h) ==> StatesKnownExcept(doc, i)
    ensures Rehighlight(h, doc, i).doc[i] == PassLine(h, doc, i)
  {
    var p := HighlightBlock(h, doc, i);
    if p.doc[i].userState != doc[i].userState && i + 1 < |doc| {
      HighlightBlockStatesKnown(h, doc, i);
      assert Rehighlight(h, p.doc, i + 1).doc[i] == p.doc[i];
    }
  }

  /** The highlighter's update iterator and its hasDirtyBlocks flag. `cursor == None` is an
      invalid iterator (the next tick starts from the first line). */
  datatype UpdateState = UpdateState(hasDirty: bool, cursor: Option<nat>)

  datatype Scan = Scan(doc: Document, cursor: Option<nat>, rendered: nat)

  /** Where a scan ends: at its stop position, or past the last line. */
  function EndOf(s: Scan): nat {
    if s.cursor.Some? then s.cursor.value else |s.doc|
  }

  /** A line that has a record and is not marked for another pass. */
  predicate Clean(l: Line) {
    l.rec.Some? ==> !l.rec.value.dirty
  }

  /** The loop of onUpdate from line `pos`, `rendered` passes already made: every dirty line
      is highlighted again, until 200 passes or the end of the document. */
  function UpdateScan(h: Config, doc: Document, pos: nat, rendered: nat): (r: Scan)
    requires rendered <= LinesPerTick && TokensNonEmpty(h.lang)
    requires Ready(h) ==> StatesKnown(doc)
    ensures |r.doc| == |doc| && rendered <= r.rendered <= LinesPerTick
    ensures r.cursor.Some? ==> pos <= r.cursor.value < |doc| && r.rendered == LinesPerTick
    ensures r.cursor.None? ==> pos <= |doc| || r.doc == doc
    ensures forall k :: 0 <= k < pos && k < |doc| ==> r.doc[k] == doc[k]
    ensures forall k :: 0 <= k < |doc| ==> r.doc[k].text == doc[k].text && (doc[k].rec.Some? ==> r.doc[k].rec.Some?)
    ensures Ready(h) ==> StatesKnown(r.doc)
    ensures Ready(h) ==> forall k :: pos <= k < EndOf(r) ==> Clean(r.doc[k])
    ensures r.rendered == rendered ==> r.doc == doc
    decreases |doc| - pos
  {
    if pos >= |doc| then Scan(doc, None, rendered)
    else if rendered >= LinesPerTick then Scan(doc, Some(pos), rendered)
    else
      var dirty := doc[pos].rec.Some? && doc[pos].rec.value.dirty;
      var p := if dirty then Rehighlight(h, doc, pos) else PassResult(doc, false);
      var r := UpdateScan(h, p.doc, pos + 1, if dirty then rendered + 1 else rendered);
      UpdateStepComposes(doc, p.doc, r.doc, pos, EndOf(r), Ready(h));
      r
  }

  /** One step of the update loop followed by the rest of the loop: what the step keeps and
      what the rest keeps, the rest keeps of the original, and the line the step cleaned
      joins the clean lines after it. */
  lemma UpdateStepComposes(doc: Document, mid: Document, out: Document, pos: nat, end: nat, ready: bool)
    requires pos < |doc| && |mid| == |doc| && |out| == |doc| && end <= |doc|
    requires forall k :: 0 <= k < pos ==> mid[k] == doc[k]
    requires forall k :: 0 <= k < |doc| ==> mid[k].text == doc[k].text && (doc[k].rec.Some? ==> mid[k].rec.Some?)
    requires forall k :: 0 <= k < pos + 1 && k < |mid| ==> out[k] == mid[k]
    requires forall k :: 0 <= k < |mid| ==> out[k].text == mid[k].text && (mid[k].rec.Some? ==> out[k].rec.Some?)
    requires ready ==> Clean(mid[pos]) && forall k :: pos + 1 <= k < end ==> Clean(out[k])
    ensures forall k :: 0 <= k < pos && k < |doc| ==> out[k] == doc[k]
    ensures forall k :: 0 <= k < |doc| ==> out[k].text == doc[k].text && (doc[k].rec.Some? ==> out[k].rec.Some?)
    ensures ready ==> forall k :: pos <= k < end ==> Clean(out[k])
  {
  }

  /** A pass that proceeds leaves its line clean. */
  lemma PassLineClean(h: Config, doc: Document, i: nat)
    requires i < |doc| && TokensNonEmpty(h.lang) && Ready(h) && StatesKnownExcept(doc, i)
    ensures Clean(PassLine(h, doc, i))
  {
  }

  datatype Tick = Tick(doc: Document, state: UpdateState, rendered: nat)

  /** Highlighter::onUpdate. */
  function OnUpdate(h: Config, doc: Document, s: UpdateState): (r: Tick)
    requires TokensNonEmpty(h.lang)
    requires Ready(h) ==> StatesKnown(doc)
    ensures !s.hasDirty ==> r == Tick(doc, s, 0)
    ensures r.rendered <= LinesPerTick && |r.doc| == |doc|
    ensures r.state.hasDirty <==> s.hasDirty && r.rendered > 0
    ensures s.hasDirty && r.rendered < LinesPerTick ==> r.state.cursor.None?
    ensures forall k :: 0 <= k < |doc| ==> r.doc[k].text == doc[k].text && (doc[k].rec.Some? ==> r.doc[k].rec.Some?)
    ensures Ready(h) ==> StatesKnown(r.doc)
    ensures r.rendered == 0 ==> r.doc == doc
  {
    if !s.hasDirty then Tick(doc, s, 0)
    else
      var start := if s.cursor.Some? && s.cursor.value < |doc| then s.cursor.value else 0;
      var sc := UpdateScan(h, doc, start, 0);
      Tick(sc.doc, UpdateState(sc.rendered > 0, sc.cursor), sc.rendered)
  }

  /** A tick that starts from the first line and finds nothing dirty leaves every line of
      the document clean. */
  lemma QuietTickMeansAllClean(h: Config, doc: Document, s: UpdateState)
    requires TokensNonEmpty(h.lang) && Ready(h) && StatesKnown(doc)
    requires s.hasDirty && (s.cursor.None? || s.cursor == Some(0))
    requires OnUpdate(h, doc, s).rendered == 0
    ensures forall k :: 0 <= k < |doc| ==> Clean(doc[k])
    ensures !OnUpdate(h, doc, s).state.hasDirty
  {
    var sc := UpdateScan(h, doc, 0, 0);
    assert sc.cursor.None?;
  }

  // ---------------------------------------------------------------- warm-up

  datatype WarmUp = WarmUp(doc: Document, cursor: Option<nat>, created: nat)

  /** The loop of Editor::highlightBlocks from line `pos`: each line without a record gets a
      fresh one and a pass, until 200 records or the end of the document. */
  function WarmUpScan(h: Config, doc: Document, pos: nat, created: nat): (r: WarmUp)
    requires created <= LinesPerTick && TokensNonEmpty(h.lang)
    requires Ready(h) ==> StatesKnown(doc)
    ensures |r.doc| == |doc| && created <= r.created <= LinesPerTick
    ensures r.cursor.Some? ==> pos <= r.cursor.value < |doc| && r.created == LinesPerTick
    ensures forall k :: 0 <= k < pos && k < |doc| ==> r.doc[k] == doc[k]
    ensures forall k :: 0 <= k < |doc| ==> r.doc[k].text == doc[k].text && (doc[k].rec.Some? ==> r.doc[k].rec.Some?)
    ensures forall k :: pos <= k < (if r.cursor.Some? then r.cursor.value else |doc|) ==> r.doc[k].rec.Some?
    ensures Ready(h) ==> StatesKnown(r.doc)
    ensures r.created == created ==> r.doc == doc
    ensures r.created == created < LinesPerTick ==> forall k :: pos <= k < |doc| ==> doc[k].rec.Some?
    decreases |doc| - pos
  {
    if pos >= |doc| then WarmUp(doc, None, created)
    else if created >= LinesPerTick then WarmUp(doc, Some(pos), created)
    else if doc[pos].rec.None? then
      var d1 := doc[pos := doc[pos].(rec := Some(BlankRecord))];
      var p := Rehighlight(h, d1, pos);
      var r := WarmUpScan(h, p.doc, pos + 1, created + 1);
      WarmUpStepComposes(doc, d1, p.doc, r.doc, pos, if r.cursor.Some? then r.cursor.value else |doc|);
      r
    else WarmUpScan(h, doc, pos + 1, created)
  }

  /** One step of the warm-up loop (a blank record, then a pass) followed by the rest of the
      loop: what both keep, the rest keeps of the original, and the line that got its
      record joins the lines with records after it. */
  lemma WarmUpStepComposes(doc: Document, d1: Document, mid: Document, out: Document, pos: nat, end: nat)
    requires pos < |doc| && d1 == doc[pos := doc[pos].(rec := Some(BlankRecord))]
    requires |mid| == |doc| && |out| == |doc| && end <= |doc|
    requires forall k :: 0 <= k < pos ==> mid[k] == d1[k]
    requires forall k :: 0 <= k < |d1| ==> mid[k].text == d1[k].text && (d1[k].rec.Some? ==> mid[k].rec.Some?)
    requires forall k :: 0 <= k < pos + 1 && k < |mid| ==> out[k] == mid[k]
    requires forall k :: 0 <= k < |mid| ==> out[k].text == mid[k].text && (mid[k].rec.Some? ==> out[k].rec.Some?)
    requires forall k :: pos + 1 <= k < end ==> out[k].rec.Some?
    ensures forall k :: 0 <= k < pos && k < |doc| ==> out[k] == doc[k]
    ensures forall k :: 0 <= k < |doc| ==> out[k].text == doc[k].text && (doc[k].rec.Some? ==> out[k].rec.Some?)
    ensures forall k :: pos <= k < end ==> out[k].rec.Some?
  {
    assert d1[pos].rec.Some?;
  }

  datatype WarmUpTick = WarmUpTick(doc: Document, cursor: Option<nat>, created: nat,
                                   deferRendering: bool, again: bool)

  /** Editor::highlightBlocks: one tick of the warm-up. Another tick is scheduled exactly
      when this one created a record; otherwise deferred rendering is switched off. */
  function HighlightBlocks(h: Config, doc: Document, cursor: Option<nat>): (r: WarmUpTick)
    requires TokensNonEmpty(h.lang)
    requires Ready(h) ==> StatesKnown(doc)
    ensures r.created <= LinesPerTick && |r.doc| == |doc|
    ensures r.again <==> r.created > 0
    ensures r.deferRendering == (h.deferRendering && r.again)
    ensures forall k :: 0 <= k < |doc| ==> r.doc[k].text == doc[k].text && (doc[k].rec.Some? ==> r.doc[k].rec.Some?)
    ensures Ready(h) ==> StatesKnown(r.doc)
    ensures (cursor.None? || cursor == Some(0)) && !r.again ==> forall k :: 0 <= k < |doc| ==> doc[k].rec.Some?
  {
    var start := if cursor.Some? && cursor.value < |doc| then cursor.value else 0;
    var w := WarmUpScan(h, doc, start, 0);
    WarmUpTick(w.doc, w.cursor, w.created, h.deferRendering && w.created > 0, w.created > 0)
  }

  // ---------------------------------------------------------------- opening a file

  /** QSyntaxHighlighter's response to setPlainText: every line from `i` on, in order. */
  function HighlightAll(h: Config, doc: Document, i: nat): (r: PassResult)
    requires i <= |doc| && TokensNonEmpty(h.lang)
    requires Ready(h) ==> StatesKnown(doc)
    ensures |r.doc| == |doc|
    ensures forall k :: 0 <= k < i ==> r.doc[k] == doc[k]
    ensures forall k :: 0 <= k < |doc| ==> r.doc[k].text == doc[k].text
    ensures Ready(h) ==> StatesKnown(r.doc)
    ensures Fresh(h, doc, i) ==>
              !r.markedDirty && forall k :: i <= k < |doc| ==> r.doc[k].rec.Some? && !r.doc[k].rec.value.dirty
    decreases |doc| - i
  {
    if i == |doc| then PassResult(doc, false)
    else
      var p := HighlightBlock(h, doc, i);
      HighlightBlockKeeps(h, doc, i);
      assert Ready(h) ==> StatesKnown(p.doc) by {
        if Ready(h) {
          HighlightBlockStatesKnown(h, doc, i);
        }
      }
      assert Fresh(h, doc, i) ==> !p.markedDirty && p.doc[i].rec.Some? && !p.doc[i].rec.value.dirty && Fresh(h, p.doc, i + 1) by {
        if Fresh(h, doc, i) {
          FreshLinePass(h, doc, i);
        }
      }
      var q := HighlightAll(h, p.doc, i + 1);
      PassResult(q.doc, p.markedDirty || q.markedDirty)
  }

  /** Rendering is not deferred and no line from `i` on has a record yet. */
  predicate Fresh(h: Config, doc: Document, i: nat) {
    Ready(h) && !h.deferRendering && forall k :: i <= k < |doc| ==> doc[k].rec.None?
  }

  /** One pass over a line without a record, rendering not deferred, on a document whose
      later lines have no record either: the line gets a clean record, nothing is marked,
      and the lines after it are untouched. */
  lemma FreshLinePass(h: Config, doc: Document, i: nat)
    requires i < |doc| && TokensNonEmpty(h.lang) && Ready(h) && !h.deferRendering && StatesKnown(doc)
    requires forall k :: i <= k < |doc| ==> doc[k].rec.None?
    ensures var p := HighlightBlock(h, doc, i);
            && !p.markedDirty && p.doc[i].rec.Some? && !p.doc[i].rec.value.dirty
            && (forall k :: i < k < |doc| ==> p.doc[k].rec.None?)
            && StatesKnown(p.doc)
  {
    var p := HighlightBlock(h, doc, i);
    assert Proceeds(h, doc, i);
    HighlightBlockStatesKnown(h, doc, i);
  }

  datatype Opened = Opened(doc: Document, deferRendering: bool, hasDirty: bool,
                           warmCursor: Option<nat>, again: bool)

  /** Editor::openFile after the file was read: a file over 16 KiB is loaded with rendering
      deferred and the warm-up's first tick; a smaller one is highlighted in full at once. */
  function OpenFile(h: Config, lines: seq<string>, size: nat, hasDirty: bool): (r: Opened)
    requires TokensNonEmpty(h.lang)
    ensures |r.doc| == |lines| && forall k :: 0 <= k < |lines| ==> r.doc[k].text == lines[k]
    ensures size > DeferThreshold ==> r.deferRendering == r.again
    ensures size <= DeferThreshold ==> !r.deferRendering && !r.again
    ensures Ready(h) ==> StatesKnown(r.doc)
    ensures size <= DeferThreshold && Ready(h) ==>
              r.hasDirty == hasDirty
              && forall k :: 0 <= k < |lines| ==> r.doc[k].rec.Some? && !r.doc[k].rec.value.dirty
  {
    var doc := FreshDocument(lines);
    assert StatesKnown(doc);
    if size > DeferThreshold then
      var hd := h.(deferRendering := true);
      var loaded := HighlightAll(hd, doc, 0);
      var w := HighlightBlocks(hd, loaded.doc, None);
      Opened(w.doc, w.deferRendering, hasDirty || loaded.markedDirty, w.cursor, w.again)
    else
      var hn := h.(deferRendering := false);
      assert Ready(h) ==> Fresh(hn, doc, 0);
      var loaded := HighlightAll(hn, doc, 0);
      Opened(loaded.doc, false, hasDirty || loaded.markedDirty, None, false)
  }
}

=== FILE: stylesheet.dfy ===
/** The style-sheet normaliser of the script layer (js/lib/stylesheet.js): React-Native style
    objects, written with camelCase keys, become CSS-like property maps with dashed keys.
    A style object is the list of its entries in key order (Object.keys); a property value
    is a JSON value or `undefined`. */
module StyleSheet {
  import opened Base
  import opened JsonValue

  // ---------------------------------------------------------------- camelToDash

  predicate IsLower(c: char) {
    'a' <= c <= 'z'
  }

  function ToUpper(c: char): (r: char)
    ensures IsLower(c) ==> IsUpper(r)
  {
    if IsLower(c) then (c as int - 32) as char else c
  }

  predicate NoUpper(s: string) {
    forall i :: 0 <= i < |s| ==> !IsUpper(s[i])
  }

  /** The global replacement: every capital becomes a dash and its lower-case letter. */
  function DashCapitals(s: string): (r: string)
    ensures NoUpper(r)
    ensures NoUpper(s) ==> r == s
    ensures |r| >= |s|
    ensures |s| > 0 && !IsUpper(s[0]) ==> |r| > 0 && r[0] == s[0]
  {
    if |s| == 0 then s
    else if IsUpper(s[0]) then ['-', ToLower(s[0])] + DashCapitals(s[1..])
    else [s[0]] + DashCapitals(s[1..])
  }

  /** camelToDash: a capital at the start is lowered without a dash, then every other
      capital becomes a dash and its lower-case letter. */
  function CamelToDash(s: string): (r: string)
    ensures NoUpper(r)
    ensures NoUpper(s) ==> r == s
    ensures |s| > 0 ==> |r| > 0 && r[0] == ToLower(s[0])
  {
    if |s| > 0 && IsUpper(s[0]) then DashCapitals([ToLower(s[0])] + s[1..])
    else DashCapitals(s)
  }

  /** The reverse reading: a dash followed by a lower-case letter is that letter's capital. */
  function DashToCamel(s: string): string
    decreases |s|
  {
    if |s| == 0 then s
    else if |s| >= 2 && s[0] == '-' && IsLower(s[1]) then [ToUpper(s[1])] + DashToCamel(s[2..])
    else [s[0]] + DashToCamel(s[1..])
  }

  /** Dashing the capitals loses nothing when the key has no dash of its own. */
  lemma {:induction false} DashCapitalsRoundTrip(s: string)
    requires '-' !in s
    ensures DashToCamel(DashCapitals(s)) == s
    decreases |s|
  {
    if |s| > 0 {
      DashCapitalsRoundTrip(s[1..]);
      if IsUpper(s[0]) {
        var t := DashCapitals(s);
        assert t == ['-', ToLower(s[0])] + DashCapitals(s[1..]);
        assert t[2..] == DashCapitals(s[1..]);
      } else {
        var t := DashCapitals(s);
        assert t == [s[0]] + DashCapitals(s[1..]);
        assert t[1..] == DashCapitals(s[1..]);
      }
    }
  }

  /** A camelCase key without dashes that starts in lower case comes back from its dashed
      form. */
  lemma CamelToDashRoundTrip(s: string)
    requires '-' !in s && (|s| == 0 || !IsUpper(s[0]))
    ensures DashToCamel(CamelToDash(s)) == s
  {
    DashCapitalsRoundTrip(s);
  }

  /** Dashing is idempotent: a dashed key has no capitals left. */
  lemma CamelToDashIdempotent(s: string)
    ensures CamelToDash(CamelToDash(s)) == CamelToDash(s)
  {
  }

  // ---------------------------------------------------------------- distillStyle

  /** A JavaScript property value: `undefined` (Absent) or a JSON value. */
  datatype Value = Absent | Defined(json: Json)

  datatype StyleEntry = StyleEntry(key: string, value: Json)

  /** A style object: its entries in key order. */
  type Style = seq<StyleEntry>

  type Css = map<string, Value>

  /** `style[key]`. */
  function Lookup(style: Style, key: string): (r: Value)
    ensures r.Defined? <==> exists i :: 0 <= i < |style| && style[i].key == key
    decreases |style|
  {
    if |style| == 0 then Absent
    else if style[0].key == key then Defined(style[0].value)
    else
      var r := Lookup(style[1..], key);
      assert forall i :: 1 <= i < |style| ==> style[i] == style[1..][i - 1];
      r
  }

  /** Which value a plain property is written with: as written, the value stored under the
      DASHED key, which a camelCase key does not have; corrected, the entry's own value. */
  datatype Variant = AsWritten | Corrected

  /** What one entry writes into the result: the two sides for margin-horizontal and
      margin-vertical, background for background-color, and otherwise the dashed key. */
  function Writes(style: Style, e: StyleEntry, variant: Variant): Css {
    var k := CamelToDash(e.key);
    var v := Defined(e.value);
    if k == "margin-horizontal" then map["margin-left" := v, "margin-right" := v]
    else if k == "margin-vertical" then map["margin-top" := v, "margin-bottom" := v]
    else if k == "background-color" then map["background" := v]
    else map[k := if variant == AsWritten then Lookup(style, k) else v]
  }

  /** The cases of distillStyle's switch, entry by entry: margin-horizontal sets both
      horizontal margins and margin-vertical both vertical ones to the entry's value,
      background-color becomes background, and any other key is written under its dashed
      name, with the entry's value when corrected and the style's value under the dashed
      name as written. A key already in lower case is written as it is. */
  lemma WritesByKey(style: Style, e: StyleEntry, variant: Variant)
    ensures var w, k, v := Writes(style, e, variant), CamelToDash(e.key), Defined(e.value);
            && (k == "margin-horizontal" ==>
                  w.Keys == {"margin-left", "margin-right"} && w["margin-left"] == v && w["margin-right"] == v)
            && (k == "margin-vertical" ==>
                  w.Keys == {"margin-top", "margin-bottom"} && w["margin-top"] == v && w["margin-bottom"] == v)
            && (k == "background-color" ==> w.Keys == {"background"} && w["background"] == v)
            && (Plain(k) ==> w.Keys == {k})
            && (Plain(k) && variant == Corrected ==> w[k] == v)
            && (Plain(k) && variant == AsWritten ==> w[k] == Lookup(style, k))
            && (NoUpper(e.key) ==> k == e.key)
  {
  }

  /** The writes of every entry, in key order. */
  function EntryWrites(style: Style, variant: Variant): (ws: seq<Css>)
    ensures |ws| == |style|
    ensures forall i :: 0 <= i < |style| ==> ws[i] == Writes(style, style[i], variant)
  {
    seq(|style|, i requires 0 <= i < |style| => Writes(style, style[i], variant))
  }

  /** A key that is not one of the three special ones. */
  predicate Plain(k: string) {
    k !in {"margin-horizontal", "margin-vertical", "background-color"}
  }

  /** No write map holds one of the three special keys. */
  predicate AllPlain(ws: seq<Css>) {
    forall i, x :: 0 <= i < |ws| && x in ws[i] ==> Plain(x)
  }

  /** A key whose length is none of the special keys' lengths is plain. */
  lemma PlainByLength(x: string)
    requires |x| != 15 && |x| != 16 && |x| != 17
    ensures Plain(x)
  {
    assert |"margin-horizontal"| == 17 && |"margin-vertical"| == 15 && |"background-color"| == 16;
  }

  /** One entry never writes one of the three special keys. */
  lemma WritesPlain(style: Style, e: StyleEntry, variant: Variant)
    ensures forall x :: x in Writes(style, e, variant) ==> Plain(x)
  {
    var k := CamelToDash(e.key);
    if k == "margin-horizontal" {
      PlainByLength("margin-left");
      PlainByLength("margin-right");
    } else if k == "margin-vertical" {
      PlainByLength("margin-top");
      PlainByLength("margin-bottom");
    } else if k == "background-color" {
      PlainByLength("background");
    }
  }

  /** No entry ever writes one of the three special keys. */
  lemma WritesNeverSpecial(style: Style, variant: Variant)
    ensures AllPlain(EntryWrites(style, variant))
  {
    var ws := EntryWrites(style, variant);
    forall i | 0 <= i < |style|
      ensures forall x :: x in ws[i] ==> Plain(x)
    {
      WritesPlain(style, style[i], variant);
    }
  }

  /** `key`'s value in a result map, if it has one. */
  function FindCss(css: Css, key: string): Option<Value> {
    if key in css then Some(css[key]) else None
  }

  /** The value that the last of the first `n` write maps holding `x` gives it. */
  function LastIn(ws: seq<Css>, n: nat, x: string): (r: Option<Value>)
    requires n <= |ws|
    ensures r.None? <==> forall i :: 0 <= i < n ==> x !in ws[i]
    ensures r.Some? ==> exists i :: 0 <= i < n && x in ws[i] && r.value == ws[i][x] &&
                          forall j :: i < j < n ==> x !in ws[j]
  {
    if n == 0 then None
    else if x in ws[n - 1] then Some(ws[n - 1][x])
    else LastIn(ws, n - 1, x)
  }

  /** The write map that holds `x` last determines what `x` holds. */
  lemma {:induction false} LastInAt(ws: seq<Css>, n: nat, x: string, i: nat)
    requires i < n <= |ws| && x in ws[i]
    requires forall j :: i < j < n ==> x !in ws[j]
    ensures LastIn(ws, n, x) == Some(ws[i][x])
    decreases n
  {
    if n - 1 > i {
      assert x !in ws[n - 1];
      LastInAt(ws, n - 1, x, i);
    }
  }

  /** The first `n` write maps applied in turn, later ones overwriting earlier ones. */
  function Apply(ws: seq<Css>, n: nat): (r: Css)
    requires n <= |ws|
    ensures forall x :: FindCss(r, x) == LastIn(ws, n, x)
  {
    if n == 0 then map[] else Apply(ws, n - 1) + ws[n - 1]
  }

  /** Applying write maps that hold no special key gives a map without one. */
  lemma {:induction false} ApplyPlain(ws: seq<Css>, n: nat)
    requires n <= |ws| && AllPlain(ws)
    ensures forall x :: x in Apply(ws, n) ==> Plain(x)
  {
    if n > 0 {
      ApplyPlain(ws, n - 1);
    }
  }

  /** Result maps that agree on every key are equal. */
  lemma FindCssExt(a: Css, b: Css)
    requires forall x :: FindCss(a, x) == FindCss(b, x)
    ensures a == b
  {
    assert forall x :: x in a <==> FindCss(a, x).Some?;
    assert forall x :: x in b <==> FindCss(b, x).Some?;
  }

  /** distillStyle AS WRITTEN: a plain property is stored under its dashed key with the
      value `style[dashedKey]`, which is `undefined` for a camelCase key. Every key holds
      what the last entry writing it gave, and no special key is emitted. */
  function DistillStyleAsWritten(style: Style): (r: Css)
    ensures forall x :: FindCss(r, x) == LastIn(EntryWrites(style, AsWritten), |style|, x)
    ensures forall x :: x in r ==> Plain(x)
  {
    WritesNeverSpecial(style, AsWritten);
    ApplyPlain(EntryWrites(style, AsWritten), |style|);
    Apply(EntryWrites(style, AsWritten), |style|)
  }

  /** distillStyle, corrected: every property keeps its own value. margin-horizontal and
      margin-vertical become their two sides, background-color becomes background, every
      key holds what the last entry writing it gave, and no special key is emitted. */
  function DistillStyle(style: Style): (r: Css)
    ensures forall x :: FindCss(r, x) == LastIn(EntryWrites(style, Corrected), |style|, x)
    ensures forall x :: x in r ==> Plain(x)
  {
    WritesNeverSpecial(style, Corrected);
    ApplyPlain(EntryWrites(style, Corrected), |style|);
    Apply(EntryWrites(style, Corrected), |style|)
  }

  /** In the corrected version, a key holds what the last entry writing it wrote. */
  lemma LastWriteWins(style: Style, i: nat, x: string)
    requires i < |style| && x in Writes(style, style[i], Corrected)
    requires forall j :: i < j < |style| ==> x !in Writes(style, style[j], Corrected)
    ensures x in DistillStyle(style) && DistillStyle(style)[x] == Writes(style, style[i], Corrected)[x]
  {
    var ws := EntryWrites(style, Corrected);
    LastInAt(ws, |style|, x, i);
    assert FindCss(DistillStyle(style), x) == Some(ws[i][x]);
  }

  /** In the corrected version, a plain property that no later entry overwrites keeps its
      value under its dashed key. */
  lemma PlainEntryKeepsValue(style: Style, i: nat)
    requires i < |style| && Plain(CamelToDash(style[i].key))
    requires forall j :: i < j < |style| ==> CamelToDash(style[i].key) !in Writes(style, style[j], Corrected)
    ensures var k := CamelToDash(style[i].key);
            k in DistillStyle(style) && DistillStyle(style)[k] == Defined(style[i].value)
  {
    LastWriteWins(style, i, CamelToDash(style[i].key));
  }

  /** margin-horizontal, unless overwritten later, sets both horizontal margins to its
      value. */
  lemma MarginHorizontalSetsBothSides(style: Style, i: nat)
    requires i < |style| && CamelToDash(style[i].key) == "margin-horizontal"
    requires forall j :: i < j < |style| ==> "margin-left" !in Writes(style, style[j], Corrected)
    requires forall j :: i < j < |style| ==> "margin-right" !in Writes(style, style[j], Corrected)
    ensures "margin-left" in DistillStyle(style) && "margin-right" in DistillStyle(style)
    ensures DistillStyle(style)["margin-left"] == DistillStyle(style)["margin-right"] == Defined(style[i].value)
  {
    LastWriteWins(style, i, "margin-left");
    LastWriteWins(style, i, "margin-right");
  }

  /** The code as written drops the value of a camelCase property: a one-entry style such
      as `{fontSize: 12}` distils to its dashed key holding `undefined`, where the corrected
      version keeps the value. */
  lemma CamelCaseValueLostAsWritten(key: string, v: Json)
    requires !NoUpper(key) && Plain(CamelToDash(key))
    ensures DistillStyleAsWritten([StyleEntry(key, v)]) == map[CamelToDash(key) := Absent]
    ensures DistillStyle([StyleEntry(key, v)]) == map[CamelToDash(key) := Defined(v)]
  {
    var style := [StyleEntry(key, v)];
    var k := CamelToDash(key);
    assert k != key;
    assert Lookup(style, k) == Absent;
    var wa := EntryWrites(style, AsWritten);
    var wc := EntryWrites(style, Corrected);
    assert wa[0] == map[k := Absent];
    assert wc[0] == map[k := Defined(v)];
    FindCssExt(DistillStyleAsWritten(style), map[k := Absent]);
    FindCssExt(DistillStyle(style), map[k := Defined(v)]);
  }

  /** In an object with distinct keys, looking up an entry's key finds that entry. */
  lemma {:induction false} LookupDistinct(style: Style, i: nat)
    requires i < |style|
    requires forall a, b :: 0 <= a < b < |style| ==> style[a].key != style[b].key
    ensures Lookup(style, style[i].key) == Defined(style[i].value)
    decreases |style|
  {
    if i > 0 {
      assert style[0].key != style[i].key;
      assert style[1..][i - 1] == style[i];
      LookupDistinct(style[1..], i - 1);
    }
  }

  /** The two versions agree on a style whose keys are already dashed and distinct. */
  lemma DashedStyleSameBothWays(style: Style)
    requires forall i :: 0 <= i < |style| ==> NoUpper(style[i].key)
    requires forall i, j :: 0 <= i < j < |style| ==> style[i].key != style[j].key
    ensures DistillStyleAsWritten(style) == DistillStyle(style)
  {
    var wa := EntryWrites(style, AsWritten);
    var wc := EntryWrites(style, Corrected);
    forall i | 0 <= i < |style|
      ensures wa[i] == wc[i]
    {
      DashedEntrySameBothWays(style, i);
    }
    assert wa == wc;
  }

  /** An entry whose key is already dashed, in a style with distinct keys, writes the same
      under both readings. */
  lemma DashedEntrySameBothWays(style: Style, i: nat)
    requires i < |style| && NoUpper(style[i].key)
    requires forall a, b :: 0 <= a < b < |style| ==> style[a].key != style[b].key
    ensures Writes(style, style[i], AsWritten) == Writes(style, style[i], Corrected)
  {
    LookupDistinct(style, i);
    assert CamelToDash(style[i].key) == style[i].key;
  }

  /** StyleSheet.create AS WRITTEN: every named style is distilled by distillStyle as
      written; the names stay. */
  function CreateAsWritten(styles: map<string, Style>): (r: map<string, Css>)
    ensures r.Keys == styles.Keys
    ensures forall name :: name in r ==> forall x :: x in r[name] ==> Plain(x)
    ensures forall name :: name in r ==> forall x ::
              FindCss(r[name], x) == LastIn(EntryWrites(styles[name], AsWritten), |styles[name]|, x)
  {
    map name | name in styles :: DistillStyleAsWritten(styles[name])
  }

  /** StyleSheet.create, corrected: every named style is distilled by the corrected
      distillStyle; the names stay. */
  function Create(styles: map<string, Style>): (r: map<string, Css>)
    ensures r.Keys == styles.Keys
    ensures forall name :: name in r ==> forall x :: x in r[name] ==> Plain(x)
    ensures forall name :: name in r ==> forall x ::
              FindCss(r[name], x) == LastIn(EntryWrites(styles[name], Corrected), |styles[name]|, x)
  {
    map name | name in styles :: DistillStyle(styles[name])
  }

  /** The two versions of StyleSheet.create agree on styles whose keys are already dashed
      and distinct. */
  lemma CreateSameOnDashedStyles(styles: map<string, Style>)
    requires forall name <- styles, i | 0 <= i < |styles[name]| :: NoUpper(styles[name][i].key)
    requires forall name <- styles, i, j | 0 <= i < j < |styles[name]| :: styles[name][i].key != styles[name][j].key
    ensures CreateAsWritten(styles) == Create(styles)
  {
    forall name <- styles
      ensures CreateAsWritten(styles)[name] == Create(styles)[name]
    {
      DashedStyleSameBothWays(styles[name]);
    }
  }
}

=== FILE: uicontext.dfy ===
/** The UI store of the script layer (js/uiContext.js): a reducer over plain objects with one
    action, SET_STATE, that merges the action's fields into the state. Objects are finite
    maps from property names to JSON values; object spread `{...a, ...b}` is the map union
    in which `b` wins. Writing the new state to local storage is left to the caller. */
module UiContext {
  import opened Base
  import opened JsonValue

  type Fields = map<string, Json>

  const SetStateType: Json := Str("SET_STATE")

  /** setState(params): `{type: 'SET_STATE', ...params}`; a `type` among the parameters
      replaces the action type. */
  function SetState(params: Fields): (r: Fields)
    ensures r.Keys == params.Keys + {"type"}
    ensures "type" !in params ==> r["type"] == SetStateType
    ensures forall k :: k in params ==> r[k] == params[k]
  {
    map["type" := SetStateType] + params
  }

  /** reducer: a SET_STATE action yields the state merged with the action's fields (the
      action winning), without any `type` field; any other action returns the state as it
      is. */
  function Reducer(state: Fields, action: Fields): (r: Fields)
    ensures "type" !in action || action["type"] != SetStateType ==> r == state
    ensures "type" in action && action["type"] == SetStateType ==>
              && r.Keys == (state.Keys + action.Keys) - {"type"}
              && (forall k :: k in action && k != "type" ==> r[k] == action[k])
              && (forall k :: k in state && k !in action && k != "type" ==> r[k] == state[k])
  {
    if "type" in action && action["type"] == SetStateType then (state + action) - {"type"}
    else state
  }

  /** Dispatching setState(params) merges the parameters into the state, dropping any
      `type` the state had. */
  lemma DispatchSetState(state: Fields, params: Fields)
    requires "type" !in params
    ensures Reducer(state, SetState(params)) == (state - {"type"}) + params
  {
    var r := Reducer(state, SetState(params));
    var m := (state - {"type"}) + params;
    assert r.Keys == m.Keys;
    forall k | k in r
      ensures r[k] == m[k]
    {
    }
  }

  /** A `type` among the parameters that is not SET_STATE turns the action into one the
      reducer ignores. */
  lemma ParamTypeOverridesAction(state: Fields, params: Fields)
    requires "type" in params && params["type"] != SetStateType
    ensures Reducer(state, SetState(params)) == state
  {
  }

  /** Dispatching the same SET_STATE action twice is dispatching it once. */
  lemma ReducerIdempotent(state: Fields, action: Fields)
    ensures Reducer(Reducer(state, action), action) == Reducer(state, action)
  {
    var once := Reducer(state, action);
    var twice := Reducer(once, action);
    if "type" in action && action["type"] == SetStateType {
      assert twice.Keys == once.Keys;
      forall k | k in twice
        ensures twice[k] == once[k]
      {
      }
    }
  }

  /** JavaScript truthiness of a JSON value. */
  predicate Truthy(v: Json) {
    match v
    case Null => false
    case Bool(b) => b
    case Int(i) => i != 0
    case Str(s) => s != ""
    case Arr(_) => true
    case Obj(_) => true
  }

  /** The initial state: the value stored under "ui" (None when nothing is stored, which
      parses to null) when it is an object with a truthy `ui` field, and `{}` otherwise. */
  function InitialState(stored: Option<Json>): (r: Fields)
    ensures stored.Some? && stored.value.Obj? && "ui" in stored.value.fields && Truthy(stored.value.fields["ui"]) ==>
              r == stored.value.fields
    ensures stored.None? ==> r == map[]
    ensures "ui" !in r ==> r == map[]
    ensures r != map[] ==> "ui" in r && Truthy(r["ui"])
  {
    if stored.Some? && stored.value.Obj? && "ui" in stored.value.fields && Truthy(stored.value.fields["ui"]) then
      stored.value.fields
    else map[]
  }

  /** A stored object without a truthy `ui` field is discarded. */
  lemma StoredStateNeedsUi(fields: Fields)
    requires "ui" !in fields || !Truthy(fields["ui"])
    ensures InitialState(Some(Obj(fields))) == map[]
  {
  }
}

=== FILE: utf8.dfy ===
/** The UTF-8 encoder the icon themes use for font glyphs (to_utf8) and the decoder of the
    `x\<hex>` escapes that name them (wstring_convert). The encoder follows the byte layout
    of section 3 of RFC 3629 but, unlike it, also encodes the surrogates U+D800..U+DFFF. */
module Utf8 {
  import opened Base

  newtype byte = b: int | 0 <= b < 256

  /** The largest code point section 3 of RFC 3629 allows. */
  const MaxCodePoint: nat := 0x10FFFF

  /** The largest value a uint32_t holds. */
  const MaxUint32: nat := 0xFFFF_FFFF

  /** The number of bytes to_utf8 produces: 0 above U+10FFFF. */
  function EncodedLength(cp: nat): (n: nat)
    ensures n <= 4
    ensures n == 0 <==> cp > MaxCodePoint
  {
    if cp <= 0x7F then 1
    else if cp <= 0x7FF then 2
    else if cp <= 0xFFFF then 3
    else if cp <= MaxCodePoint then 4
    else 0
  }

  /** The continuation loop: the low `n` six-bit groups of `cp`, each as 10xxxxxx, the most
      significant group first. */
  function Continuations(cp: nat, n: nat): (r: seq<byte>)
    ensures |r| == n
    ensures forall k :: 0 <= k < n ==> 0x80 <= r[k] < 0xC0
  {
    if n == 0 then []
    else Continuations(cp / 64, n - 1) + [(0x80 + cp % 64) as byte]
  }

  /** What the shifts leave of `cp` once `n` groups have been taken off. */
  function Shifted(cp: nat, n: nat): nat {
    if n == 0 then cp else Shifted(cp / 64, n - 1)
  }

  /** The bits the lead-byte loop sets: the top `count` bits of the byte. */
  function LeadPrefix(count: nat): nat {
    if count == 2 then 0xC0 else if count == 3 then 0xE0 else 0xF0
  }

  /** to_utf8. The lead byte ORs the length prefix into what the shifts left of `cp`; the
      two share no bit, so the OR is an addition. */
  function ToUtf8(cp: nat): (r: seq<byte>)
    ensures |r| == EncodedLength(cp)
    ensures cp <= 0x7F ==> r == [cp as byte]
    ensures 0x7F < cp <= 0x7FF ==> 0xC2 <= r[0] < 0xE0
    ensures 0x7FF < cp <= 0xFFFF ==> 0xE0 <= r[0] < 0xF0
    ensures 0xFFFF < cp <= MaxCodePoint ==> 0xF0 <= r[0] < 0xF5
    ensures forall k :: 1 <= k < |r| ==> 0x80 <= r[k] < 0xC0
  {
    var count := EncodedLength(cp);
    if count == 0 then []
    else if count == 1 then [cp as byte]
    else
      ShiftedValue(cp, count - 1);
      [(LeadPrefix(count) + Shifted(cp, count - 1)) as byte] + Continuations(cp, count - 1)
  }

  /** Taking `n` groups off is dividing by 64^n. */
  lemma ShiftedValue(cp: nat, n: nat)
    ensures n == 1 ==> Shifted(cp, n) == cp / 64
    ensures n == 2 ==> Shifted(cp, n) == cp / 4096
    ensures n == 3 ==> Shifted(cp, n) == cp / 262144
  {
    if n >= 2 {
      assert Shifted(cp, n) == Shifted(cp / 64, n - 1);
      DivDiv(cp, 64, 64);
      if n == 3 {
        DivDiv(cp / 64, 64, 64);
        DivDiv(cp, 64, 4096);
      }
    }
  }

  lemma DivDiv(x: nat, a: nat, b: nat)
    requires a > 0 && b > 0
    ensures x / a / b == x / (a * b)
  {
    var q := x / a / b;
    var r := x / a % b;
    assert x / a == q * b + r;
    assert x == (q * b + r) * a + x % a;
    assert x == q * (a * b) + (r * a + x % a);
    assert r * a + x % a < a * b by {
      assert r * a <= (b - 1) * a;
    }
    DivModUnique(x, q, r * a + x % a, a * b);
  }

  // ---------------------------------------------------------------- decoding

  predicate IsContinuation(b: byte) {
    0x80 <= b < 0xC0
  }

  /** The value of the continuation bytes `bs`, most significant first. */
  function ContinuationValue(bs: seq<byte>): nat
    requires forall k :: 0 <= k < |bs| ==> IsContinuation(bs[k])
  {
    if |bs| == 0 then 0
    else
      assert IsContinuation(bs[|bs| - 1]);
      ContinuationValue(bs[..|bs| - 1]) * 64 + (bs[|bs| - 1] as int - 0x80) as nat
  }

  /** A decoder of one UTF-8 sequence, written from the byte layout of section 3 of RFC
      3629 independently of the encoder: the lead byte gives the length and its low bits,
      the continuation bytes six bits each. */
  function Decode(bs: seq<byte>): Option<nat> {
    if |bs| == 0 then None
    else
      var lead := bs[0];
      var n := if lead < 0x80 then 1 else if 0xC0 <= lead < 0xE0 then 2
               else if 0xE0 <= lead < 0xF0 then 3 else if 0xF0 <= lead < 0xF8 then 4 else 0;
      if n == 0 || |bs| != n || exists k :: 1 <= k < n && !IsContinuation(bs[k]) then None
      else
        var low := if n == 1 then lead as nat else (lead as nat - LeadPrefix(n));
        Some(low * Pow64(n - 1) + ContinuationValue(bs[1..]))
  }

  function Pow64(n: nat): (r: nat)
    ensures r >= 1
  {
    if n == 0 then 1 else 64 * Pow64(n - 1)
  }

  /** The continuation groups carry the low 6n bits of the code point. */
  lemma {:induction false} ContinuationsValue(cp: nat, n: nat)
    ensures ContinuationValue(Continuations(cp, n)) == cp % Pow64(n)
    ensures cp == Shifted(cp, n) * Pow64(n) + cp % Pow64(n)
  {
    if n > 0 {
      ContinuationsValue(cp / 64, n - 1);
      var cs := Continuations(cp, n);
      assert cs[..|cs| - 1] == Continuations(cp / 64, n - 1);
      GroupSplit(cp, Pow64(n - 1), Shifted(cp / 64, n - 1), (cp / 64) % Pow64(n - 1));
    }
  }

  /** Peeling the low six bits off a number whose quotient by 64 splits at `p` splits it at
      64p. */
  lemma GroupSplit(cp: nat, p: nat, q: nat, lo: nat)
    requires 1 <= p && lo < p && cp / 64 == q * p + lo
    ensures cp == q * (64 * p) + (lo * 64 + cp % 64)
    ensures cp % (64 * p) == lo * 64 + cp % 64
  {
    assert cp == (q * p + lo) * 64 + cp % 64;
    assert cp == q * (64 * p) + (lo * 64 + cp % 64);
    assert lo * 64 + cp % 64 < 64 * p by {
      assert lo * 64 <= (p - 1) * 64;
    }
    DivModUnique(cp, q, lo * 64 + cp % 64, 64 * p);
  }

  /** Decoding the encoding of any code point up to U+10FFFF gives it back. */
  lemma DecodeEncode(cp: nat)
    requires cp <= MaxCodePoint
    ensures Decode(ToUtf8(cp)) == Some(cp)
  {
    var count := EncodedLength(cp);
    if count > 1 {
      var r := ToUtf8(cp);
      var hi := Shifted(cp, count - 1);
      assert r[0] as nat - LeadPrefix(count) == hi by {
        ShiftedValue(cp, count - 1);
      }
      assert r[1..] == Continuations(cp, count - 1);
      DecodeMulti(r, count);
      ContinuationsValue(cp, count - 1);
    }
  }

  /** A lead byte of a multi-byte form followed by the right number of continuation bytes
      decodes to the lead's low bits above the continuation groups. */
  lemma DecodeMulti(bs: seq<byte>, n: nat)
    requires 2 <= n <= 4 && |bs| == n
    requires n == 2 ==> 0xC0 <= bs[0] < 0xE0
    requires n == 3 ==> 0xE0 <= bs[0] < 0xF0
    requires n == 4 ==> 0xF0 <= bs[0] < 0xF8
    requires forall k :: 1 <= k < n ==> 0x80 <= bs[k] < 0xC0
    ensures Decode(bs) == Some((bs[0] as nat - LeadPrefix(n)) * Pow64(n - 1) + ContinuationValue(bs[1..]))
  {
    assert !exists k :: 1 <= k < n && !IsContinuation(bs[k]);
  }

  /** A surrogate is encoded rather than rejected: U+D800 becomes ED A0 80. */
  lemma SurrogateIsEncoded()
    ensures ToUtf8(0xD800) == [0xED, 0xA0, 0x80]
  {
    ShiftedValue(0xD800, 2);
  }

  // ---------------------------------------------------------------- escapes

  /** The value of a hexadecimal digit, or -1. */
  function HexDigit(c: char): int {
    if '0' <= c <= '9' then c as int - '0' as int
    else if 'a' <= c <= 'f' then c as int - 'a' as int + 10
    else if 'A' <= c <= 'F' then c as int - 'A' as int + 10
    else -1
  }

  predicate IsHexDigit(c: char) {
    HexDigit(c) >= 0
  }

  /** The number of hexadecimal digits `s` starts with. */
  function LeadingHex(s: string): (n: nat)
    ensures n <= |s|
    ensures forall k :: 0 <= k < n ==> IsHexDigit(s[k])
    ensures n < |s| ==> !IsHexDigit(s[n])
  {
    if |s| == 0 || !IsHexDigit(s[0]) then 0 else 1 + LeadingHex(s[1..])
  }

  function HexValue(digits: string): nat
    requires forall k :: 0 <= k < |digits| ==> IsHexDigit(digits[k])
  {
    if |digits| == 0 then 0
    else
      assert IsHexDigit(digits[|digits| - 1]);
      HexValue(digits[..|digits| - 1]) * 16 + HexDigit(digits[|digits| - 1]) as nat
  }

  /** `iss >> std::hex >> cp` into a uint32_t: the leading hexadecimal digits, failing when
      there are none or their value does not fit. */
  function ParseHex(s: string): (r: Option<nat>)
    ensures r.Some? ==> r.value <= MaxUint32
    ensures r.None? <==> LeadingHex(s) == 0 || HexValue(s[..LeadingHex(s)]) > MaxUint32
    ensures r.Some? ==> r.value == HexValue(s[..LeadingHex(s)])
  {
    var n := LeadingHex(s);
    if n == 0 then None
    else
      var v := HexValue(s[..n]);
      if v > MaxUint32 then None else Some(v)
  }

  /** The lower-case hexadecimal digit of a value below 16. */
  function DigitChar(d: nat): (c: char)
    requires d < 16
    ensures HexDigit(c) == d
  {
    if d < 10 then ('0' as int + d) as char else ('a' as int + d - 10) as char
  }

  /** The lower-case hexadecimal numeral of `n`, without leading zeros. */
  function HexDigits(n: nat): (r: string)
    ensures |r| >= 1 && forall k :: 0 <= k < |r| ==> IsHexDigit(r[k])
  {
    if n < 16 then [DigitChar(n)] else HexDigits(n / 16) + [DigitChar(n % 16)]
  }

  /** Reading a numeral back gives its value. */
  lemma {:induction false} HexValueOfDigits(n: nat)
    ensures HexValue(HexDigits(n)) == n
  {
    var d := HexDigits(n);
    if n < 16 {
      assert d[..0] == "";
    } else {
      HexValueOfDigits(n / 16);
      assert d[..|d| - 1] == HexDigits(n / 16);
    }
  }

  /** `iss >> std::hex` reads back any uint32_t written as a numeral, whatever non-digit
      text follows it. */
  lemma ParseHexDigits(n: nat, rest: string)
    requires n <= MaxUint32
    requires |rest| == 0 || !IsHexDigit(rest[0])
    ensures ParseHex(HexDigits(n) + rest) == Some(n)
  {
    var d := HexDigits(n);
    var s := d + rest;
    var m := LeadingHex(s);
    assert forall k :: 0 <= k < |d| ==> s[k] == d[k];
    assert |s| > |d| ==> s[|d|] == rest[0];
    assert m == |d|;
    assert s[..m] == d;
    HexValueOfDigits(n);
  }

  /** Bytes as the characters of a std::string. */
  function Chars(bs: seq<byte>): (r: string)
    ensures |r| == |bs|
  {
    seq(|bs|, k requires 0 <= k < |bs| => bs[k] as int as char)
  }

  const Escape: string := "x\\"

  /** An escape at `i` whose remainder parses as a hexadecimal number. */
  predicate Convertible(s: string, i: int) {
    OccursAt(s, Escape, i) && ParseHex(s[i + 2..]).Some?
  }

  /** No escape at or after `start` is convertible. */
  ghost predicate NoneConvertible(s: string, start: int) {
    forall i :: start <= i ==> !Convertible(s, i)
  }

  /** `i` is the first convertible escape at or after `start`. */
  ghost predicate FirstConvertible(s: string, start: int, i: int) {
    start <= i && Convertible(s, i) && forall j :: start <= j < i ==> !Convertible(s, j)
  }

  /** The text with a convertible escape and everything after it replaced by the UTF-8 of
      the escape's number. */
  function Converted(s: string, i: int): string
    requires Convertible(s, i)
  {
    s[..i] + Chars(ToUtf8(ParseHex(s[i + 2..]).value))
  }

  /** The loop of wstring_convert from index `start`. A convertible escape replaces
      everything from it to the end of the string with the UTF-8 of the number, and the
      search goes on after the inserted bytes; an escape whose remainder does not parse is
      stepped over. */
  function ConvertFrom(s: string, start: nat): (r: string)
    ensures NoneConvertible(s, start) ==> r == s
    ensures forall i :: FirstConvertible(s, start, i) ==> r == Converted(s, i)
    decreases |s| - start
  {
    var i := IndexOfFrom(s, Escape, start);
    if i == -1 then
      NoEscapeNoneConvertible(s, start);
      s
    else if ParseHex(s[i + 2..]).Some? then
      var t := Converted(s, i);
      FirstEscapeConverts(s, start, i);
      assert NoneConvertible(t, |t|);
      ConvertFrom(t, |t|)
    else
      FirstEscapeSkipped(s, start, i);
      ConvertFrom(s, i + 2)
  }

  /** Without an escape at or after `start` nothing there is convertible. */
  lemma NoEscapeNoneConvertible(s: string, start: nat)
    requires forall i :: start <= i ==> !OccursAt(s, Escape, i)
    ensures NoneConvertible(s, start)
    ensures forall i :: !FirstConvertible(s, start, i)
  {
  }

  /** When the first escape at or after `start` is convertible, it is the first
      convertible escape. */
  lemma FirstEscapeConverts(s: string, start: nat, i: nat)
    requires start <= i && Convertible(s, i)
    requires forall j :: start <= j < i ==> !OccursAt(s, Escape, j)
    ensures !NoneConvertible(s, start)
    ensures forall i' :: FirstConvertible(s, start, i') ==> i' == i
  {
  }

  /** When the first escape at or after `start` does not parse, the next candidate is two
      characters on: the `\\` of the escape cannot start one. */
  lemma FirstEscapeSkipped(s: string, start: nat, i: nat)
    requires start <= i && OccursAt(s, Escape, i) && ParseHex(s[i + 2..]).None?
    requires forall j :: start <= j < i ==> !OccursAt(s, Escape, j)
    ensures NoneConvertible(s, i + 2) ==> NoneConvertible(s, start)
    ensures forall i' :: FirstConvertible(s, start, i') ==> FirstConvertible(s, i + 2, i')
  {
    assert s[i + 1] == s[i..i + 2][1];
    assert !OccursAt(s, Escape, i + 1);
  }

  /** wstring_convert. */
  function WStringConvert(s: string): (r: string)
    ensures !Contains(s, Escape) ==> r == s
  {
    ConvertFrom(s, 0)
  }

  /** The shape icon themes use: text free of escapes, then an escape and a hexadecimal
      number; everything from the escape on becomes the UTF-8 of the number. */
  lemma ConvertEscapedGlyph(prefix: string, tail: string)
    requires !Contains(prefix, Escape)
    requires ParseHex(tail).Some?
    ensures WStringConvert(prefix + Escape + tail) == prefix + Chars(ToUtf8(ParseHex(tail).value))
  {
    var s := prefix + Escape + tail;
    var i := |prefix|;
    assert s[i..i + 2] == Escape;
    assert s[i + 2..] == tail;
    forall j | 0 <= j < i
      ensures !Convertible(s, j)
    {
      if j + 2 <= i {
        assert s[j..j + 2] == prefix[j..j + 2];
        assert !OccursAt(prefix, Escape, j);
      } else {
        assert s[j + 1] == 'x';
      }
    }
    assert FirstConvertible(s, 0, i);
    assert s[..i] == prefix;
  }

  /** A concrete glyph: the escape of U+F101 becomes its three UTF-8 bytes. */
  lemma ConvertExample()
    ensures WStringConvert("x\\f101") == Chars([0xEF, 0x84, 0x81])
  {
    ParseExample();
    EncodeExample();
    assert !Contains("", Escape);
    ConvertEscapedGlyph("", "f101");
    assert "" + Escape + "f101" == "x\\f101";
  }

  lemma ParseExample()
    ensures ParseHex("f101") == Some(0xF101)
  {
    var tail := "f101";
    assert LeadingHex(tail) == 4;
    assert tail[..4] == tail;
    assert HexValue("f") == 15 by {
      assert "f"[..0] == "";
    }
    assert HexValue("f1") == 0xF1 by {
      assert "f1"[..1] == "f";
    }
    assert HexValue("f10") == 0xF10 by {
      assert "f10"[..2] == "f1";
    }
    assert HexValue(tail) == 0xF101 by {
      assert tail[..3] == "f10";
    }
  }

  lemma EncodeExample()
    ensures ToUtf8(0xF101) == [0xEF, 0x84, 0x81]
  {
    ShiftedValue(0xF101, 2);
  }
}
